=== FILE: README.md ===
# InteractiveItinerary in Dafny

A model of the logic of InteractiveItinerary. It is an offline-first trip
itinerary web page with these parts:

- a day-by-day route map with numbered stops, a hotel pin and background map tiles;
- a zoomable and pannable map viewport;
- a validator for uploaded itinerary JSON;
- a per-activity checklist that is saved to `localStorage`;
- a password-gated Cloudflare worker that serves the itinerary;
- a service worker that caches the app, the tiles, the fonts and the images;
- a maintenance script that points image URLs at locally hosted copies.

Each part is a Dafny module of pure functions over immutable datatypes. A
few loops are methods with loop invariants. Parsed JSON is the `Json`
datatype in `json.dfy`. A number is a `real`, and an object is a map from
keys to values, so that `key in obj` and property reads behave as in
JavaScript for the values the sources handle. Key order is not represented;
no modelled operation depends on it.

| module | file | models |
|---|---|---|
| `Projection` | projection.dfy | `latLngToWorld`: Web-Mercator projection and the zoom scale factor |
| `Stops` | stops.dfy | the `mapValid` filter of activities with numeric coordinates |
| `Geometry` | geometry.dfy | `buildMapGeometry`, `getBounds`: zoom search and centring |
| `Tiles` | tiles.dfy | `renderTileLayer`, `getTileUrls`: covering tiles and their URLs |
| `Route` | route.dfy | `renderMapSection`: markers, route segments, hotel pin, legend counts |
| `Viewport` | viewport.dfy | scale, viewBox origin, focal zoom, pan clamp, zoom buttons |
| `Gestures` | gestures.dfy | wheel, mouse, touch, pinch, double-click and click-capture handlers |
| `ValidationErrors`, `ValidationLinks`, `ValidationActivities`, `ValidationDays`, `Validation` | validation_*.dfy, validation.dfy | `validateItinerary`, with structured errors |
| `ValidationProperties` | validation_properties.dfy | what the validator reports, stated per field |
| `Checklist`, `ChecklistProperties` | checklist.dfy, checklist_properties.dfy | statuses, storage, expand/select/tab keys, `loadItinerary` |
| `Worker` | worker.dfy | the `/auth-itinerary` endpoint |
| `ServiceWorker` | service_worker.dfy | fetch routing, cache clean-up, message handler, bulk precache |
| `Rewrite` | rewrite.dfy | day keys, file lookup, `--base-url`, the URL rewrite rule |
| `Wrappers`, `Json`, `Text`, `JsArith`, `Seqs` | wrappers.dfy, json.dfy, text.dfy, js_arith.dfy, seqs.dfy | shared helpers, including the in-order sublist relation |

The model has a few parameters:

- The transcendental part of the projection (`log(tan(...))`) is the function parameter `mercY`.
- Date parsing in the validator is the parameter `earlier`.
- `JSON.parse` of the stored itinerary in the worker is the parameter `parse`.
- Whether fetching a URL succeeds in the service worker is the parameter `stored`.
- The image directory listing of the rewrite script is the parameter `files`.

## Model

| member | source | states |
|---|---|---|
| Projection.ClampLatitude | assets/scripts/modules/map-rendering.js:224-227 | the latitude is clamped into ±85.05112878 and left unchanged inside that range |
| Projection.UnitX | assets/scripts/modules/map-rendering.js:229 | longitudes -180..180 map onto 0..1, with -180 at 0 and 180 at 1 |
| Projection.LatLngToWorld | assets/scripts/modules/map-rendering.js:224-234 | the world point is the unit point times the world size 2^z·256 on both axes |
| Projection.ScaledIsWorldSizeMultiple | assets/scripts/modules/map-rendering.js:228-233 | doubling once per zoom level equals multiplying by 2^z·256 |
| Projection.LongitudeWithinWorld | assets/scripts/modules/map-rendering.js:226-229 | every longitude in [-180, 180] projects inside one world width |
| Projection.DoublingLaw | assets/scripts/modules/map-rendering.js:228-233 | one more zoom level exactly doubles both world coordinates |
| Projection.PolarLatitudesClamp | assets/scripts/modules/map-rendering.js:227 | latitudes beyond the limit project like the limit |
| Stops.MapValid | assets/scripts/app.js:386-391 | the kept activities are exactly those with an object `location` holding numeric `lat` and `lng`, in their original order |
| Geometry.SeqMin | assets/scripts/modules/map-rendering.js:237-241 | `Math.min(...xs)` is a lower bound of the elements |
| Geometry.SeqMax | assets/scripts/modules/map-rendering.js:237-242 | `Math.max(...xs)` is an upper bound of the elements |
| Geometry.SeqMinAttained | assets/scripts/modules/map-rendering.js:237-241 | the minimum is one of the elements |
| Geometry.SeqMaxAttained | assets/scripts/modules/map-rendering.js:237-242 | the maximum is one of the elements |
| Geometry.GetBounds | assets/scripts/modules/map-rendering.js:236-252 | the box contains every point, and each extent is the spread floored at 1 |
| Geometry.SinglePointBounds | assets/scripts/modules/map-rendering.js:244-251 | one point gives a 1 x 1 box at that point |
| Geometry.SearchZoom | assets/scripts/modules/map-rendering.js:188-200 | the downward search returns the first (highest) fitting level, none above it fits, and None means none fits |
| Geometry.ChooseZoom | assets/scripts/modules/map-rendering.js:186-200 | the zoom is the highest fitting level in 2..15, or 15 when none fits |
| Geometry.PlaceIsTranslation | assets/scripts/modules/map-rendering.js:211-221 | placing is a translation: the offsets between any two points are kept, and each point plus the origin is its world point |
| Geometry.CentringOrigin | assets/scripts/modules/map-rendering.js:205-209 | the centre of the bounds lands on the centre of the canvas |
| Geometry.BuildMapGeometry | assets/scripts/modules/map-rendering.js:183-222 | the zoom is the chosen level, and every point is its projection at that zoom minus the origin, numbered from 1 |
| Geometry.BoxCentred | assets/scripts/modules/map-rendering.js:202-209 | the centre of the stops' bounding box at the chosen zoom lands on the centre of the canvas |
| Geometry.MinOfDoubled | assets/scripts/modules/map-rendering.js:236-252 | doubling every coordinate doubles its minimum and maximum |
| Geometry.SpreadDoubles | assets/scripts/modules/map-rendering.js:188-200 | one zoom level more doubles the spread on both axes |
| Geometry.FitStepDown | assets/scripts/modules/map-rendering.js:188-200 | fitting at z+1 implies fitting at z |
| Geometry.FitDownwardClosed | assets/scripts/modules/map-rendering.js:188-200 | fitting at k implies fitting at every j ≤ k |
| Geometry.FitsExactlyUpToChosenZoom | assets/scripts/modules/map-rendering.js:186-200 | when any level fits, a level fits iff it is at most the chosen zoom |
| Geometry.SpreadsAtLeastAtEveryZoom | assets/scripts/modules/map-rendering.js:188-200 | a wider point set is wider at every zoom |
| Geometry.ZoomMonotoneInSpread | assets/scripts/modules/map-rendering.js:186-200 | a point set that spreads at least as far never gets a higher zoom, when it fits somewhere |
| Geometry.SupersetSpreadsAtLeast | assets/scripts/modules/map-rendering.js:60-76 | adding points, such as the hotel, can only widen the spread |
| Geometry.PointsInsidePaddedCanvas | assets/scripts/modules/map-rendering.js:183-222 | when some zoom fits, every placed point lies inside the canvas with the padding as margin |
| Geometry.SinglePointCentred | assets/scripts/modules/map-rendering.js:202-221 | a single point is placed at the canvas centre minus half a pixel |
| Geometry.WideSpreadDoesNotFit | assets/scripts/modules/map-rendering.js:188-200 | two points further apart than the available width at a zoom do not fit at that zoom |
| Geometry.NarrowSpreadFits | assets/scripts/modules/map-rendering.js:188-200 | points that all lie in a square no larger than the available area fit |
| Geometry.TooWideFallsBack | assets/scripts/modules/map-rendering.js:186-200 | points too far apart even at the widest zoom fit nowhere, and the search falls back to zoom 15 |
| Geometry.TooWideCapsZoom | assets/scripts/modules/map-rendering.js:186-200 | points too far apart at zoom z are drawn below z when some zoom fits |
| Geometry.FallbackZoomsIn | assets/scripts/modules/map-rendering.js:186-200 | the fallback is not monotone: two close stops get zoom 4 or lower, and adding a stop a world away gives zoom 15 |
| Tiles.TileCount | assets/scripts/modules/map-rendering.js:256 | `2 ** z` is a positive integer equal to the world size divided by 256 |
| Tiles.JsRemDecomposition | assets/scripts/modules/map-rendering.js:268-269 | JavaScript's truncating remainder differs from its dividend by a multiple of n |
| Tiles.WrapColumnIsResidue | assets/scripts/modules/map-rendering.js:268-269 | `((x % n) + n) % n` lies in [0, n) and is the mathematical residue of x, also for negative x |
| Tiles.RangeCoversCanvas | assets/scripts/modules/map-rendering.js:257-260 | the column and row range covers the whole canvas rectangle |
| Tiles.ColumnCells | assets/scripts/modules/map-rendering.js:265-266 | the cells of one column lie in the row range and in [0, 2^z) |
| Tiles.GridCells | assets/scripts/modules/map-rendering.js:264-266 | the grid cells lie in the column range and row range, with rows in [0, 2^z) |
| Tiles.ColumnCellsComplete | assets/scripts/modules/map-rendering.js:264-266 | every row of the range inside [0, 2^z) is emitted for the column |
| Tiles.GridCellsComplete | assets/scripts/modules/map-rendering.js:262-266 | every cell of the range with a row inside [0, 2^z) is emitted |
| Tiles.TileUrlInjective | assets/scripts/modules/map-rendering.js:309-311 | two tiles with the same URL are the same tile: zoom, column and row are read back from the `z/x/y` path |
| Tiles.CoveringTilesInRange | assets/scripts/modules/map-rendering.js:266-269 | every emitted tile is a real tile of that zoom: column and row in [0, 2^z) |
| Tiles.CoveringTilesExactly | assets/scripts/modules/map-rendering.js:254-279 | a tile is emitted iff it is the wrap of a cell of the range whose row is in [0, 2^z) |
| Tiles.GridTilesExactly | assets/scripts/modules/map-rendering.js:262-270 | the tiles of a grid are exactly the wraps of its cells with a row in [0, 2^z) |
| Tiles.AppendColumnImages | assets/scripts/modules/map-rendering.js:265-275 | the row loop appends one image per cell of its column |
| Tiles.RenderTileLayer | assets/scripts/modules/map-rendering.js:254-279 | the loops build `TileLayer`: one image per covering cell, in loop order |
| Tiles.UrlsOf | assets/scripts/modules/map-rendering.js:309-311 | the URL of each tile, in order; two entries have the same URL iff they are the same tile |
| Tiles.AppendColumnTiles | assets/scripts/modules/map-rendering.js:305-312 | the row loop appends one tile per cell of its column |
| Tiles.CoveringTileList | assets/scripts/modules/map-rendering.js:303-314 | the loops of `getTileUrls` emit the covering tiles in order |
| Tiles.TileUrlsOf | assets/scripts/modules/map-rendering.js:303-314 | the URL list is the covering tiles' URLs |
| Tiles.GetTileUrls | assets/scripts/modules/map-rendering.js:285-315 | empty for no activities or none mappable; otherwise the URLs of the tiles covering the geometry of the mappable ones |
| Tiles.RenderAndPrecacheAgree | assets/scripts/modules/map-rendering.js:254-315 | the rendered layer and the precache list name the same tiles in the same order |
| Route.MissingLocation | assets/scripts/modules/map-rendering.js:40-45 | exactly the activities without numeric coordinates are listed as missing |
| Route.MissingLocationInOrder | assets/scripts/modules/map-rendering.js:40-45 | the missing activities keep their day order: they are an in-order sublist of the day's activities |
| Route.GeometryUnits | assets/scripts/modules/map-rendering.js:60-70 | the zoom input is the stops, then the hotel when it has map data |
| Route.Markers | assets/scripts/modules/map-rendering.js:77-89 | one marker per mapped stop, in order, numbered from 1 |
| Route.RenderMapSection | assets/scripts/modules/map-rendering.js:7-181 | the pills count mapped and missing stops, the hotel pill shows iff the hotel has map data, and the map is unavailable iff nothing can be drawn |
| Route.MarkersNumberedAndJoined | assets/scripts/modules/map-rendering.js:77-89 | with n mapped stops the markers are numbered 1..n in input order and max(0, n-1) segments join them |
| Route.SegmentsFormOneLine | assets/scripts/modules/map-rendering.js:128-133 | each segment starts where the previous one ends, from the first marker to the last: the route is one connected line |
| Route.LegendMatchesMarkers | assets/scripts/modules/map-rendering.js:77-173 | after the hotel entry, if any, legend entry i carries the same number and activity as marker i, which are i+1 and the i-th mapped stop |
| Route.LegendEntries | assets/scripts/modules/map-rendering.js:161-173 | the legend has one entry per mapped stop and one per unmapped activity after the optional hotel, the stops numbered from 1 in order, then the unmapped activities in day order |
| Route.HotelInGeometryNotInMarkers | assets/scripts/modules/map-rendering.js:60-102 | the hotel adds one point to the zoom input, none to the markers, and gets its own pin |
| Route.DrawnParts | assets/scripts/modules/map-rendering.js:71-173 | the drawn body holds the geometry and markers built from the stops, the rendered tile layer, and the legend of hotel, stops and missing activities |
| Route.MarkersOnPoints | assets/scripts/modules/map-rendering.js:77-89 | markers computed from the geometry sit on its points |
| Route.MarkersAtGeometryPoints | assets/scripts/modules/map-rendering.js:71-89 | each marker sits where the geometry placed the same stop |
| Route.MarkersInsideCanvas | assets/scripts/modules/map-rendering.js:57-89 | when some zoom fits, every marker lies inside the padded canvas |
| Route.StopMarkersInsideCanvas | assets/scripts/modules/map-rendering.js:57-89 | the stop markers lie inside the padded canvas |
| Route.PointsInsideCanvas | assets/scripts/modules/map-rendering.js:57-76 | the containment property at the day map's 360 x 280 canvas with padding 32 |
| Route.StopsPartitionActivities | assets/scripts/modules/map-rendering.js:24-25 | the mapped and missing lists together count every activity once |
| Route.MissingCountMatchesLegend | assets/scripts/modules/map-rendering.js:24-25 | the missing pill counts exactly the activities the legend lists as unavailable |
| Viewport.ClampScale | assets/scripts/modules/map-interaction.js:73 | the scale is clamped into [0.5, 6] and kept when already inside |
| Viewport.ClampAxis | assets/scripts/modules/map-interaction.js:42-43 | one origin coordinate is clamped into its range and kept when inside |
| Viewport.ClampPan | assets/scripts/modules/map-interaction.js:37-44 | the clamp keeps the scale, lands in the pan range, and leaves an in-range view alone |
| Viewport.ClampPanIdempotent | assets/scripts/modules/map-interaction.js:37-44 | clamping twice is clamping once |
| Viewport.PanRangeNonEmpty | assets/scripts/modules/map-interaction.js:37-44 | the pan range is non-empty at every scale |
| Viewport.FocalZoom | assets/scripts/modules/map-interaction.js:77-80 | the focal zoom sets the new scale |
| Viewport.FocalPointFixed | assets/scripts/modules/map-interaction.js:76-80 | the focal point keeps its screen offset from the origin |
| Viewport.FocalFractionKept | assets/scripts/modules/map-interaction.js:76-80 | the focal point keeps its relative position in the viewBox |
| Viewport.FocalZoomComposes | assets/scripts/modules/map-interaction.js:76-80 | two focal zooms about one point compose into one |
| Viewport.ZoomAtPoint | assets/scripts/modules/map-interaction.js:72-84 | the result has the clamped scale; it is the old view or a settled one; a settled view stays settled |
| Viewport.UnclampedZoom | assets/scripts/modules/map-interaction.js:72-84 | when neither clamp acts, `zoomAtPoint` is the plain focal zoom |
| Viewport.ZoomInOutRoundTrip | assets/scripts/modules/map-interaction.js:72-96 | one step in and one step out about the same point restores the view when no clamp acts |
| Viewport.ZoomIn | assets/scripts/modules/map-interaction.js:86-90 | zooming in keeps a settled view settled |
| Viewport.ZoomOut | assets/scripts/modules/map-interaction.js:92-96 | zooming out keeps a settled view settled |
| Viewport.ButtonZoomKeepsCentre | assets/scripts/modules/map-interaction.js:86-96 | the zoom buttons keep the viewBox centre when no clamp acts |
| Viewport.ResetZoom | assets/scripts/modules/map-interaction.js:98-103 | reset gives scale 1 at origin (0, 0), which is settled |
| Viewport.WheelFactor | assets/scripts/modules/map-interaction.js:106-111 | the wheel zooms in iff the delta is negative |
| Viewport.DoubleClickIsTwoSteps | assets/scripts/modules/map-interaction.js:244-248 | a double click equals two zoom-in steps when no clamp acts |
| Viewport.ClientCornersMapToViewBox | assets/scripts/modules/map-interaction.js:58-66 | the element's corners map to the viewBox corners |
| Gestures.PannedView | assets/scripts/modules/map-interaction.js:140-142 | a pan keeps the scale and lands in the pan range |
| Gestures.PinchScale | assets/scripts/modules/map-interaction.js:201-206 | the pinch scale is a legal scale |
| Gestures.PinchView | assets/scripts/modules/map-interaction.js:207-216 | a pinch gives a legal scale and a clamped origin |
| Gestures.MouseDownStartsDrag | assets/scripts/modules/map-interaction.js:121-132 | a press never moves the map; only the primary button starts a drag, unmoved, from the pointer and the current origin; other buttons leave the drag state alone |
| Gestures.TouchEndStopsPan | assets/scripts/modules/map-interaction.js:237-241 | lifting fingers never moves the map; the one-finger pan survives iff it was on and two or more fingers remain |
| Gestures.Step | assets/scripts/modules/map-interaction.js:106-258 | every handler keeps a legal scale and a clamped origin |
| Gestures.Run | assets/scripts/modules/map-interaction.js:270-287 | a run of events keeps the invariant |
| Gestures.FreshSettled | assets/scripts/modules/map-interaction.js:26-28 | the initial controller satisfies the invariant |
| Gestures.ClickCapture | assets/scripts/modules/map-interaction.js:261-268 | a click is swallowed iff a drag or touch pan moved, and swallowing clears both flags |
| Gestures.ClickSwallowedOnce | assets/scripts/modules/map-interaction.js:261-268 | after a swallowed click the next click goes through |
| Gestures.MouseMovesNotCumulative | assets/scripts/modules/map-interaction.js:134-144 | each mouse move pans from the mouse-down snapshot |
| Gestures.MouseMoveFlag | assets/scripts/modules/map-interaction.js:137-139 | the moved flag is set iff the scaled delta exceeds 1 on some axis |
| Gestures.SecondaryButtonNeverPans | assets/scripts/modules/map-interaction.js:121-135 | another button starts no drag, and mouse moves then change nothing |
| Gestures.MovesIgnoredWithoutDrag | assets/scripts/modules/map-interaction.js:134-135 | without a drag, mouse moves change nothing |
| Gestures.TouchMovesNotCumulative | assets/scripts/modules/map-interaction.js:217-234 | each one-finger move pans from the touch-start snapshot |
| Gestures.PinchRepeatable | assets/scripts/modules/map-interaction.js:198-216 | repeating a pinch move changes nothing more |
| Gestures.PinchDependsOnlyOnSnapshot | assets/scripts/modules/map-interaction.js:198-216 | a pinch depends only on the touch-start snapshot and the current distance |
| Gestures.PinchToStartDistanceRestores | assets/scripts/modules/map-interaction.js:198-216 | a pinch back to the starting distance restores a clamped snapshot view |
| Gestures.LingeringFingerDoesNotPan | assets/scripts/modules/map-interaction.js:176-241 | a finger left after a pinch does not pan |
| ValidationErrors.MissingOf | assets/scripts/modules/validation.js:47-51 | the missing fields are exactly the listed fields `in` reports absent, as an in-order subsequence of the list, without repeats when the list has none |
| ValidationLinks.LinkErrors | assets/scripts/modules/validation.js:237-250 | one link: throws iff `null`; missing name or URL reported iff one is falsy; duplicate iff the truthy name was seen |
| ValidationLinks.ReviewLinksErrors | assets/scripts/modules/validation.js:235-251 | the link loop throws iff some later link is `null`, and its errors are about those links |
| ValidationActivities.ImageErrors | assets/scripts/modules/validation.js:185-197 | a present `image` that is not an object or array is reported as not an object; an object or array without a truthy `url` or `alt` reports each missing one; each exactly then |
| ValidationActivities.LocationErrors | assets/scripts/modules/validation.js:199-211 | a present `location` that is not an object or array is reported as not an object; an object or array without a truthy `mapsUrl` reports it; each exactly then |
| ValidationActivities.ActivityShapeErrors | assets/scripts/modules/validation.js:185-229 | shape errors only; each image, location and tips error is reported iff its condition holds |
| ValidationActivities.ShapePartsJoin | assets/scripts/modules/validation.js:185-229 | the four shape checks joined keep their scope, and each kind of error is found in its own part only |
| ValidationActivities.ActivityLinkErrors | assets/scripts/modules/validation.js:231-253 | the link check throws iff a `null` link exists; a present non-null non-array is one error |
| ValidationActivities.OrderDuplicate | assets/scripts/modules/validation.js:176-183 | a duplicate order is reported iff the numeric order was seen earlier in the day |
| ValidationActivities.ActivityPartsJoin | assets/scripts/modules/validation.js:168-253 | the four parts joined are all about this activity, and only the duplicate part reports duplicates |
| ValidationActivities.ActivityErrors | assets/scripts/modules/validation.js:164-254 | one activity: throws iff it is a primitive, `null` or has a `null` link; the seen orders grow by its numeric order |
| ValidationActivities.ActivitiesErrors | assets/scripts/modules/validation.js:162-255 | the activity loop throws iff some activity throws, and every error is about an activity of the day |
| ValidationDays.HotelErrors | assets/scripts/modules/validation.js:112-160 | a present non-object hotel is one error; a plain-object hotel reports a blank name and its location errors; each of the six exactly when its condition holds |
| ValidationDays.HotelLocationErrors | assets/scripts/modules/validation.js:131-158 | a non-object location is one error; a plain-object location reports a non-numeric `lat` or `lng` and a blank `mapsUrl`, each exactly then |
| ValidationDays.DayActivitiesErrors | assets/scripts/modules/validation.js:162-255 | the day's activity errors are about its activities |
| ValidationDays.DayNumberDuplicate | assets/scripts/modules/validation.js:105-110 | a duplicate is reported iff the numeric day number was seen on an earlier day |
| ValidationDays.DayPartsJoin | assets/scripts/modules/validation.js:99-255 | the four parts joined are about this day, and only the duplicate part reports duplicates |
| ValidationDays.DayErrors | assets/scripts/modules/validation.js:95-256 | one day: throws iff it is a primitive or `null` or holds an activity that throws; the seen numbers grow by its numeric day number |
| ValidationDays.DaysErrors | assets/scripts/modules/validation.js:94-256 | the day loop throws iff some later day throws, and every error is about one of those days |
| Validation.DateRangeErrors | assets/scripts/modules/validation.js:67-83 | a present `dateRange` that is not an object or array, a missing or falsy `start` or `end` of one that is, and an end before a present start are each reported exactly then |
| Validation.HeaderErrors | assets/scripts/modules/validation.js:54-83 | `schemaVersion`, `tripId` and `title` errors are reported iff their checks fail; the date errors are those of the `dateRange` check |
| Validation.DaysCheck | assets/scripts/modules/validation.js:85-256 | the `days` checks report no header error and throw iff a day throws |
| Validation.Validate | assets/scripts/modules/validation.js:39-259 | a non-object gives the single object error; it throws iff the day loop throws |
| ValidationProperties.MissingFieldsOnly | assets/scripts/modules/validation.js:47-52 | a missing required field ends validation with one error per absent field, in the order of the required list, without repeats |
| ValidationProperties.HeaderComesFirst | assets/scripts/modules/validation.js:54-92 | the result starts with the header errors, and nothing after them is a header error |
| ValidationProperties.HeaderChecksExactly | assets/scripts/modules/validation.js:54-65 | each header field's error is present iff its check fails |
| ValidationProperties.DateRangeChecksExactly | assets/scripts/modules/validation.js:67-83 | once the required fields are present, each `dateRange` error is in the result exactly when its condition holds |
| ValidationProperties.DaysCheckStops | assets/scripts/modules/validation.js:85-92 | a non-array or empty `days` ends validation with its own error last |
| ValidationProperties.DateOrderChecked | assets/scripts/modules/validation.js:75-81 | an end before the start is reported, and equal dates are accepted |
| ValidationProperties.NoDayErrorBeforeHeader | assets/scripts/modules/validation.js:42-52 | an early stop reports no day error |
| ValidationProperties.DayErrorInResult | assets/scripts/modules/validation.js:94-256 | a day error is in the result iff the day loop produced it |
| ValidationProperties.DaysChecked | assets/scripts/modules/validation.js:39-258 | with a non-empty `days` array the result is the header errors followed by the day loop's |
| ValidationProperties.DaysDuplicateDayNumbers | assets/scripts/modules/validation.js:94-110 | the day loop reports a duplicate iff the number was seen or appears on an earlier day of the loop |
| ValidationProperties.DuplicateDayNumberExactly | assets/scripts/modules/validation.js:94-110 | a day is a duplicate iff its numeric `dayNumber` appeared on an earlier day |
| ValidationProperties.DaysErrorsActivityLevel | assets/scripts/modules/validation.js:162-255 | an activity error is in the day loop's result iff its day's activity loop produced it |
| ValidationProperties.ActivitiesErrorsPerActivity | assets/scripts/modules/validation.js:164-254 | a non-duplicate activity error is in the loop's result iff that activity's own checks report it |
| ValidationProperties.ActivityMissingExactly | assets/scripts/modules/validation.js:168-174 | the missing-field errors name exactly the absent listed fields |
| ValidationProperties.ActivitiesDuplicateOrders | assets/scripts/modules/validation.js:163-183 | the activity loop reports a duplicate iff the order was seen or appears earlier in the loop |
| ValidationProperties.ActivityErrorInResult | assets/scripts/modules/validation.js:162-255 | an activity error is in the result iff that activity's loop produced it |
| ValidationProperties.ActivityErrorAt | assets/scripts/modules/validation.js:164-254 | a non-duplicate activity error is in the result iff that activity's own checks report it |
| ValidationProperties.DuplicateOrderExactly | assets/scripts/modules/validation.js:163-183 | an activity is a duplicate iff an earlier activity of the same day has the same numeric order |
| ValidationProperties.TipsExactly | assets/scripts/modules/validation.js:213-219 | a present `tips` that is not a non-empty array is reported, and only then |
| ValidationProperties.PhotoSpotTipsExactly | assets/scripts/modules/validation.js:220-229 | a present `photoSpotTips` that is not a non-empty array is reported, and only then |
| ValidationProperties.ShapeErrorReported | assets/scripts/modules/validation.js:185-229 | a shape error comes from the shape checks alone |
| ValidationProperties.ShapeExactly | assets/scripts/modules/validation.js:185-229 | a shape error is in the result iff the reached activity's shape checks report it |
| ValidationProperties.ImageExactly | assets/scripts/modules/validation.js:185-197 | for every reached activity, each `image` error is in the result exactly when its condition holds |
| ValidationProperties.LocationExactly | assets/scripts/modules/validation.js:199-211 | for every reached activity, each `location` error is in the result exactly when its condition holds |
| ValidationProperties.DayMissingExactly | assets/scripts/modules/validation.js:99-103 | the day missing-field errors name exactly the absent listed fields |
| ValidationProperties.DaysErrorsDayLevel | assets/scripts/modules/validation.js:94-160 | an error about a day, other than a duplicate, is in the day loop's result iff that day's own checks report it |
| ValidationProperties.DayErrorAt | assets/scripts/modules/validation.js:94-160 | an error about a day, other than a duplicate, is in the result iff the reached day's own checks report it |
| ValidationProperties.DayMissingFieldExactly | assets/scripts/modules/validation.js:99-103 | a required day field is reported missing iff the reached day lacks the key |
| ValidationProperties.HotelExactly | assets/scripts/modules/validation.js:112-160 | for every reached day, each of the six `hotel` errors is in the result exactly when its condition holds |
| ValidationProperties.LinksDuplicateNames | assets/scripts/modules/validation.js:235-251 | the link loop reports a duplicate iff the name was seen or appears earlier in the loop |
| ValidationProperties.DuplicateSourceNameExactly | assets/scripts/modules/validation.js:231-253 | a link is a duplicate iff an earlier link of the same activity has the same truthy primitive `sourceName` |
| ValidationProperties.ReviewLinkIncompleteExactly | assets/scripts/modules/validation.js:233-241 | a review link is reported incomplete iff the loop reaches it and it lacks a truthy `sourceName` or `url` |
| ValidationProperties.LinkErrorReported | assets/scripts/modules/validation.js:231-253 | a link error comes from the `reviewLinks` check alone |
| Checklist.StorageKey | assets/scripts/app.js:61-64 | a key exists iff the itinerary has a non-empty string `tripId` |
| Checklist.SetStatus | assets/scripts/app.js:50-59 | an unknown status is ignored; otherwise it is set and saved, and the card collapses if it was open |
| Checklist.ToggleExpand | assets/scripts/app.js:91-95 | the card opens iff it was not the open one; nothing else changes |
| Checklist.SelectDay | assets/scripts/app.js:102-107 | the selected day becomes the given one; nothing else changes |
| Checklist.FindDay | assets/scripts/app.js:332 | the index of the first day with the id, or -1 when none has it |
| Checklist.TabTarget | assets/scripts/app.js:333-347 | the target tab is a tab index, or -1 for a key that does nothing |
| Checklist.TabKeydown | assets/scripts/app.js:329-354 | a key changes at most the selected day |
| Checklist.Restored | assets/scripts/app.js:719-720 | a restored status is always truthy |
| ChecklistProperties.SaveRestoreRoundTrip | assets/scripts/app.js:66-89 | reloading what was saved gives every activity the status it had |
| ChecklistProperties.InitialConsistent | assets/scripts/app.js:30-48 | the page starts consistent with every activity pending, and saving the initial state writes nothing |
| ChecklistProperties.SetStatusPersists | assets/scripts/app.js:50-78 | after a change, storage holds exactly the non-pending statuses |
| ChecklistProperties.NoKeyNoSave | assets/scripts/app.js:66-69 | without a `tripId` nothing is saved |
| ChecklistProperties.KeysSeparateTrips | assets/scripts/app.js:61-64 | different trips save under different keys |
| ChecklistProperties.PressStatusToggles | assets/scripts/app.js:560-570 | a status button sets its status, or reverts to pending when it is current; other activities keep theirs |
| ChecklistProperties.PressStatusTwice | assets/scripts/app.js:560-570 | pressing twice restores the button's status or ends at pending |
| ChecklistProperties.ToggleExpandTwice | assets/scripts/app.js:91-95 | toggling twice restores the state iff no card or this card was open |
| ChecklistProperties.SelectDayIdempotent | assets/scripts/app.js:102-107 | selecting the selected day changes nothing, and selecting twice is selecting once |
| ChecklistProperties.TabNavigation | assets/scripts/app.js:329-354 | arrows move one tab with wrap-around, also from a day id that is not found (index -1), Home and End jump to the ends, and other keys do nothing |
| ChecklistProperties.OtherKeysIgnored | assets/scripts/app.js:335-347 | only the six navigation keys are recognised |
| ChecklistProperties.TabWrapsAround | assets/scripts/app.js:337-340 | ArrowRight from the last tab goes to the first, and ArrowLeft from the first goes to the last |
| ChecklistProperties.FillActivitiesCovers | assets/scripts/app.js:718-721 | a day's activities get their restored status, and other keys keep theirs |
| ChecklistProperties.FillDaysCovers | assets/scripts/app.js:717-722 | initialisation completes iff no day has a truthy non-array `activities`; then exactly the activities get restored statuses |
| ChecklistProperties.ValidatedIsShaped | assets/scripts/app.js:692-705 | an itinerary that passes validation has a non-empty `days` array and a storage key |
| ChecklistProperties.LoadRejected | assets/scripts/app.js:692-698 | a rejected load returns false and changes only the load state |
| ChecklistProperties.LoadAccepted | assets/scripts/app.js:688-727 | an accepted load installs the itinerary, selects the first day, closes cards and restores or resets statuses; an explicit load clears saved progress |
| ChecklistProperties.LoadValidatorThrows | assets/scripts/app.js:688-692 | a validator that throws leaves the loading state and nothing else changed |
| ChecklistProperties.OperationsKeepConsistent | assets/scripts/app.js:50-107 | the checklist and tab operations keep a reachable state reachable |
| ChecklistProperties.LoadKeepsConsistent | assets/scripts/app.js:688-727 | only a validated itinerary is ever installed |
| Worker.StoredItinerary | cloudflare/worker.js:142-157 | found iff the KV does not reject and the KV value or `ITINERARY_JSON` is non-blank; the text is one of them; a rejection keeps its message |
| Worker.StoredItineraryPriority | cloudflare/worker.js:142-157 | the KV value is preferred, then `ITINERARY_JSON`, then the not-configured error |
| Worker.StoredNotEmpty | cloudflare/worker.js:85-92 | a found itinerary is never empty, so the empty-text branch cannot be reached |
| Worker.FailureMessage | cloudflare/worker.js:71-83 | a failure always carries a non-empty message |
| Worker.Handle | cloudflare/worker.js:6-107 | the allow-origin header is the origin iff it is allowed; every response but the preflight is JSON |
| Worker.EarlyRefusals | cloudflare/worker.js:13-55 | 204 iff preflight, 404 iff another path, 403 iff a refused origin, 405 iff another method, 400 iff an unparsable body |
| Worker.DecisionOrder | cloudflare/worker.js:57-106 | 401 iff a wrong password, 500 iff the itinerary is missing or invalid, 200 with the parsed itinerary otherwise |
| Worker.SuccessNeedsEverything | cloudflare/worker.js:6-106 | the itinerary is only sent to the configured origin, for a POST with the right password |
| Worker.BlankAllowedOriginRefusesAll | cloudflare/worker.js:9-34 | a blank `ALLOWED_ORIGIN` admits no origin: every response is 204, 404 or 403 with origin "null" |
| Worker.EmptyPasswordRefused | cloudflare/worker.js:57-66 | an empty or non-string password is refused even when none is configured |
| ServiceWorker.Route | sw.js:62-94 | non-GET is unhandled; cache-first uses a tile, font or image cache; stale-while-revalidate is only for the app's origin |
| ServiceWorker.RoutePrecedence | sw.js:62-94 | tile host, then font hosts, then cross-origin images, then the app's origin, each as an iff |
| ServiceWorker.SameOriginNeverImageCached | sw.js:243-249 | a same-origin request is never an external image |
| ServiceWorker.LowerIdempotent | sw.js:248 | lower-casing twice is lower-casing once |
| ServiceWorker.ImagePathIgnoresCase | sw.js:248 | a path matches iff its lower-cased form matches |
| ServiceWorker.Filter | sw.js:52-54 | the kept elements are exactly those satisfying the predicate |
| ServiceWorker.Count | sw.js:183-189 | the count is at most the length |
| ServiceWorker.StaleCachesInOrder | sw.js:40-58 | activation deletes exactly the caches outside the current four, in listing order |
| ServiceWorker.OnMessage | sw.js:97-124 | a precache needs truthy `urls` and `cacheName`; its limit is 600 iff the cache is the tile cache, and 150 otherwise |
| ServiceWorker.MessageDispatch | sw.js:97-124 | a precache starts iff the type is PRECACHE_URLS with truthy fields; stats iff GET_CACHE_STATS |
| ServiceWorker.PlanFor | sw.js:177-189 | the needed URLs are the in-order sublist of the requested URLs not already cached, one per requested URL not cached; the fetch list is their prefix of length min(needed, max(0, limit - cached)) |
| ServiceWorker.AlreadyCachedCounts | sw.js:183-189 | `alreadyCached` counts the requested URLs that are in the cache |
| ServiceWorker.PrecacheRespectsLimit | sw.js:185-187 | a precache never takes a cache within its limit past the limit |
| ServiceWorker.FilterAppend | sw.js:183 | filtering distributes over concatenation and keeps order |
| ServiceWorker.FilterCount | sw.js:183-189 | what a filter keeps plus what it drops is the whole list |
| ServiceWorker.CountAppend | sw.js:202-225 | counting distributes over concatenation |
| ServiceWorker.BatchesUpTo | sw.js:206-207 | the first m batches are m batches |
| ServiceWorker.BatchesUpToIndex | sw.js:206-207 | the k-th of the first m batches is the slice from 3k |
| ServiceWorker.ProgressUpTo | sw.js:217-224 | the first m progress messages are m messages |
| ServiceWorker.ProgressUpToIndex | sw.js:217-224 | the k-th message reports the successes of the first k+1 batches and is not done |
| ServiceWorker.NextBatchCount | sw.js:208-216 | a batch settling adds its successes to the counter |
| ServiceWorker.RunBatches | sw.js:202-225 | the loop makes ⌈n/3⌉ batches and one message each, and the counter ends at the number of successes |
| ServiceWorker.PrecacheBatches | sw.js:191-234 | an empty list gives one done message of 0/0; otherwise one message per batch of three, then a final done message with all successes |
| ServiceWorker.BatchesPartition | sw.js:206-207 | the batches are consecutive non-empty pieces of at most three |
| ServiceWorker.BatchesCoverFetchList | sw.js:202-225 | the batches joined back are exactly the fetch list, in order |
| ServiceWorker.CountPrefixMonotone | sw.js:213-224 | the success counter never decreases and grows by at most the URLs tried |
| Rewrite.FirstWeekday | scripts/rewrite-image-urls.mjs:44-46 | the abbreviation of the first weekday the label starts with, or none |
| Rewrite.AbbreviationsArePrefixes | scripts/rewrite-image-urls.mjs:35-43 | every abbreviation is the first three letters of its weekday |
| Rewrite.DayKeyIsFirstThree | scripts/rewrite-image-urls.mjs:33-48 | the Seville day key is always the first three characters of the lower-cased label |
| Rewrite.WeekdayAbbreviated | scripts/rewrite-image-urls.mjs:33-48 | a label starting with a weekday name, in any case, gets that abbreviation |
| Rewrite.SampleDayKeysDistinct | scripts/rewrite-image-urls.mjs:52 | distinct day numbers give distinct sample keys |
| Text.NatToStringInjective | scripts/rewrite-image-urls.mjs:52 | distinct naturals have distinct decimal forms |
| Text.IntToStringSign | scripts/rewrite-image-urls.mjs:52 | `String(i)` starts with a minus iff i is negative |
| Text.IntToStringInjective | scripts/rewrite-image-urls.mjs:52 | distinct integers have distinct decimal forms |
| Rewrite.FirstStartingWith | scripts/rewrite-image-urls.mjs:79 | the first file starting with the pattern, or none iff no file does |
| Rewrite.FindFile | scripts/rewrite-image-urls.mjs:73-83 | a found file is in the listing and starts with the plain or the padded pattern |
| Rewrite.FindFilePreference | scripts/rewrite-image-urls.mjs:73-83 | the plain pattern is preferred, and the padded one is the fallback |
| Rewrite.PaddingOnlyForOneDigit | scripts/rewrite-image-urls.mjs:74-77 | from 10 on and below 0 the padded pattern is the plain one |
| Rewrite.IndexOf | scripts/rewrite-image-urls.mjs:59 | the first index of the argument, or -1 iff absent |
| Rewrite.BaseUrlStripsOneSlash | scripts/rewrite-image-urls.mjs:59-63 | a `--base-url` value loses exactly one trailing slash |
| Rewrite.StripAfterAppend | scripts/rewrite-image-urls.mjs:62 | stripping restores a URL that had a slash appended, and changes a URL iff it ends in a slash |
| Rewrite.RewriteUrl | scripts/rewrite-image-urls.mjs:108-125 | skipped iff no file; rewritten iff a file, a truthy URL and a different URL; the new URL is base/file |
| Rewrite.KindNamesDistinct | scripts/rewrite-image-urls.mjs:108-131 | distinct image kinds (`main`, `pe0`, `pe1`, ...) look for distinct file types |
| Rewrite.RewritePhotos | scripts/rewrite-image-urls.mjs:128-149 | example k is rewritten on its own, against the file of type `pe<j+k>` |
| Rewrite.RewriteActivity | scripts/rewrite-image-urls.mjs:104-150 | the order and the presence of photo examples are kept; the main image is rewritten against the `main` file and the examples against `pe0`, `pe1`, …; the tally is the main image's outcome plus the examples' |
| Rewrite.RewriteActivities | scripts/rewrite-image-urls.mjs:104-151 | activity k is rewritten on its own, as `RewriteActivity` of activity k |
| Rewrite.RewriteDays | scripts/rewrite-image-urls.mjs:101-152 | day k keeps its prefix and its activities are rewritten with that prefix |
| Rewrite.RewriteUrlIdempotent | scripts/rewrite-image-urls.mjs:108-125 | a second rewrite of a URL changes nothing and counts nothing |
| Rewrite.RewritePhotosIdempotent | scripts/rewrite-image-urls.mjs:128-149 | a second pass over the photo examples changes and counts nothing |
| Rewrite.RewriteActivityIdempotent | scripts/rewrite-image-urls.mjs:104-150 | a second pass over one activity changes and counts nothing |
| Rewrite.RewriteActivitiesIdempotent | scripts/rewrite-image-urls.mjs:104-151 | a second pass over the activities changes and counts nothing |
| Rewrite.RewriteIdempotent | scripts/rewrite-image-urls.mjs:101-160 | a second run with the same files changes no URL, counts no rewrite and writes no file |
| Rewrite.PhotoRewritesCountChanges | scripts/rewrite-image-urls.mjs:128-149 | the photo rewrite count is the number of URLs that changed |
| Rewrite.ActivityRewritesCountChanges | scripts/rewrite-image-urls.mjs:107-149 | an activity's rewrite count is the number of its URLs, main image and examples, that changed |

## Left out

- Floating point: numbers are `real`, so rounding and NaN/Infinity are not modelled. Two kinds of division by zero are excluded by preconditions (`Gestures.EventOk`, `Viewport.ClientToSVG`): the 0/0 of a zero-length pinch that started at zero length, and an element rectangle of zero width or height for the wheel, mouse-move, touch and double-click events that scale by it. A pinch that started at zero length gives an infinite factor, which is modelled as the maximum scale.
- Projection.LatLngToWorld: the latitude part `log(tan(π/4 + φ/2))` is the caller-supplied `mercY`, because transcendental functions have no Dafny counterpart. The longitude part and the zoom scaling are concrete.
- Gestures.PinchScale: the finger distance arrives as an event field related to the touch points by its square, because `Math.sqrt` is not modelled.
- Geometry.ChooseZoom: when no zoom level fits, the code keeps its initial zoom 15, not the minimum level 2. The model follows the code. Zoom monotonicity is therefore stated only for point sets that fit at some level; `Geometry.FallbackZoomsIn` shows a superset that is drawn at a higher zoom.
- HTML and SVG markup, DOM events, focus, CSS classes, cursor styles and `preventDefault` are not modelled. The map section is modelled as records of the values the markup shows.
- `toggleMapFilterKey` (assets/scripts/app.js:97-100) only flips a display flag and re-renders, so it is not modelled.
- Checklist.TabKeydown requires a reachable state (a loaded, validated itinerary with days). This is the only state in which the day tabs exist.
- ChecklistProperties.ToggleExpandTwice: toggling twice restores the state only when no card or this card was open. This is what the code does, and the lemma states both directions.
- Checklist.LoadItinerary: when a day's `activities` is a truthy non-array, the load throws after the itinerary has been installed. The model keeps that partial state.
- Checklist.StorageKey: a truthy non-string `tripId` gets no key here, while the source would build one from its string form. Validation rejects such itineraries before they are installed.
- Status keys exist only for string activity ids. JavaScript would coerce other ids to strings.
- `localStorage` holds the parsed object each key was last written with. Storage exceptions and JSON text round-trips are not modelled.
- Day ids compared by `===` are treated as values. Object day ids (compared by identity) are not modelled.
- An undefined `dayId` is not distinguished from `null`.
- Validation error messages are structured errors, not English text.
- Validation dates: `new Date(...)` comparison is the parameter `earlier`.
- Validation: `key in obj` only sees own keys. Keys inherited from `Object.prototype` are not modelled.
- Lower-casing is ASCII only, and string lengths count code points, not UTF-16 units.
- Worker: the three constant CORS headers are implicit. `request.json()` and `JSON.parse` are parameters. The `!rawItinerary` branch is modelled, and `Worker.StoredNotEmpty` shows it is unreachable.
- Service worker: `isImageRequest` (sw.js:251-255) is not modelled because its only caller is `cacheFirst` (sw.js:140), the Cache API strategy left out below.
- Service worker: `cacheFirst`, `staleWhileRevalidate`, the offline fallback response, `getCacheStats` and the install handler with its shell file list (sw.js:29-37, 126-174) are Cache API and network I/O, so they are not modelled.
- Service worker: `urls` is assumed to be a list of strings. Whether a fetch succeeds and is stored is a parameter.
- Service worker: `Promise.allSettled` concurrency inside a batch is not modelled. Only the counter after each whole batch is observable.
- Rewrite script: reading and writing files, the directory listing and the console output are I/O. The listing is a parameter.
- Rewrite script: `order` and `dayNumber` are integers. Other values would be formatted differently by `String(...)`.
- Rewrite script: a truthy non-string day label, which makes `toLowerCase` throw, is not modelled.
- Rewrite script: `photoExamples` is an array or falsy. Other values are not modelled.
- Rewrite.RewritePhotos: a `null` element of `photoExamples` makes the script throw at `pe.url` when a matching file exists (scripts/rewrite-image-urls.mjs:130-134). Each entry is represented only by its `url` (`None` when absent), so a `null` entry reads as an entry without a URL, and the throw is not modelled.
- Rewrite.RewriteActivity: a `null` activity makes the script throw at `act.order` (scripts/rewrite-image-urls.mjs:105). Activities are records here, so a `null` activity cannot be represented.
- Rewrite script: `act.name` appears only in log lines, so it is not modelled.
- Rewrite script: a target file that fails to parse is skipped. This is I/O and is not modelled.

=== FILE: checklist.dfy ===
/**
 * The checklist and day-selection state of the itinerary page
 * (assets/scripts/app.js): activity statuses with their persisted copy,
 * the expanded activity card, the selected day tab, and loading a new
 * itinerary. `localStorage` is a field of the state, holding the parsed
 * object each key was last written with.
 */
module Checklist {
  import opened Wrappers
  import opened Json
  import opened JsArith
  import opened ValidationErrors
  import opened Validation

  const Pending: string := "pending"
  const StoragePrefix: string := "itinerary_statuses_"

  /** The statuses a status button may set. */
  predicate ValidStatus(v: string) {
    v == "pending" || v == "done" || v == "skipped"
  }

  datatype LoadState = Idle | Loading | Loaded | ValidationFailed

  /** `localStorage`: a key to the statuses object saved under it. */
  type Storage = map<string, map<string, Json>>

  datatype AppState = AppState(
    itinerary: Option<Json>,
    selectedDayId: Json,
    statuses: map<string, Json>,
    expanded: Option<string>,
    loadState: LoadState,
    mapKeyHidden: bool,
    storage: Storage)

  /** The state before any itinerary is loaded; `narrow` is `window.innerWidth <= 640`. */
  function Initial(narrow: bool, storage: Storage): (s: AppState)
    ensures s.itinerary.None? && s.statuses == map[] && s.loadState == Idle
  {
    AppState(None, JNull, map[], None, Idle, narrow, storage)
  }

  // --- statuses ---

  /** `getActivityStatus`: a falsy or absent status reads as pending. */
  function StatusOf(s: AppState, id: string): (r: Json)
    ensures Truthy(r)
    ensures id in s.statuses && Truthy(s.statuses[id]) ==> r == s.statuses[id]
    ensures !(id in s.statuses && Truthy(s.statuses[id])) ==> r == JStr(Pending)
  {
    if id in s.statuses && Truthy(s.statuses[id]) then s.statuses[id] else JStr(Pending)
  }

  /** `getStorageKey`: one key per trip, none without a `tripId`. */
  function StorageKey(itinerary: Option<Json>): (k: Option<string>)
    ensures k.Some? <==>
      itinerary.Some? && IsString(Get(itinerary.value, "tripId")) && Get(itinerary.value, "tripId").value.s != ""
  {
    if itinerary.None? then None
    else
      var tripId := Get(itinerary.value, "tripId");
      if TruthyProp(tripId) && tripId.value.JStr? then Some(StoragePrefix + tripId.value.s) else None
  }

  /** The object `saveStatusesToStorage` writes: the statuses other than pending. */
  function Persisted(statuses: map<string, Json>): (m: map<string, Json>)
    ensures forall id :: id in m <==> id in statuses && statuses[id] != JStr(Pending)
    ensures forall id :: id in m ==> m[id] == statuses[id]
  {
    map id | id in statuses && statuses[id] != JStr(Pending) :: statuses[id]
  }

  /** `saveStatusesToStorage`: nothing is written without a storage key. */
  function Save(s: AppState): (storage: Storage)
    ensures StorageKey(s.itinerary).None? ==> storage == s.storage
    ensures StorageKey(s.itinerary).Some? ==>
      storage == s.storage[StorageKey(s.itinerary).value := Persisted(s.statuses)]
  {
    match StorageKey(s.itinerary)
    case None => s.storage
    case Some(k) => s.storage[k := Persisted(s.statuses)]
  }

  /**
   * `setActivityStatus`: an unknown status is ignored; otherwise the status
   * is set and saved, and the activity's card collapses if it was expanded.
   */
  function SetStatus(s: AppState, id: string, v: string): (r: AppState)
    ensures !ValidStatus(v) ==> r == s
    ensures ValidStatus(v) ==>
      && StatusOf(r, id) == JStr(v)
      && (forall other :: other != id ==> StatusOf(r, other) == StatusOf(s, other))
      && (r.expanded.None? <==> s.expanded.None? || s.expanded == Some(id))
      && (r.expanded.Some? ==> r.expanded == s.expanded)
      && r.itinerary == s.itinerary && r.selectedDayId == s.selectedDayId && r.loadState == s.loadState
  {
    if !ValidStatus(v) then s
    else
      var updated := s.(statuses := s.statuses[id := JStr(v)]);
      updated.(storage := Save(updated), expanded := if s.expanded == Some(id) then None else s.expanded)
  }

  /** A status button: pressing the current status reverts to pending. */
  function PressStatus(s: AppState, id: string, v: string): (r: AppState)
  {
    if StatusOf(s, id) == JStr(v) then SetStatus(s, id, Pending) else SetStatus(s, id, v)
  }

  // --- cards and tabs ---

  /** `toggleExpand`: open this card, or close it when it is the open one. */
  function ToggleExpand(s: AppState, id: string): (r: AppState)
    ensures r.expanded == Some(id) <==> s.expanded != Some(id)
    ensures r.expanded.Some? ==> r.expanded == Some(id)
    ensures r == s.(expanded := r.expanded)
  {
    s.(expanded := if s.expanded == Some(id) then None else Some(id))
  }

  /** `selectDay`: `===` on day ids, which are primitive values. */
  function SelectDay(s: AppState, dayId: Json): (r: AppState)
    ensures r.selectedDayId == dayId
    ensures r == s.(selectedDayId := dayId)
  {
    if s.selectedDayId == dayId then s else s.(selectedDayId := dayId)
  }

  /** A day's `dayId`; validation makes it present. */
  function DayId(day: Json): Json {
    Get(day, "dayId").GetOr(JNull)
  }

  /** The `days` array of a loaded itinerary. */
  function DaysOf(itinerary: Json): seq<Json> {
    var days := Get(itinerary, "days");
    if IsArray(days) then days.value.items else []
  }

  /** `days.findIndex(d => d.dayId === id)`. */
  function FindDay(days: seq<Json>, id: Json): (i: int)
    ensures -1 <= i < |days|
    ensures i >= 0 ==> DayId(days[i]) == id && forall k :: 0 <= k < i ==> DayId(days[k]) != id
    ensures i == -1 ==> forall k :: 0 <= k < |days| ==> DayId(days[k]) != id
  {
    if |days| == 0 then -1
    else if DayId(days[0]) == id then 0
    else
      var rest := FindDay(days[1..], id);
      if rest == -1 then -1 else rest + 1
  }

  /** An itinerary whose day tabs exist: a non-empty `days` array and a storage key. */
  predicate Shaped(data: Json) {
    data.JObj? && IsArray(Get(data, "days")) && |Get(data, "days").value.items| > 0
    && IsString(Get(data, "tripId")) && Get(data, "tripId").value.s != ""
  }

  /** Every reachable state: a loaded itinerary passed validation, so it is shaped. */
  predicate Consistent(s: AppState) {
    s.itinerary.Some? ==> Shaped(s.itinerary.value)
  }

  /** The keys the day tabs react to; `Other` is any other `KeyboardEvent.key`. */
  datatype Key = ArrowRight | ArrowDown | ArrowLeft | ArrowUp | Home | End | Other

  /** `e.key` as one of the keys the tabs react to. */
  function KeyOf(name: string): Key {
    if name == "ArrowRight" then ArrowRight
    else if name == "ArrowDown" then ArrowDown
    else if name == "ArrowLeft" then ArrowLeft
    else if name == "ArrowUp" then ArrowUp
    else if name == "Home" then Home
    else if name == "End" then End
    else Other
  }

  /** The tab the key moves to from tab `i` of `n`, or -1 for a key that does nothing. */
  function TabTarget(key: Key, i: int, n: int): (t: int)
    requires n > 0 && -1 <= i < n
    ensures -1 <= t < n
  {
    match key
    case ArrowRight | ArrowDown => JsRem(i + 1, n)
    case ArrowLeft | ArrowUp => JsRem(i - 1 + n, n)
    case Home => 0
    case End => n - 1
    case Other => -1
  }

  /**
   * `handleTabKeydown(e, currentDayId)` with `e.key` decoded by `KeyOf`:
   * arrows wrap around, Home and End jump to the ends.
   */
  function TabKeydown(s: AppState, key: Key, current: Json): (r: AppState)
    requires Consistent(s)
    ensures r == s || r == s.(selectedDayId := r.selectedDayId)
  {
    if s.itinerary.None? then s
    else
      var days := DaysOf(s.itinerary.value);
      var t := TabTarget(key, FindDay(days, current), |days|);
      if t >= 0 then SelectDay(s, DayId(days[t])) else s
  }

  // --- loading ---

  /** The status an activity gets on load: its saved status when truthy, else pending. */
  function Restored(saved: Option<map<string, Json>>, id: string): (v: Json)
    ensures Truthy(v)
  {
    if saved.Some? && id in saved.value && Truthy(saved.value[id]) then saved.value[id] else JStr(Pending)
  }

  /** A JSON value's string form as an object key, for string ids only. */
  function IdKey(j: Option<Json>): Option<string> {
    if j.Some? && j.value.JStr? then Some(j.value.s) else None
  }

  /** The inner `forEach` of the status initialisation over one day's activities. */
  function FillActivities(acts: seq<Json>, saved: Option<map<string, Json>>, m: map<string, Json>): (r: map<string, Json>)
    decreases |acts|
  {
    if |acts| == 0 then m
    else
      var m' := match IdKey(Get(acts[0], "activityId"))
        case Some(id) => m[id := Restored(saved, id)]
        case None => m;
      FillActivities(acts[1..], saved, m')
  }

  /**
   * The outer `forEach` over the days: `day.activities || []`. A truthy
   * value that is not an array has no `forEach`, and the call throws; the
   * statuses filled before it stay.
   */
  function FillDays(days: seq<Json>, saved: Option<map<string, Json>>, m: map<string, Json>): (r: (map<string, Json>, bool))
    decreases |days|
  {
    if |days| == 0 then (m, true)
    else
      var acts := Get(days[0], "activities");
      if !TruthyProp(acts) then FillDays(days[1..], saved, m)
      else if !acts.value.JArr? then (m, false)
      else FillDays(days[1..], saved, FillActivities(acts.value.items, saved, m))
  }

  /** The result of `loadItinerary`: the state it leaves and what it returns (`None` if it throws). */
  datatype LoadOutcome = LoadOutcome(state: AppState, returned: Option<bool>)

  /**
   * `loadItinerary(data, {restoreFromStorage})`. `earlier` is the date
   * order the validator uses.
   */
  function LoadItinerary(s: AppState, data: Json, restore: bool, earlier: (Json, Json) -> bool): (out: LoadOutcome)
  {
    var loading := s.(loadState := Loading);
    match Validate(data, earlier)
    case TypeError => LoadOutcome(loading, None)
    case Checked(errors) =>
      if |errors| > 0 then LoadOutcome(loading.(loadState := ValidationFailed), Some(false))
      else
        var days := DaysOf(data);
        var first := if |days| > 0 then DayId(days[0]) else JNull;
        var key := StorageKey(Some(data));
        var saved := if restore && key.Some? && key.value in s.storage then Some(s.storage[key.value]) else None;
        var storage := if !restore && key.Some? then s.storage - {key.value} else s.storage;
        var filled := FillDays(days, saved, map[]);
        var loaded := AppState(Some(data), if Truthy(first) then first else JNull, filled.0, None, Loaded,
          s.mapKeyHidden, storage);
        LoadOutcome(loaded, if filled.1 then Some(true) else None)
  }
}

=== FILE: checklist_properties.dfy ===
/** What the checklist state promises, stated against the itinerary and the saved statuses. */
module ChecklistProperties {
  import opened Wrappers
  import opened Json
  import opened JsArith
  import opened ValidationErrors
  import opened Validation
  import opened Checklist

  // --- statuses and storage ---

  /**
   * The page starts consistent, with every activity pending and nothing
   * to save: the initial state writes no storage.
   */
  lemma InitialConsistent(narrow: bool, storage: Storage, id: string)
    ensures Consistent(Initial(narrow, storage))
    ensures StatusOf(Initial(narrow, storage), id) == JStr(Pending)
    ensures Save(Initial(narrow, storage)) == storage
  {
  }

  /**
   * Reloading what was saved gives every activity the status it had:
   * pending statuses are dropped on save and come back as pending.
   */
  lemma SaveRestoreRoundTrip(s: AppState, id: string)
    ensures Restored(Some(Persisted(s.statuses)), id) == StatusOf(s, id)
  {
  }

  /** After a status change in a loaded itinerary, storage holds exactly the non-pending statuses. */
  lemma SetStatusPersists(s: AppState, id: string, v: string)
    requires Consistent(s) && s.itinerary.Some? && ValidStatus(v)
    ensures var r := SetStatus(s, id, v);
      && StorageKey(r.itinerary).Some?
      && var saved := r.storage[StorageKey(r.itinerary).value];
      && (forall x :: x in saved <==> x in r.statuses && r.statuses[x] != JStr(Pending))
      && (v == Pending ==> id !in saved)
      && (v != Pending ==> id in saved && saved[id] == JStr(v))
  {
  }

  /** Without a `tripId` nothing is saved. */
  lemma NoKeyNoSave(s: AppState, id: string, v: string)
    requires StorageKey(s.itinerary).None?
    ensures SetStatus(s, id, v).storage == s.storage
  {
  }

  /** Different trips save under different keys. */
  lemma KeysSeparateTrips(a: Json, b: Json)
    requires StorageKey(Some(a)).Some? && StorageKey(Some(a)) == StorageKey(Some(b))
    ensures Get(a, "tripId") == Get(b, "tripId")
  {
    var ta := Get(a, "tripId").value.s;
    var tb := Get(b, "tripId").value.s;
    assert (StoragePrefix + ta)[|StoragePrefix|..] == ta;
    assert (StoragePrefix + tb)[|StoragePrefix|..] == tb;
  }

  /** A status button sets its status, or reverts to pending when it is the current one. */
  lemma PressStatusToggles(s: AppState, id: string, v: string)
    requires ValidStatus(v)
    ensures StatusOf(PressStatus(s, id, v), id) == if StatusOf(s, id) == JStr(v) then JStr(Pending) else JStr(v)
    ensures forall other :: other != id ==> StatusOf(PressStatus(s, id, v), other) == StatusOf(s, other)
  {
  }

  /**
   * Pressing the same button twice: a status that was the button's comes
   * back, any other status ends as pending.
   */
  lemma PressStatusTwice(s: AppState, id: string, v: string)
    requires ValidStatus(v)
    ensures StatusOf(PressStatus(PressStatus(s, id, v), id, v), id) ==
      if StatusOf(s, id) == JStr(v) then JStr(v) else JStr(Pending)
  {
    PressStatusToggles(s, id, v);
    PressStatusToggles(PressStatus(s, id, v), id, v);
  }

  /** Opening and closing a card: twice restores an open card of this id and otherwise closes all. */
  lemma ToggleExpandTwice(s: AppState, id: string)
    ensures ToggleExpand(ToggleExpand(s, id), id) ==
      s.(expanded := if s.expanded == Some(id) then Some(id) else None)
    ensures ToggleExpand(ToggleExpand(s, id), id) == s <==> s.expanded.None? || s.expanded == Some(id)
  {
  }

  /** Selecting the selected day changes nothing; selecting twice is selecting once. */
  lemma SelectDayIdempotent(s: AppState, d: Json)
    ensures SelectDay(s, s.selectedDayId) == s
    ensures SelectDay(SelectDay(s, d), d) == SelectDay(s, d)
  {
  }

  // --- tab navigation ---

  /**
   * Keyboard navigation from the tab of the day at index `i` of `n`:
   * arrows move one tab with wrap-around, Home and End jump to the ends,
   * any other key does nothing.
   */
  lemma TabNavigation(s: AppState, k: Key, current: Json)
    requires Consistent(s) && s.itinerary.Some?
    ensures var days := DaysOf(s.itinerary.value);
      var n := |days|;
      var i := FindDay(days, current);
      var r := TabKeydown(s, k, current);
      && n > 0
      && (k == ArrowRight || k == ArrowDown ==> r == SelectDay(s, DayId(days[(i + 1) % n])))
      && (k == ArrowLeft || k == ArrowUp ==> r == SelectDay(s, DayId(days[(i - 1 + n) % n])))
      && (k == Home ==> r == SelectDay(s, DayId(days[0])))
      && (k == End ==> r == SelectDay(s, DayId(days[n - 1])))
      && (k == Other ==> r == s)
  {
    var days := DaysOf(s.itinerary.value);
    var i := FindDay(days, current);
    var t := TabTarget(k, i, |days|);
    assert TabKeydown(s, k, current) == if t >= 0 then SelectDay(s, DayId(days[t])) else s;
    match k {
      case ArrowRight | ArrowDown => assert t == (i + 1) % |days|;
      case ArrowLeft | ArrowUp => assert t == (i - 1 + |days|) % |days|;
      case Home => assert t == 0;
      case End => assert t == |days| - 1;
      case Other => assert t == -1;
    }
  }

  /** Only the six navigation keys are recognised. */
  lemma OtherKeysIgnored(key: string)
    ensures KeyOf(key) == Other <==>
      key !in {"ArrowRight", "ArrowDown", "ArrowLeft", "ArrowUp", "Home", "End"}
  {
  }

  /** From the last tab ArrowRight wraps to the first; from the first, ArrowLeft wraps to the last. */
  lemma TabWrapsAround(s: AppState, current: Json)
    requires Consistent(s) && s.itinerary.Some?
    ensures var days := DaysOf(s.itinerary.value);
      FindDay(days, current) == |days| - 1 ==> TabKeydown(s, ArrowRight, current).selectedDayId == DayId(days[0])
    ensures var days := DaysOf(s.itinerary.value);
      FindDay(days, current) == 0 ==> TabKeydown(s, ArrowLeft, current).selectedDayId == DayId(days[|days| - 1])
  {
    WrapsRight(s, current);
    WrapsLeft(s, current);
  }

  /** ArrowRight from the last tab. */
  lemma WrapsRight(s: AppState, current: Json)
    requires Consistent(s) && s.itinerary.Some?
    ensures var days := DaysOf(s.itinerary.value);
      FindDay(days, current) == |days| - 1 ==> TabKeydown(s, ArrowRight, current).selectedDayId == DayId(days[0])
  {
    var n := |DaysOf(s.itinerary.value)|;
    TabNavigation(s, ArrowRight, current);
    assert n % n == 0;
  }

  /** ArrowLeft from the first tab. */
  lemma WrapsLeft(s: AppState, current: Json)
    requires Consistent(s) && s.itinerary.Some?
    ensures var days := DaysOf(s.itinerary.value);
      FindDay(days, current) == 0 ==> TabKeydown(s, ArrowLeft, current).selectedDayId == DayId(days[|days| - 1])
  {
    var n := |DaysOf(s.itinerary.value)|;
    TabNavigation(s, ArrowLeft, current);
    RemOfSmall(n - 1, n);
  }

  // --- loading ---

  /** A day's `activities` when it is an array. */
  function ActsOf(day: Json): Option<seq<Json>> {
    var acts := Get(day, "activities");
    if IsArray(acts) then Some(acts.value.items) else None
  }

  /** A day whose `activities` is truthy but not an array: `forEach` on it throws. */
  predicate NoForEach(day: Json) {
    var acts := Get(day, "activities");
    TruthyProp(acts) && !acts.value.JArr?
  }

  /** Some activity in `acts` has the string id `id`. */
  predicate ActsHaveId(acts: seq<Json>, id: string) {
    exists j :: 0 <= j < |acts| && IdKey(Get(acts[j], "activityId")) == Some(id)
  }

  /** Some day in `days` has an activity with the string id `id`. */
  predicate DaysHaveId(days: seq<Json>, id: string) {
    exists i :: 0 <= i < |days| && ActsOf(days[i]).Some? && ActsHaveId(ActsOf(days[i]).value, id)
  }

  /** Some day in `days` has a truthy `activities` that is not an array. */
  predicate SomeNoForEach(days: seq<Json>) {
    exists i :: 0 <= i < |days| && NoForEach(days[i])
  }

  lemma ActsHaveIdStep(acts: seq<Json>, id: string)
    requires |acts| > 0
    ensures ActsHaveId(acts, id) <==> IdKey(Get(acts[0], "activityId")) == Some(id) || ActsHaveId(acts[1..], id)
  {
    if ActsHaveId(acts[1..], id) {
      var j :| 0 <= j < |acts[1..]| && IdKey(Get(acts[1..][j], "activityId")) == Some(id);
      assert acts[j + 1] == acts[1..][j];
    }
    if ActsHaveId(acts, id) {
      var j :| 0 <= j < |acts| && IdKey(Get(acts[j], "activityId")) == Some(id);
      if j > 0 {
        assert acts[1..][j - 1] == acts[j];
      }
    }
  }

  /** The status initialisation of one day: its activities get the restored status, other keys keep theirs. */
  lemma {:induction false} FillActivitiesCovers(acts: seq<Json>, saved: Option<map<string, Json>>, m: map<string, Json>)
    ensures var r := FillActivities(acts, saved, m);
      forall id :: (id in r <==> id in m || ActsHaveId(acts, id))
        && (id in r ==> r[id] == if ActsHaveId(acts, id) then Restored(saved, id) else m[id])
    decreases |acts|
  {
    if |acts| > 0 {
      var m' := match IdKey(Get(acts[0], "activityId"))
        case Some(id) => m[id := Restored(saved, id)]
        case None => m;
      FillActivitiesCovers(acts[1..], saved, m');
      forall id ensures ActsHaveId(acts, id) <==> IdKey(Get(acts[0], "activityId")) == Some(id) || ActsHaveId(acts[1..], id) {
        ActsHaveIdStep(acts, id);
      }
    }
  }

  lemma DaysHaveIdStep(days: seq<Json>, id: string)
    requires |days| > 0
    ensures DaysHaveId(days, id) <==>
      (ActsOf(days[0]).Some? && ActsHaveId(ActsOf(days[0]).value, id)) || DaysHaveId(days[1..], id)
  {
    if DaysHaveId(days[1..], id) {
      var i :| 0 <= i < |days[1..]| && ActsOf(days[1..][i]).Some? && ActsHaveId(ActsOf(days[1..][i]).value, id);
      assert days[i + 1] == days[1..][i];
    }
    if DaysHaveId(days, id) {
      var i :| 0 <= i < |days| && ActsOf(days[i]).Some? && ActsHaveId(ActsOf(days[i]).value, id);
      if i > 0 {
        assert days[1..][i - 1] == days[i];
      }
    }
  }

  lemma SomeNoForEachStep(days: seq<Json>)
    requires |days| > 0
    ensures SomeNoForEach(days) <==> NoForEach(days[0]) || SomeNoForEach(days[1..])
  {
    if SomeNoForEach(days[1..]) {
      var i :| 0 <= i < |days[1..]| && NoForEach(days[1..][i]);
      assert days[i + 1] == days[1..][i];
    }
    if SomeNoForEach(days) {
      var i :| 0 <= i < |days| && NoForEach(days[i]);
      if i > 0 {
        assert days[1..][i - 1] == days[i];
      }
    }
  }

  /**
   * The status initialisation over all days completes exactly when no day
   * has a truthy non-array `activities`, and then every activity with a
   * string id, and nothing else, gets its restored status.
   */
  lemma {:induction false} FillDaysCovers(days: seq<Json>, saved: Option<map<string, Json>>, m: map<string, Json>)
    ensures FillDays(days, saved, m).1 <==> !SomeNoForEach(days)
    ensures var r := FillDays(days, saved, m).0;
      FillDays(days, saved, m).1 ==>
        forall id :: (id in r <==> id in m || DaysHaveId(days, id))
          && (id in r ==> r[id] == if DaysHaveId(days, id) then Restored(saved, id) else m[id])
    decreases |days|
  {
    if |days| > 0 {
      SomeNoForEachStep(days);
      var acts := Get(days[0], "activities");
      forall id ensures DaysHaveId(days, id) <==>
        (ActsOf(days[0]).Some? && ActsHaveId(ActsOf(days[0]).value, id)) || DaysHaveId(days[1..], id)
      {
        DaysHaveIdStep(days, id);
      }
      if !TruthyProp(acts) {
        FillDaysCovers(days[1..], saved, m);
      } else if acts.value.JArr? {
        FillActivitiesCovers(acts.value.items, saved, m);
        FillDaysCovers(days[1..], saved, FillActivities(acts.value.items, saved, m));
      }
    }
  }

  /** An itinerary that passes validation has a non-empty `days` array and a storage key. */
  lemma ValidatedIsShaped(data: Json, earlier: (Json, Json) -> bool)
    requires Validate(data, earlier) == Checked([])
    ensures Shaped(data)
  {
    if !Truthy(data) || !IsObjectType(data) || data.JArr? {
      assert false;
    } else if |MissingOf(data, Required)| > 0 {
      assert false;
    } else {
      var days := Get(data, "days").value;
      var dc := DaysCheck(days);
      assert dc.Some? && HeaderErrors(data, earlier) + dc.value == [];
      assert dc.value == [];
      assert Error(TopLevel, BadTripId) !in HeaderErrors(data, earlier);
    }
  }

  /**
   * A load that fails validation returns false and changes only the load
   * state: itinerary, selected day, statuses, open card and storage stay.
   */
  lemma LoadRejected(s: AppState, data: Json, restore: bool, earlier: (Json, Json) -> bool)
    requires Validate(data, earlier).Checked? && |Validate(data, earlier).errors| > 0
    ensures var out := LoadItinerary(s, data, restore, earlier);
      && out.returned == Some(false)
      && out.state.loadState == ValidationFailed
      && out.state.itinerary == s.itinerary && out.state.selectedDayId == s.selectedDayId
      && out.state.statuses == s.statuses && out.state.expanded == s.expanded && out.state.storage == s.storage
  {
  }

  /**
   * A load that passes validation replaces the itinerary, selects the first
   * day, closes every card and gives every activity its saved status (when
   * restoring) or pending. An explicit load clears the trip's saved
   * statuses. It throws, after replacing the itinerary, exactly when a day
   * has a truthy `activities` that is not an array.
   */
  lemma LoadAccepted(s: AppState, data: Json, restore: bool, earlier: (Json, Json) -> bool)
    requires Validate(data, earlier) == Checked([])
    ensures var out := LoadItinerary(s, data, restore, earlier);
      var days := DaysOf(data);
      var key := StorageKey(Some(data)).value;
      var saved := if restore && key in s.storage then Some(s.storage[key]) else None;
      && Shaped(data) && Consistent(out.state)
      && out.state.itinerary == Some(data)
      && out.state.expanded.None? && out.state.loadState == Loaded
      && out.state.selectedDayId == (if Truthy(DayId(days[0])) then DayId(days[0]) else JNull)
      && out.state.storage == (if restore then s.storage else s.storage - {key})
      && (out.returned == Some(true) <==> !SomeNoForEach(days))
      && (out.returned != Some(false))
      && (out.returned == Some(true) ==>
            forall id :: (id in out.state.statuses <==> DaysHaveId(days, id))
              && (id in out.state.statuses ==> out.state.statuses[id] == Restored(saved, id)))
  {
    ValidatedIsShaped(data, earlier);
    var key := StorageKey(Some(data)).value;
    var saved := if restore && key in s.storage then Some(s.storage[key]) else None;
    FillDaysCovers(DaysOf(data), saved, map[]);
  }

  /** A validator that throws leaves the page in the loading state and the rest untouched. */
  lemma LoadValidatorThrows(s: AppState, data: Json, restore: bool, earlier: (Json, Json) -> bool)
    requires Validate(data, earlier).TypeError?
    ensures LoadItinerary(s, data, restore, earlier) == LoadOutcome(s.(loadState := Loading), None)
  {
  }

  /** The checklist and tab operations keep a reachable state reachable: they never touch the itinerary. */
  lemma OperationsKeepConsistent(s: AppState, id: string, v: string, d: Json, key: string)
    requires Consistent(s)
    ensures Consistent(SetStatus(s, id, v)) && Consistent(PressStatus(s, id, v))
    ensures Consistent(ToggleExpand(s, id)) && Consistent(SelectDay(s, d))
    ensures Consistent(TabKeydown(s, KeyOf(key), d))
  {
  }

  /** Loading keeps a reachable state reachable: only a validated itinerary is installed. */
  lemma LoadKeepsConsistent(s: AppState, data: Json, restore: bool, earlier: (Json, Json) -> bool)
    requires Consistent(s)
    ensures Consistent(LoadItinerary(s, data, restore, earlier).state)
  {
    if Validate(data, earlier) == Checked([]) {
      LoadAccepted(s, data, restore, earlier);
    }
  }
}

=== FILE: geometry.dfy ===
/**
 * `buildMapGeometry` and `getBounds` (assets/scripts/modules/map-rendering.js):
 * choose the most detailed zoom level at which every point fits the padded
 * canvas, then translate the points so their bounding box is centred.
 */
module Geometry {
  import opened Wrappers
  import opened Projection

  /** The zoom search runs from MaxZoom down to MinZoom. */
  const MaxZoom: nat := 15
  const MinZoom: nat := 2

  datatype Bounds = Bounds(minX: real, minY: real, maxX: real, maxY: real, width: real, height: real)

  /** A projected point translated into canvas space, numbered from 1. */
  datatype PlacedPoint = PlacedPoint(x: real, y: real, order: nat)

  datatype MapGeometry = MapGeometry(zoom: nat, mapLeft: real, mapTop: real, points: seq<PlacedPoint>)

  function Xs(ps: seq<WorldPoint>): (xs: seq<real>)
    ensures |xs| == |ps|
    ensures forall i :: 0 <= i < |ps| ==> xs[i] == ps[i].x
  {
    seq(|ps|, i requires 0 <= i < |ps| => ps[i].x)
  }

  function Ys(ps: seq<WorldPoint>): (ys: seq<real>)
    ensures |ys| == |ps|
    ensures forall i :: 0 <= i < |ps| ==> ys[i] == ps[i].y
  {
    seq(|ps|, i requires 0 <= i < |ps| => ps[i].y)
  }

  /** `Math.min(...xs)`: a lower bound that is one of the elements. */
  function SeqMin(xs: seq<real>): (m: real)
    requires |xs| > 0
    ensures forall i :: 0 <= i < |xs| ==> m <= xs[i]
  {
    if |xs| == 1 then xs[0]
    else
      var rest := SeqMin(xs[1..]);
      if xs[0] <= rest then xs[0] else rest
  }

  /** `Math.max(...xs)`: an upper bound that is one of the elements. */
  function SeqMax(xs: seq<real>): (m: real)
    requires |xs| > 0
    ensures forall i :: 0 <= i < |xs| ==> xs[i] <= m
  {
    if |xs| == 1 then xs[0]
    else
      var rest := SeqMax(xs[1..]);
      if xs[0] >= rest then xs[0] else rest
  }

  /** The minimum is one of the elements. */
  lemma {:induction false} SeqMinAttained(xs: seq<real>) returns (k: nat)
    requires |xs| > 0
    ensures k < |xs| && xs[k] == SeqMin(xs)
  {
    if |xs| == 1 {
      k := 0;
    } else if xs[0] <= SeqMin(xs[1..]) {
      k := 0;
    } else {
      var j := SeqMinAttained(xs[1..]);
      k := j + 1;
    }
  }

  /** The maximum is one of the elements. */
  lemma {:induction false} SeqMaxAttained(xs: seq<real>) returns (k: nat)
    requires |xs| > 0
    ensures k < |xs| && xs[k] == SeqMax(xs)
  {
    if |xs| == 1 {
      k := 0;
    } else if xs[0] >= SeqMax(xs[1..]) {
      k := 0;
    } else {
      var j := SeqMaxAttained(xs[1..]);
      k := j + 1;
    }
  }

  function Max(a: real, b: real): real {
    if a >= b then a else b
  }

  /**
   * `getBounds`: the bounding box of the points, with each extent floored
   * at 1 so that a single point does not produce an empty box.
   */
  function GetBounds(ps: seq<WorldPoint>): (b: Bounds)
    requires |ps| > 0
    ensures forall i :: 0 <= i < |ps| ==> b.minX <= ps[i].x <= b.maxX && b.minY <= ps[i].y <= b.maxY
    ensures b.width >= 1.0 && b.width >= b.maxX - b.minX
    ensures b.height >= 1.0 && b.height >= b.maxY - b.minY
    ensures b.width == 1.0 || b.width == b.maxX - b.minX
    ensures b.height == 1.0 || b.height == b.maxY - b.minY
  {
    var minX := SeqMin(Xs(ps));
    var maxX := SeqMax(Xs(ps));
    var minY := SeqMin(Ys(ps));
    var maxY := SeqMax(Ys(ps));
    Bounds(minX, minY, maxX, maxY, Max(1.0, maxX - minX), Max(1.0, maxY - minY))
  }

  /** The points projected at zoom `z`. */
  function WorldPoints(us: seq<UnitPoint>, z: nat): (ps: seq<WorldPoint>)
    ensures |ps| == |us|
    ensures forall i :: 0 <= i < |us| ==> ps[i] == Scaled(us[i], z)
  {
    seq(|us|, i requires 0 <= i < |us| => Scaled(us[i], z))
  }

  /** The bounding box at zoom `z` fits the available (padded) area. */
  predicate FitsAt(us: seq<UnitPoint>, z: nat, availW: real, availH: real)
    requires |us| > 0
  {
    var b := GetBounds(WorldPoints(us, z));
    b.width <= availW && b.height <= availH
  }

  predicate SomeZoomFits(us: seq<UnitPoint>, availW: real, availH: real)
    requires |us| > 0
  {
    exists z :: MinZoom <= z <= MaxZoom && FitsAt(us, z, availW, availH)
  }

  /** The `for (z = 15; z >= 2; z--)` loop from `z` downwards: the first fit. */
  function SearchZoom(us: seq<UnitPoint>, availW: real, availH: real, z: nat): (r: Option<nat>)
    requires |us| > 0
    requires MinZoom <= z
    ensures r.Some? ==> MinZoom <= r.value <= z && FitsAt(us, r.value, availW, availH)
    ensures r.Some? ==> forall k :: r.value < k <= z ==> !FitsAt(us, k, availW, availH)
    ensures r.None? ==> forall k :: MinZoom <= k <= z ==> !FitsAt(us, k, availW, availH)
    decreases z
  {
    if FitsAt(us, z, availW, availH) then Some(z)
    else if z == MinZoom then None
    else SearchZoom(us, availW, availH, z - 1)
  }

  /**
   * The zoom `buildMapGeometry` settles on: the largest fitting level in
   * MinZoom..MaxZoom, or MaxZoom (the variable's initial value) when none fits.
   */
  function ChooseZoom(us: seq<UnitPoint>, availW: real, availH: real): (z: nat)
    requires |us| > 0
    ensures MinZoom <= z <= MaxZoom
    ensures SomeZoomFits(us, availW, availH) ==>
      FitsAt(us, z, availW, availH) && forall k :: z < k <= MaxZoom ==> !FitsAt(us, k, availW, availH)
    ensures !SomeZoomFits(us, availW, availH) ==> z == MaxZoom
  {
    match SearchZoom(us, availW, availH, MaxZoom)
    case Some(z) => z
    case None => MaxZoom
  }

  /** Each point minus the map origin, numbered 1..n in input order. */
  function Place(ps: seq<WorldPoint>, left: real, top: real): (placed: seq<PlacedPoint>)
    ensures |placed| == |ps|
    ensures forall i :: 0 <= i < |ps| ==>
      placed[i] == PlacedPoint(ps[i].x - left, ps[i].y - top, i + 1)
  {
    seq(|ps|, i requires 0 <= i < |ps| => PlacedPoint(ps[i].x - left, ps[i].y - top, i + 1))
  }

  /**
   * Placing is a translation: the offset between any two placed points is
   * the offset between their world points, and adding the origin back
   * gives each world point.
   */
  lemma PlaceIsTranslation(ps: seq<WorldPoint>, left: real, top: real)
    ensures var placed := Place(ps, left, top);
      && (forall i, j :: 0 <= i < |ps| && 0 <= j < |ps| ==>
            placed[i].x - placed[j].x == ps[i].x - ps[j].x && placed[i].y - placed[j].y == ps[i].y - ps[j].y)
      && (forall i :: 0 <= i < |ps| ==> placed[i].x + left == ps[i].x && placed[i].y + top == ps[i].y)
  {
  }

  /** The left/top world coordinate that centres bounds `b` on a `width` x `height` canvas. */
  function CentringOrigin(b: Bounds, width: real, height: real): (o: WorldPoint)
    ensures o.x + width / 2.0 == b.minX + b.width / 2.0
    ensures o.y + height / 2.0 == b.minY + b.height / 2.0
  {
    WorldPoint(b.minX + b.width / 2.0 - width / 2.0, b.minY + b.height / 2.0 - height / 2.0)
  }

  /** `buildMapGeometry(points, width, height, padding)`. */
  function BuildMapGeometry(us: seq<UnitPoint>, width: real, height: real, padding: real): (g: MapGeometry)
    requires |us| > 0
    ensures MinZoom <= g.zoom <= MaxZoom
    ensures g.zoom == ChooseZoom(us, width - 2.0 * padding, height - 2.0 * padding)
    ensures |g.points| == |us|
    ensures forall i :: 0 <= i < |us| ==>
      && g.points[i].order == i + 1
      && g.points[i].x == Scaled(us[i], g.zoom).x - g.mapLeft
      && g.points[i].y == Scaled(us[i], g.zoom).y - g.mapTop
  {
    var zoom := ChooseZoom(us, width - 2.0 * padding, height - 2.0 * padding);
    var ps := WorldPoints(us, zoom);
    var origin := CentringOrigin(GetBounds(ps), width, height);
    MapGeometry(zoom, origin.x, origin.y, Place(ps, origin.x, origin.y))
  }

  /**
   * The map is centred on the stops: the centre of their bounding box at the
   * chosen zoom lands on the centre of the canvas.
   */
  lemma BoxCentred(us: seq<UnitPoint>, width: real, height: real, padding: real)
    requires |us| > 0
    ensures var g := BuildMapGeometry(us, width, height, padding);
      var b := GetBounds(WorldPoints(us, g.zoom));
      && b.minX + b.width / 2.0 - g.mapLeft == width / 2.0
      && b.minY + b.height / 2.0 - g.mapTop == height / 2.0
  {
    var g := BuildMapGeometry(us, width, height, padding);
    var o := CentringOrigin(GetBounds(WorldPoints(us, g.zoom)), width, height);
    assert g.mapLeft == o.x && g.mapTop == o.y;
  }

  // ---------------------------------------------------------------------
  // Properties of the zoom search
  // ---------------------------------------------------------------------

  function SpreadX(ps: seq<WorldPoint>): real
    requires |ps| > 0
  {
    SeqMax(Xs(ps)) - SeqMin(Xs(ps))
  }

  function SpreadY(ps: seq<WorldPoint>): real
    requires |ps| > 0
  {
    SeqMax(Ys(ps)) - SeqMin(Ys(ps))
  }

  lemma MinOfDoubled(xs: seq<real>, ys: seq<real>)
    requires |xs| == |ys| > 0
    requires forall i :: 0 <= i < |xs| ==> ys[i] == 2.0 * xs[i]
    ensures SeqMin(ys) == 2.0 * SeqMin(xs)
    ensures SeqMax(ys) == 2.0 * SeqMax(xs)
  {
    var i := SeqMinAttained(xs);
    var k := SeqMinAttained(ys);
    assert SeqMin(ys) <= ys[i];
    assert xs[i] <= xs[k];
    var i' := SeqMaxAttained(xs);
    var k' := SeqMaxAttained(ys);
    assert SeqMax(ys) >= ys[i'];
    assert xs[i'] >= xs[k'];
  }

  /** One zoom level more doubles the raw spread of the points on both axes. */
  lemma SpreadDoubles(us: seq<UnitPoint>, z: nat)
    requires |us| > 0
    ensures SpreadX(WorldPoints(us, z + 1)) == 2.0 * SpreadX(WorldPoints(us, z))
    ensures SpreadY(WorldPoints(us, z + 1)) == 2.0 * SpreadY(WorldPoints(us, z))
  {
    var lo, hi := WorldPoints(us, z), WorldPoints(us, z + 1);
    forall i | 0 <= i < |us|
      ensures Xs(hi)[i] == 2.0 * Xs(lo)[i] && Ys(hi)[i] == 2.0 * Ys(lo)[i]
    {
      DoublingLaw(us[i], z);
    }
    MinOfDoubled(Xs(lo), Xs(hi));
    MinOfDoubled(Ys(lo), Ys(hi));
  }

  /** Fitting at zoom z+1 implies fitting at zoom z. */
  lemma FitStepDown(us: seq<UnitPoint>, z: nat, availW: real, availH: real)
    requires |us| > 0
    requires FitsAt(us, z + 1, availW, availH)
    ensures FitsAt(us, z, availW, availH)
  {
    SpreadDoubles(us, z);
  }

  /** Fit is downward-closed in the zoom level. */
  lemma {:induction false} FitDownwardClosed(us: seq<UnitPoint>, j: nat, k: nat, availW: real, availH: real)
    requires |us| > 0
    requires j <= k
    requires FitsAt(us, k, availW, availH)
    ensures FitsAt(us, j, availW, availH)
    decreases k - j
  {
    if j < k {
      FitStepDown(us, k - 1, availW, availH);
      FitDownwardClosed(us, j, k - 1, availW, availH);
    }
  }

  /** The fitting zoom levels form exactly the range MinZoom..ChooseZoom when any fits. */
  lemma FitsExactlyUpToChosenZoom(us: seq<UnitPoint>, availW: real, availH: real, k: nat)
    requires |us| > 0
    requires SomeZoomFits(us, availW, availH)
    requires MinZoom <= k <= MaxZoom
    ensures FitsAt(us, k, availW, availH) <==> k <= ChooseZoom(us, availW, availH)
  {
    var z := ChooseZoom(us, availW, availH);
    if k <= z {
      FitDownwardClosed(us, k, z, availW, availH);
    }
  }

  /** `q` spreads at least as far as `p` on both axes (compared at zoom 0). */
  predicate SpreadsAtLeast(q: seq<UnitPoint>, p: seq<UnitPoint>)
    requires |q| > 0 && |p| > 0
  {
    && SpreadX(WorldPoints(q, 0)) >= SpreadX(WorldPoints(p, 0))
    && SpreadY(WorldPoints(q, 0)) >= SpreadY(WorldPoints(p, 0))
  }

  lemma {:induction false} SpreadsAtLeastAtEveryZoom(q: seq<UnitPoint>, p: seq<UnitPoint>, z: nat)
    requires |q| > 0 && |p| > 0
    requires SpreadsAtLeast(q, p)
    ensures SpreadX(WorldPoints(q, z)) >= SpreadX(WorldPoints(p, z))
    ensures SpreadY(WorldPoints(q, z)) >= SpreadY(WorldPoints(p, z))
  {
    if z > 0 {
      var y: nat := z - 1;
      SpreadsAtLeastAtEveryZoom(q, p, y);
      SpreadDoubles(q, y);
      SpreadDoubles(p, y);
      var qs, ps := WorldPoints(q, y), WorldPoints(p, y);
      assert SpreadX(WorldPoints(q, z)) == 2.0 * SpreadX(qs) && SpreadX(WorldPoints(p, z)) == 2.0 * SpreadX(ps);
      assert SpreadY(WorldPoints(q, z)) == 2.0 * SpreadY(qs) && SpreadY(WorldPoints(p, z)) == 2.0 * SpreadY(ps);
    }
  }

  /**
   * Monotonic zoom selection: a point set that spreads at least as far
   * never gets a higher zoom, provided it fits at some level at all (with
   * no fit the search keeps its initial MaxZoom).
   */
  lemma ZoomMonotoneInSpread(q: seq<UnitPoint>, p: seq<UnitPoint>, availW: real, availH: real)
    requires |q| > 0 && |p| > 0
    requires SpreadsAtLeast(q, p)
    requires SomeZoomFits(q, availW, availH)
    ensures SomeZoomFits(p, availW, availH)
    ensures ChooseZoom(q, availW, availH) <= ChooseZoom(p, availW, availH)
  {
    var zq := ChooseZoom(q, availW, availH);
    SpreadsAtLeastAtEveryZoom(q, p, zq);
    assert FitsAt(p, zq, availW, availH);
  }

  /** Adding points (every point of `p` is one of `q`) can only widen the spread. */
  lemma SupersetSpreadsAtLeast(q: seq<UnitPoint>, p: seq<UnitPoint>)
    requires |q| > 0 && |p| > 0
    requires forall i :: 0 <= i < |p| ==> p[i] in q
    ensures SpreadsAtLeast(q, p)
  {
    var wq, wp := WorldPoints(q, 0), WorldPoints(p, 0);
    forall i | 0 <= i < |p|
      ensures SeqMin(Xs(wq)) <= Xs(wp)[i] <= SeqMax(Xs(wq))
      ensures SeqMin(Ys(wq)) <= Ys(wp)[i] <= SeqMax(Ys(wq))
    {
      var k :| 0 <= k < |q| && q[k] == p[i];
      assert Xs(wq)[k] == Xs(wp)[i] && Ys(wq)[k] == Ys(wp)[i];
    }
    var a := SeqMinAttained(Xs(wp));
    var b := SeqMaxAttained(Xs(wp));
    var c := SeqMinAttained(Ys(wp));
    var d := SeqMaxAttained(Ys(wp));
  }

  /**
   * Containment: when some zoom fits, every placed point lies inside the
   * canvas with the padding as margin on all four sides.
   */
  lemma PointsInsidePaddedCanvas(us: seq<UnitPoint>, width: real, height: real, padding: real)
    requires |us| > 0
    requires SomeZoomFits(us, width - 2.0 * padding, height - 2.0 * padding)
    ensures var g := BuildMapGeometry(us, width, height, padding);
      forall i :: 0 <= i < |g.points| ==>
        && padding <= g.points[i].x <= width - padding
        && padding <= g.points[i].y <= height - padding
  {
    var g := BuildMapGeometry(us, width, height, padding);
    var ps := WorldPoints(us, g.zoom);
    var b := GetBounds(ps);
    assert b.width <= width - 2.0 * padding && b.height <= height - 2.0 * padding;
    forall i | 0 <= i < |g.points|
      ensures padding <= g.points[i].x <= width - padding
      ensures padding <= g.points[i].y <= height - padding
    {
      assert b.minX <= ps[i].x <= b.maxX;
      assert b.minY <= ps[i].y <= b.maxY;
    }
  }

  /** A single point is centred: its box is floored to 1 x 1 before centring. */
  lemma SinglePointCentred(u: UnitPoint, width: real, height: real, padding: real)
    ensures var g := BuildMapGeometry([u], width, height, padding);
      g.points == [PlacedPoint(width / 2.0 - 0.5, height / 2.0 - 0.5, 1)]
  {
    var g := BuildMapGeometry([u], width, height, padding);
    CentredSingle(WorldPoints([u], g.zoom), width, height);
  }

  /** One point, centred: its 1 x 1 box lands on the canvas centre. */
  lemma CentredSingle(ps: seq<WorldPoint>, width: real, height: real)
    requires |ps| == 1
    ensures var o := CentringOrigin(GetBounds(ps), width, height);
      Place(ps, o.x, o.y) == [PlacedPoint(width / 2.0 - 0.5, height / 2.0 - 0.5, 1)]
  {
    var p := ps[0];
    assert ps == [p];
    SinglePointBounds(p);
    var o := CentringOrigin(Bounds(p.x, p.y, p.x, p.y, 1.0, 1.0), width, height);
    assert o.x == p.x + 0.5 - width / 2.0 && o.y == p.y + 0.5 - height / 2.0;
    assert Place(ps, o.x, o.y)[0] == PlacedPoint(p.x - o.x, p.y - o.y, 1);
  }

  /** The bounds of one point: the point itself, floored to 1 x 1. */
  lemma SinglePointBounds(p: WorldPoint)
    ensures GetBounds([p]) == Bounds(p.x, p.y, p.x, p.y, 1.0, 1.0)
  {
    assert Xs([p]) == [p.x] && Ys([p]) == [p.y];
  }

  /** Two points further apart than the available width cannot fit. */
  lemma WideSpreadDoesNotFit(us: seq<UnitPoint>, z: nat, i: nat, j: nat, availW: real, availH: real)
    requires i < |us| && j < |us|
    requires Scaled(us[j], z).x - Scaled(us[i], z).x > availW
    ensures !FitsAt(us, z, availW, availH)
  {
    var ps := WorldPoints(us, z);
    var b := GetBounds(ps);
    assert b.minX <= ps[i].x && ps[j].x <= b.maxX;
  }

  /** Points that all lie within a square no larger than the available area fit. */
  lemma NarrowSpreadFits(us: seq<UnitPoint>, z: nat, lo: real, hi: real, availW: real, availH: real)
    requires |us| > 0
    requires forall i :: 0 <= i < |us| ==>
      lo <= Scaled(us[i], z).x <= hi && lo <= Scaled(us[i], z).y <= hi
    requires hi - lo <= availW && hi - lo <= availH && 1.0 <= availW && 1.0 <= availH
    ensures FitsAt(us, z, availW, availH)
  {
    var ps := WorldPoints(us, z);
    var a := SeqMinAttained(Xs(ps));
    var b := SeqMaxAttained(Xs(ps));
    var c := SeqMinAttained(Ys(ps));
    var d := SeqMaxAttained(Ys(ps));
  }

  /**
   * A set of stops whose spread already exceeds the available width at the
   * widest zoom fits at no zoom, so the search falls back to `MaxZoom`.
   */
  lemma TooWideFallsBack(us: seq<UnitPoint>, i: nat, j: nat, availW: real, availH: real)
    requires i < |us| && j < |us|
    requires Scaled(us[j], MinZoom).x - Scaled(us[i], MinZoom).x > availW
    ensures !SomeZoomFits(us, availW, availH)
    ensures ChooseZoom(us, availW, availH) == MaxZoom
  {
    WideSpreadDoesNotFit(us, MinZoom, i, j, availW, availH);
    if SomeZoomFits(us, availW, availH) {
      var z :| MinZoom <= z <= MaxZoom && FitsAt(us, z, availW, availH);
      FitDownwardClosed(us, MinZoom, z, availW, availH);
    }
  }

  /** Stops further apart than the available width at zoom `z` are drawn below `z`. */
  lemma TooWideCapsZoom(us: seq<UnitPoint>, z: nat, i: nat, j: nat, availW: real, availH: real)
    requires i < |us| && j < |us|
    requires Scaled(us[j], z).x - Scaled(us[i], z).x > availW
    requires SomeZoomFits(us, availW, availH)
    ensures ChooseZoom(us, availW, availH) < z
  {
    WideSpreadDoesNotFit(us, z, i, j, availW, availH);
    var c := ChooseZoom(us, availW, availH);
    if c >= z {
      FitDownwardClosed(us, z, c, availW, availH);
    }
  }

  /** Two stops 1/64 of the world apart lie within 16 pixels of the origin at zoom 2. */
  lemma CloseStopsNear(p: seq<UnitPoint>)
    requires |p| == 2 && p[0] == UnitPoint(0.0, 0.0) && p[1] == UnitPoint(0.015625, 0.0)
    ensures forall i :: 0 <= i < |p| ==>
      0.0 <= Scaled(p[i], MinZoom).x <= 16.0 && 0.0 <= Scaled(p[i], MinZoom).y <= 16.0
  {
    forall i | 0 <= i < |p|
      ensures 0.0 <= Scaled(p[i], MinZoom).x <= 16.0 && 0.0 <= Scaled(p[i], MinZoom).y <= 16.0
    {
      NearOrigin(p[i]);
    }
  }

  /** A point within 1/64 of the world's corner is within 16 pixels of it at zoom 2. */
  lemma NearOrigin(u: UnitPoint)
    requires 0.0 <= u.x <= 0.015625 && 0.0 <= u.y <= 0.015625
    ensures 0.0 <= Scaled(u, MinZoom).x <= 16.0 && 0.0 <= Scaled(u, MinZoom).y <= 16.0
  {
    ScaledAt2(u);
  }

  /** The same two stops are 128 pixels apart at zoom 5. */
  lemma CloseStopsApartAt5(p: seq<UnitPoint>)
    requires |p| == 2 && p[0] == UnitPoint(0.0, 0.0) && p[1] == UnitPoint(0.015625, 0.0)
    ensures Scaled(p[1], 5).x - Scaled(p[0], 5).x == 128.0
  {
    ScaledAt5(p[0]);
    ScaledAt5(p[1]);
  }

  /**
   * The fallback to `MaxZoom` makes the choice non-monotone: two stops 1/64
   * of the world apart are drawn at zoom 4 or lower in a 100 x 100 area,
   * but adding a third stop a world-width away leaves no zoom that fits,
   * so the larger set is drawn at the most detailed zoom, 15.
   */
  lemma FallbackZoomsIn(p: seq<UnitPoint>, r: UnitPoint, avail: real)
    requires |p| == 2 && p[0].x == 0.0 && p[0].y == 0.0 && p[1].x == 0.015625 && p[1].y == 0.0
    requires r.x == 1.0 && r.y == 0.0
    requires avail == 100.0
    ensures ChooseZoom(p, avail, avail) <= 4
    ensures ChooseZoom(p + [r], avail, avail) == MaxZoom
  {
    assert ChooseZoom(p, avail, avail) <= 4 by {
      CloseStopsZoom(p, avail);
    }
    assert ChooseZoom(p + [r], avail, avail) == MaxZoom by {
      var q := p + [r];
      assert |q| == 3 && q[0] == p[0] && q[2] == r;
      FarStopsZoom(q, avail);
    }
  }

  /** Two stops 1/64 of the world apart are drawn at zoom 4 or lower in a 100 x 100 area. */
  lemma CloseStopsZoom(p: seq<UnitPoint>, avail: real)
    requires |p| == 2 && p[0].x == 0.0 && p[0].y == 0.0 && p[1].x == 0.015625 && p[1].y == 0.0
    requires avail == 100.0
    ensures ChooseZoom(p, avail, avail) <= 4
  {
    CloseStopsFit(p, avail);
    ScaledAt5(p[0]);
    ScaledAt5(p[1]);
    TooWideCapsZoom(p, 5, 0, 1, avail, avail);
  }

  /** The same two stops fit a 100 x 100 area at zoom 2. */
  lemma CloseStopsFit(p: seq<UnitPoint>, avail: real)
    requires |p| == 2 && p[0].x == 0.0 && p[0].y == 0.0 && p[1].x == 0.015625 && p[1].y == 0.0
    requires avail == 100.0
    ensures SomeZoomFits(p, avail, avail)
  {
    assert p[0] == UnitPoint(0.0, 0.0) && p[1] == UnitPoint(0.015625, 0.0);
    CloseStopsFitAt2(p, avail);
  }

  lemma CloseStopsFitAt2(p: seq<UnitPoint>, avail: real)
    requires |p| == 2 && p[0] == UnitPoint(0.0, 0.0) && p[1] == UnitPoint(0.015625, 0.0)
    requires avail == 100.0
    ensures FitsAt(p, MinZoom, avail, avail)
  {
    CloseStopsNear(p);
    NarrowSpreadFits(p, MinZoom, 0.0, 16.0, avail, avail);
  }

  /** Stops a world-width apart fit nowhere in a 100 x 100 area and are drawn at zoom 15. */
  lemma FarStopsZoom(q: seq<UnitPoint>, avail: real)
    requires |q| == 3 && q[0].x == 0.0 && q[2].x == 1.0
    requires avail == 100.0
    ensures ChooseZoom(q, avail, avail) == MaxZoom
  {
    ScaledAt2(q[0]);
    ScaledAt2(q[2]);
    TooWideFallsBack(q, 0, 2, avail, avail);
  }
}

=== FILE: gestures.dfy ===
/**
 * The event handlers of the map viewport
 * (assets/scripts/modules/map-interaction.js) as pure transitions of one
 * controller record: the view plus the drag, touch-pan and pinch snapshots
 * taken when a gesture starts. The element's rectangle arrives with each
 * event that reads it, and a two-finger event carries the distance between
 * the fingers.
 */
module Gestures {
  import opened Wrappers
  import opened Viewport

  datatype Controller = Controller(
    view: View,
    // mouse drag
    dragging: bool,
    dragStart: Point,
    dragVBStart: Point,
    dragMoved: bool,
    // touch pan and pinch
    touchStartDist: real,
    touchStartScale: real,
    touchStartFocal: Point,
    touchStartVB: Point,
    touchPanning: bool,
    touchStartClient: Point,
    touchMoved: bool)

  /** The controller as `initMapInteraction` creates it. */
  const Fresh: Controller := Controller(
    Initial, false, Point(0.0, 0.0), Point(0.0, 0.0), false,
    0.0, 1.0, Point(0.0, 0.0), Point(0.0, 0.0), false, Point(0.0, 0.0), false)

  /**
   * A touch list as the handlers see it: its length, the first two points
   * (when present) and the distance between them.
   */
  datatype Touches = Touches(count: nat, first: Point, second: Point, dist: real)

  /** `dist` is the Euclidean distance of the first two touches. */
  predicate DistanceOfPair(t: Touches) {
    var dx := t.first.x - t.second.x;
    var dy := t.first.y - t.second.y;
    t.dist >= 0.0 && t.dist * t.dist == dx * dx + dy * dy
  }

  datatype Event =
    | Wheel(client: Point, deltaY: real, rect: Rect)
    | MouseDown(button: int, client: Point)
    | MouseMove(client: Point, rect: Rect)
    | MouseUp
    | TouchStart(touches: Touches, rect: Rect)
    | TouchMove(touches: Touches, rect: Rect)
    | TouchEnd(remaining: nat)
    | DblClick(client: Point, rect: Rect)
    | ZoomButton(action: string)

  /** The state the handlers keep between events: a legal scale and a clamped origin. */
  predicate Inv(c: Controller) {
    Settled(c.view) && ValidScale(c.touchStartScale)
  }

  predicate RectOk(r: Rect) {
    r.width > 0.0 && r.height > 0.0
  }

  /**
   * What the source needs of an event to compute numbers: a rectangle with
   * area where it divides by it, a true finger distance, and no pinch of
   * zero length out of a pinch that started at zero length (a 0/0).
   */
  predicate EventOk(c: Controller, e: Event) {
    match e
    case Wheel(_, _, rect) => RectOk(rect)
    case MouseMove(_, rect) => c.dragging ==> RectOk(rect)
    case TouchStart(t, rect) => t.count == 2 ==> RectOk(rect) && DistanceOfPair(t)
    case TouchMove(t, rect) =>
      && (t.count == 2 ==> DistanceOfPair(t) && !(c.touchStartDist == 0.0 && t.dist == 0.0))
      && (t.count == 1 && c.touchPanning ==> RectOk(rect))
    case DblClick(_, rect) => RectOk(rect)
    case _ => true
  }

  /** The scaled pointer delta of a pan, in viewBox units. */
  function PanDelta(scale: real, start: Point, now: Point, rect: Rect): (d: Point)
    requires scale > 0.0 && RectOk(rect)
  {
    Point((now.x - start.x) / rect.width * VBWidth(scale),
          (now.y - start.y) / rect.height * VBHeight(scale))
  }

  /** The view panned from a start origin by a delta, then clamped. */
  function PannedView(scale: real, vbStart: Point, d: Point): (r: View)
    requires scale > 0.0
    ensures r.scale == scale && InPanRange(r)
  {
    ClampPan(View(scale, vbStart.x - d.x, vbStart.y - d.y))
  }

  /**
   * The scale a pinch sets: the start scale times the distance ratio,
   * clamped. A pinch that started at zero length with the fingers apart now
   * divides by zero, an infinite factor, which clamps to the maximum.
   */
  function PinchScale(startScale: real, startDist: real, dist: real): (s: real)
    requires startScale > 0.0 && startDist >= 0.0 && dist >= 0.0
    requires !(startDist == 0.0 && dist == 0.0)
    ensures ValidScale(s)
  {
    if startDist == 0.0 then MaxScale
    else ClampScale(startScale * (dist / startDist))
  }

  function MouseDownStep(c: Controller, button: int, client: Point): (r: Controller)
    ensures button != 0 ==> r == c
    ensures button == 0 ==>
      r == c.(dragging := true, dragMoved := false, dragStart := client,
              dragVBStart := Point(c.view.vbX, c.view.vbY))
  {
    if button != 0 then c
    else c.(dragging := true, dragMoved := false, dragStart := client,
            dragVBStart := Point(c.view.vbX, c.view.vbY))
  }

  /** `onMouseMove`: a drag pans from the snapshot taken at mouse down. */
  function MouseMoveStep(c: Controller, client: Point, rect: Rect): (r: Controller)
    requires c.view.scale > 0.0
    requires c.dragging ==> RectOk(rect)
  {
    if !c.dragging then c
    else
      var d := PanDelta(c.view.scale, c.dragStart, client, rect);
      c.(dragMoved := c.dragMoved || Abs(d.x) > 1.0 || Abs(d.y) > 1.0,
         view := PannedView(c.view.scale, c.dragVBStart, d))
  }

  /** `onTouchStart`: two fingers snapshot a pinch, one finger snapshots a pan. */
  function TouchStartStep(c: Controller, t: Touches, rect: Rect): (r: Controller)
    requires c.view.scale > 0.0
    requires t.count == 2 ==> RectOk(rect) && DistanceOfPair(t)
  {
    if t.count == 2 then
      var centre := Point((t.first.x + t.second.x) / 2.0, (t.first.y + t.second.y) / 2.0);
      c.(touchStartDist := t.dist, touchStartScale := c.view.scale,
         touchStartFocal := ClientToSVG(c.view, rect, centre),
         touchStartVB := Point(c.view.vbX, c.view.vbY), touchPanning := false)
    else if t.count == 1 then
      c.(touchPanning := true, touchMoved := false, touchStartClient := t.first,
         touchStartVB := Point(c.view.vbX, c.view.vbY))
    else c
  }

  /** The view a pinch move produces: a focal zoom from the snapshot, then the pan clamp. */
  function PinchView(c: Controller, dist: real): (v: View)
    requires ValidScale(c.touchStartScale) && c.touchStartDist >= 0.0 && dist >= 0.0
    requires !(c.touchStartDist == 0.0 && dist == 0.0)
    ensures ValidScale(v.scale) && InPanRange(v)
  {
    var s := PinchScale(c.touchStartScale, c.touchStartDist, dist);
    var snapshot := View(c.touchStartScale, c.touchStartVB.x, c.touchStartVB.y);
    ClampPan(FocalZoom(snapshot, s, c.touchStartFocal))
  }

  /** `onTouchMove`: two fingers pinch, one panning finger pans, anything else is ignored. */
  function TouchMoveStep(c: Controller, t: Touches, rect: Rect): (r: Controller)
    requires Inv(c)
    requires c.touchStartDist >= 0.0
    requires t.count == 2 ==> DistanceOfPair(t) && !(c.touchStartDist == 0.0 && t.dist == 0.0)
    requires t.count == 1 && c.touchPanning ==> RectOk(rect)
  {
    if t.count == 2 then c.(view := PinchView(c, t.dist))
    else if t.count == 1 && c.touchPanning then
      var d := PanDelta(c.view.scale, c.touchStartClient, t.first, rect);
      c.(touchMoved := c.touchMoved || Abs(d.x) > 2.0 || Abs(d.y) > 2.0,
         view := PannedView(c.view.scale, c.touchStartVB, d))
    else c
  }

  /** `onTouchEnd`: fewer than two remaining fingers end the one-finger pan. */
  function TouchEndStep(c: Controller, remaining: nat): (r: Controller)
    ensures remaining < 2 ==> r == c.(touchPanning := false)
    ensures remaining >= 2 ==> r == c
  {
    if remaining < 2 then c.(touchPanning := false) else c
  }

  /**
   * Pressing a button never moves the map. Only the primary button starts a
   * drag, which begins unmoved from the current origin; any other button
   * leaves the drag state as it was.
   */
  lemma MouseDownStartsDrag(c: Controller, button: int, client: Point)
    ensures var r := MouseDownStep(c, button, client);
      && r.view == c.view
      && (r.dragging <==> button == 0 || c.dragging)
      && (button == 0 ==> !r.dragMoved && r.dragStart == client && r.dragVBStart == Point(r.view.vbX, r.view.vbY))
      && (button != 0 ==> r.dragMoved == c.dragMoved && r.dragStart == c.dragStart && r.dragVBStart == c.dragVBStart)
  {
  }

  /** Lifting fingers never moves the map; the one-finger pan survives only while two or more remain. */
  lemma TouchEndStopsPan(c: Controller, remaining: nat)
    ensures var r := TouchEndStep(c, remaining);
      && r.view == c.view
      && (r.touchPanning <==> c.touchPanning && remaining >= 2)
      && r.touchMoved == c.touchMoved && r.dragging == c.dragging
  {
  }

  /** The zoom buttons; an unknown action does nothing. */
  function ButtonStep(v: View, action: string): (r: View)
    requires v.scale > 0.0
  {
    if action == "zoom-in" then ZoomIn(v)
    else if action == "zoom-out" then ZoomOut(v)
    else if action == "zoom-reset" then ResetZoom(v)
    else v
  }

  /** One event applied to the controller. */
  function Step(c: Controller, e: Event): (r: Controller)
    requires Inv(c) && c.touchStartDist >= 0.0
    requires EventOk(c, e)
    ensures Inv(r) && r.touchStartDist >= 0.0
  {
    match e
    case Wheel(client, deltaY, rect) =>
      c.(view := ZoomAtPoint(c.view, WheelFactor(deltaY), ClientToSVG(c.view, rect, client)))
    case MouseDown(button, client) => MouseDownStep(c, button, client)
    case MouseMove(client, rect) => MouseMoveStep(c, client, rect)
    case MouseUp => c.(dragging := false)
    case TouchStart(t, rect) => TouchStartStep(c, t, rect)
    case TouchMove(t, rect) => TouchMoveStep(c, t, rect)
    case TouchEnd(remaining) => TouchEndStep(c, remaining)
    case DblClick(client, rect) =>
      c.(view := ZoomAtPoint(c.view, DblClickFactor, ClientToSVG(c.view, rect, client)))
    case ZoomButton(action) => c.(view := ButtonStep(c.view, action))
  }

  /**
   * The capture-phase click handler: a click that ends a drag or a touch
   * pan is swallowed, and swallowing it clears both moved flags.
   */
  function ClickCapture(c: Controller): (res: (bool, Controller))
    ensures res.0 <==> c.dragMoved || c.touchMoved
    ensures !res.1.dragMoved && !res.1.touchMoved
    ensures res.1.view == c.view
  {
    if c.dragMoved || c.touchMoved then (true, c.(dragMoved := false, touchMoved := false))
    else (false, c)
  }

  // ---------------------------------------------------------------------
  // Properties
  // ---------------------------------------------------------------------

  /** The fresh controller satisfies the invariant. */
  lemma FreshSettled()
    ensures Inv(Fresh) && Fresh.touchStartDist >= 0.0
  {
  }

  /**
   * A drag is not cumulative: each move pans from the mouse-down snapshot,
   * so the view after two moves is the view the second move alone gives.
   */
  lemma MouseMovesNotCumulative(c: Controller, p1: Point, p2: Point, rect: Rect)
    requires Inv(c) && c.dragging && RectOk(rect)
    ensures MouseMoveStep(MouseMoveStep(c, p1, rect), p2, rect).view == MouseMoveStep(c, p2, rect).view
  {
    var m := MouseMoveStep(c, p1, rect);
    assert m.view.scale == c.view.scale && m.dragging;
    assert m.dragStart == c.dragStart && m.dragVBStart == c.dragVBStart;
  }

  /** A mouse move sets the moved flag exactly when the scaled delta passes 1 on some axis. */
  lemma MouseMoveFlag(c: Controller, client: Point, rect: Rect)
    requires Inv(c) && c.dragging && RectOk(rect) && !c.dragMoved
    ensures var d := PanDelta(c.view.scale, c.dragStart, client, rect);
      MouseMoveStep(c, client, rect).dragMoved <==> Abs(d.x) > 1.0 || Abs(d.y) > 1.0
  {
  }

  /** Only the primary button starts a drag, and without a drag the mouse moves nothing. */
  lemma SecondaryButtonNeverPans(c: Controller, button: int, down: Point, moves: seq<Point>, rect: Rect)
    requires Inv(c) && !c.dragging && button != 0
    ensures var r := MouseDownStep(c, button, down);
      !r.dragging && MovesFrom(r, moves, rect) == r
  {
    var r := MouseDownStep(c, button, down);
    MovesIgnoredWithoutDrag(r, moves, rect);
  }

  /** The controller after a run of mouse moves. */
  function MovesFrom(c: Controller, moves: seq<Point>, rect: Rect): Controller
    requires c.view.scale > 0.0
    requires c.dragging ==> RectOk(rect)
    decreases |moves|
  {
    if |moves| == 0 then c
    else if !c.dragging then MovesFrom(c, moves[1..], rect)
    else
      var next := MouseMoveStep(c, moves[0], rect);
      MovesFrom(next, moves[1..], rect)
  }

  lemma {:induction false} MovesIgnoredWithoutDrag(c: Controller, moves: seq<Point>, rect: Rect)
    requires c.view.scale > 0.0 && !c.dragging
    ensures MovesFrom(c, moves, rect) == c
    decreases |moves|
  {
    if |moves| > 0 {
      MovesIgnoredWithoutDrag(c, moves[1..], rect);
    }
  }

  /** A touch pan is not cumulative either: each move pans from the touch-start snapshot. */
  lemma TouchMovesNotCumulative(c: Controller, t1: Touches, t2: Touches, rect: Rect)
    requires Inv(c) && c.touchStartDist >= 0.0 && c.touchPanning && RectOk(rect)
    requires t1.count == 1 && t2.count == 1
    ensures TouchMoveStep(TouchMoveStep(c, t1, rect), t2, rect).view == TouchMoveStep(c, t2, rect).view
  {
    var m := TouchMoveStep(c, t1, rect);
    assert m.view.scale == c.view.scale && m.touchPanning;
    assert m.touchStartClient == c.touchStartClient && m.touchStartVB == c.touchStartVB;
  }

  /**
   * A pinch depends only on the touch-start snapshot and the current
   * distance: repeating the same move changes nothing more, and any two
   * controllers with the same snapshot reach the same view.
   */
  lemma PinchRepeatable(c: Controller, t: Touches, rect: Rect)
    requires Inv(c) && c.touchStartDist >= 0.0
    requires t.count == 2 && DistanceOfPair(t) && !(c.touchStartDist == 0.0 && t.dist == 0.0)
    ensures var once := TouchMoveStep(c, t, rect);
      TouchMoveStep(once, t, rect) == once
  {
  }

  lemma PinchDependsOnlyOnSnapshot(c: Controller, d: Controller, t: Touches, rect: Rect)
    requires Inv(c) && c.touchStartDist >= 0.0 && Inv(d) && d.touchStartDist >= 0.0
    requires t.count == 2 && DistanceOfPair(t) && !(c.touchStartDist == 0.0 && t.dist == 0.0)
    requires c.touchStartDist == d.touchStartDist && c.touchStartScale == d.touchStartScale
    requires c.touchStartFocal == d.touchStartFocal && c.touchStartVB == d.touchStartVB
    ensures TouchMoveStep(c, t, rect).view == TouchMoveStep(d, t, rect).view
  {
  }

  /**
   * A pinch back to the starting distance restores the snapshot view when
   * that view was clamped already.
   */
  lemma PinchToStartDistanceRestores(c: Controller, t: Touches, rect: Rect)
    requires Inv(c) && c.touchStartDist > 0.0
    requires t.count == 2 && DistanceOfPair(t) && t.dist == c.touchStartDist
    requires InPanRange(View(c.touchStartScale, c.touchStartVB.x, c.touchStartVB.y))
    ensures TouchMoveStep(c, t, rect).view == View(c.touchStartScale, c.touchStartVB.x, c.touchStartVB.y)
  {
    var snapshot := View(c.touchStartScale, c.touchStartVB.x, c.touchStartVB.y);
    assert t.dist / c.touchStartDist == 1.0;
    assert c.touchStartScale * 1.0 == c.touchStartScale;
    assert PinchScale(c.touchStartScale, c.touchStartDist, t.dist) == c.touchStartScale;
    assert c.touchStartScale / c.touchStartScale == 1.0;
    assert FocalZoom(snapshot, c.touchStartScale, c.touchStartFocal) == snapshot;
  }

  /**
   * A finger left on the glass after a pinch does not pan: once a touch end
   * leaves fewer than two fingers, a one-finger move leaves the view alone.
   */
  lemma LingeringFingerDoesNotPan(c: Controller, start: Touches, remaining: nat, move: Touches, rect: Rect)
    requires Inv(c) && c.touchStartDist >= 0.0
    requires start.count == 2 && RectOk(rect) && DistanceOfPair(start)
    requires remaining < 2 && move.count == 1
    ensures var pinching := TouchStartStep(c, start, rect);
      var lifted := TouchEndStep(pinching, remaining);
      TouchMoveStep(lifted, move, rect) == lifted
  {
  }

  /** After a swallowed click the next click goes through. */
  lemma ClickSwallowedOnce(c: Controller)
    requires c.dragMoved || c.touchMoved
    ensures ClickCapture(c).0
    ensures !ClickCapture(ClickCapture(c).1).0
  {
  }

  /**
   * A run of events from a settled controller; `None` when some event
   * carries numbers the handlers cannot compute with. Every run keeps the
   * invariant.
   */
  function Run(c: Controller, es: seq<Event>): (r: Option<Controller>)
    requires Inv(c) && c.touchStartDist >= 0.0
    ensures r.Some? ==> Inv(r.value)
    decreases |es|
  {
    if |es| == 0 then Some(c)
    else if !EventOk(c, es[0]) then None
    else Run(Step(c, es[0]), es[1..])
  }
}

=== FILE: js_arith.dfy ===
/** JavaScript's integer-valued `%` and `Math.min`, shared by several modules. */
module JsArith {
  /** JavaScript's `a % n`: the remainder of truncated division (sign of `a`). */
  function JsRem(a: int, n: int): (r: int)
    requires n > 0
    ensures a >= 0 ==> 0 <= r < n
    ensures a < 0 ==> -n < r <= 0
  {
    if a >= 0 then a % n else -((-a) % n)
  }

  /** `Math.min` on integers, as in the bounds of `slice`. */
  function Min(a: int, b: int): int {
    if a <= b then a else b
  }

  /** A remainder of a value already in range is the value itself. */
  lemma RemOfSmall(a: int, n: int)
    requires 0 <= a < n
    ensures a % n == a
  {
  }
}

=== FILE: json.dfy ===
/**
 * JSON values as JavaScript sees them after `JSON.parse`, with the few
 * language operations the itinerary code applies to them: truthiness,
 * `typeof`, `in`, and property reads (`undefined` is `None`).
 */
module Json {
  import opened Wrappers

  datatype Json =
    | JNull
    | JBool(b: bool)
    | JNum(n: real)
    | JStr(s: string)
    | JArr(items: seq<Json>)
    | JObj(fields: map<string, Json>)

  /** JavaScript truthiness of a JSON value (`NaN` cannot occur in JSON). */
  predicate Truthy(j: Json) {
    match j
    case JNull => false
    case JBool(b) => b
    case JNum(n) => n != 0.0
    case JStr(s) => s != ""
    case JArr(_) => true
    case JObj(_) => true
  }

  /** Truthiness of a property read, where `undefined` is falsy. */
  predicate TruthyProp(p: Option<Json>) {
    p.Some? && Truthy(p.value)
  }

  /** `typeof j === "object"`: objects, arrays and `null`. */
  predicate IsObjectType(j: Json) {
    j.JNull? || j.JArr? || j.JObj?
  }

  /** The values `key in j` may be applied to without a TypeError. */
  predicate AllowsIn(j: Json) {
    j.JArr? || j.JObj?
  }

  /** `key in j` for a named (non-index) key. */
  predicate Has(j: Json, key: string) {
    j.JObj? && key in j.fields
  }

  /** `j[key]` for a named key; reading a property of `null` throws, which
      callers rule out before reading. */
  function Get(j: Json, key: string): (p: Option<Json>)
    ensures p.Some? <==> Has(j, key)
    ensures p.Some? ==> p.value == j.fields[key]
  {
    if Has(j, key) then Some(j.fields[key]) else None
  }

  predicate IsString(p: Option<Json>) {
    p.Some? && p.value.JStr?
  }

  predicate IsNumber(p: Option<Json>) {
    p.Some? && p.value.JNum?
  }

  predicate IsArray(p: Option<Json>) {
    p.Some? && p.value.JArr?
  }
}

=== FILE: projection.dfy ===
/**
 * The spherical-Mercator projection of `latLngToWorld`
 * (assets/scripts/modules/map-rendering.js). Longitude maps linearly onto
 * the unit interval; the latitude part (a logarithm of a sine) is supplied
 * by the caller as `mercY`, the unit-square y of a clamped latitude. A unit
 * point is then scaled by the world size 2^z * 256, which is what makes the
 * zoom levels nest exactly: one more zoom level doubles every coordinate.
 */
module Projection {

  /** Side of one map tile in world pixels. */
  const TileSize: real := 256.0

  /** Latitudes beyond this are clamped before projecting (Mercator-safe). */
  const LatLimit: real := 85.05112878

  function Pow2(z: nat): (r: real)
    ensures r >= 1.0
  {
    if z == 0 then 1.0 else 2.0 * Pow2(z - 1)
  }

  /** Width and height of the whole world, in pixels, at zoom `z`. */
  function WorldSize(z: nat): (r: real)
    ensures r >= TileSize
  {
    Pow2(z) * TileSize
  }

  /** A point of the unit square: the projection before zoom scaling. */
  datatype UnitPoint = UnitPoint(x: real, y: real)

  /** A point in world-pixel space at some zoom. */
  datatype WorldPoint = WorldPoint(x: real, y: real)

  function ClampLatitude(lat: real): (r: real)
    ensures -LatLimit <= r <= LatLimit
    ensures -LatLimit <= lat <= LatLimit ==> r == lat
    ensures lat > LatLimit ==> r == LatLimit
    ensures lat < -LatLimit ==> r == -LatLimit
  {
    if lat > LatLimit then LatLimit else if lat < -LatLimit then -LatLimit else lat
  }

  /** The unit-square x of a longitude: -180 maps to 0 and 180 to 1. */
  function UnitX(lng: real): (u: real)
    ensures -180.0 <= lng <= 180.0 ==> 0.0 <= u <= 1.0
    ensures lng == -180.0 ==> u == 0.0
    ensures lng == 180.0 ==> u == 1.0
  {
    (lng + 180.0) / 360.0
  }

  function Unit(lat: real, lng: real, mercY: real -> real): UnitPoint {
    UnitPoint(UnitX(lng), mercY(ClampLatitude(lat)))
  }

  /**
   * A unit point scaled to world pixels at zoom `z`, that is multiplied by
   * WorldSize(z). It is written as 256 times the unit point, doubled once
   * per zoom level: multiplying by a power of two is exact in floating
   * point, so this is the same value the source computes.
   */
  function Scaled(u: UnitPoint, z: nat): (p: WorldPoint)
  {
    if z == 0 then WorldPoint(u.x * TileSize, u.y * TileSize)
    else
      var q := Scaled(u, z - 1);
      WorldPoint(2.0 * q.x, 2.0 * q.y)
  }

  /** The doubling form agrees with the closed form u * 2^z * 256. */
  lemma {:induction false} ScaledIsWorldSizeMultiple(u: UnitPoint, z: nat)
    ensures Scaled(u, z) == WorldPoint(u.x * WorldSize(z), u.y * WorldSize(z))
  {
    if z > 0 {
      ScaledIsWorldSizeMultiple(u, z - 1);
      assert WorldSize(z) == 2.0 * WorldSize(z - 1);
    }
  }

  /** `latLngToWorld(lat, lng, z)`. */
  function LatLngToWorld(lat: real, lng: real, z: nat, mercY: real -> real): (p: WorldPoint)
    ensures p.x == UnitX(lng) * WorldSize(z)
    ensures p.y == mercY(ClampLatitude(lat)) * WorldSize(z)
  {
    ScaledIsWorldSizeMultiple(Unit(lat, lng, mercY), z);
    Scaled(Unit(lat, lng, mercY), z)
  }

  /** Every longitude in [-180, 180] projects into one world width. */
  lemma LongitudeWithinWorld(lat: real, lng: real, z: nat, mercY: real -> real)
    requires -180.0 <= lng <= 180.0
    ensures 0.0 <= LatLngToWorld(lat, lng, z, mercY).x <= WorldSize(z)
  {
    var u := UnitX(lng);
    assert 0.0 <= u <= 1.0;
    assert u * WorldSize(z) <= 1.0 * WorldSize(z);
  }

  /** Scaling by a power of two is exact: one zoom level doubles both coordinates. */
  lemma DoublingLaw(u: UnitPoint, z: nat)
    ensures Scaled(u, z + 1).x == 2.0 * Scaled(u, z).x
    ensures Scaled(u, z + 1).y == 2.0 * Scaled(u, z).y
  {
  }

  /** Latitudes beyond the Mercator limit project like the limit itself. */
  lemma PolarLatitudesClamp(lat: real, lng: real, z: nat, mercY: real -> real)
    requires lat >= LatLimit
    ensures LatLngToWorld(lat, lng, z, mercY) == LatLngToWorld(LatLimit, lng, z, mercY)
  {
  }

  /** The world point of a unit point at zoom `z`, written with the numeric world size. */
  lemma ScaledBy(u: UnitPoint, z: nat, size: real)
    requires size == Pow2(z) * TileSize
    ensures Scaled(u, z) == WorldPoint(u.x * size, u.y * size)
  {
    ScaledIsWorldSizeMultiple(u, z);
  }

  /** At zoom 2 the world is 1024 pixels wide. */
  lemma ScaledAt2(u: UnitPoint)
    ensures Scaled(u, 2) == WorldPoint(u.x * 1024.0, u.y * 1024.0)
  {
    assert Pow2(2) == 4.0;
    ScaledBy(u, 2, 1024.0);
  }

  /** At zoom 5 the world is 8192 pixels wide. */
  lemma ScaledAt5(u: UnitPoint)
    ensures Scaled(u, 5) == WorldPoint(u.x * 8192.0, u.y * 8192.0)
  {
    assert Pow2(5) == 32.0;
    ScaledBy(u, 5, 8192.0);
  }
}

=== FILE: rewrite.dfy ===
/**
 * The image-URL rewrite script (scripts/rewrite-image-urls.mjs): the
 * file-name prefix of a day, the lookup of a local image file by prefix,
 * the `--base-url` option, and the rule that decides which image URLs are
 * replaced, how many are counted and whether the itinerary file is written
 * back. Reading the directory and the files, and the console output, are
 * not modelled: the directory listing is a parameter.
 */
module Rewrite {
  import opened Wrappers
  import opened Json
  import opened Text
  import opened JsArith

  const DefaultBaseUrl: string := "https://itinerary-images.pages.dev"

  /** The weekday names and their abbreviations, in the order `Object.entries` lists them. */
  const Weekdays: seq<(string, string)> := [
    ("friday", "fri"), ("saturday", "sat"), ("sunday", "sun"), ("monday", "mon"),
    ("tuesday", "tue"), ("wednesday", "wed"), ("thursday", "thu")]

  // --- day keys ---

  /** The abbreviation of the first weekday from index `k` on whose name starts `dayLabel`. */
  function FirstWeekday(dayLabel: string, k: nat): (r: Option<string>)
    requires k <= |Weekdays|
    ensures r.Some? ==> exists i :: k <= i < |Weekdays| && StartsWith(dayLabel, Weekdays[i].0) && r.value == Weekdays[i].1
    ensures r.None? ==> forall i :: k <= i < |Weekdays| ==> !StartsWith(dayLabel, Weekdays[i].0)
    decreases |Weekdays| - k
  {
    if k == |Weekdays| then None
    else if StartsWith(dayLabel, Weekdays[k].0) then Some(Weekdays[k].1)
    else FirstWeekday(dayLabel, k + 1)
  }

  /**
   * The Seville file's `dayKey`: `dayLabel` is `day.label || ""`; the
   * lower-cased label's weekday abbreviation, or its first three characters.
   */
  function SevilleDayKey(dayLabel: string): (key: string)
  {
    var l := Lower(dayLabel);
    match FirstWeekday(l, 0)
    case Some(abbrev) => abbrev
    case None => l[..Min(3, |l|)]
  }

  /**
   * The sample file's `dayKey`: `day` followed by the day number. The
   * ensures splits the key into its two parts for SampleDayKeysDistinct.
   */
  function SampleDayKey(dayNumber: int): (key: string)
    ensures StartsWith(key, "day") && key[3..] == IntToString(dayNumber)
  {
    "day" + IntToString(dayNumber)
  }

  // --- finding a local file ---

  /** `files[i]` is the first file starting with `pattern`. */
  predicate IsFirstMatch(files: seq<string>, pattern: string, i: int) {
    && 0 <= i < |files| && StartsWith(files[i], pattern)
    && forall k :: 0 <= k < i ==> !StartsWith(files[k], pattern)
  }

  /** `files.find(f => f.startsWith(pattern))`. */
  function FirstStartingWith(files: seq<string>, pattern: string): (r: Option<string>)
    ensures r.Some? ==> exists i :: IsFirstMatch(files, pattern, i) && files[i] == r.value
    ensures r.None? <==> forall i :: 0 <= i < |files| ==> !StartsWith(files[i], pattern)
  {
    if |files| == 0 then None
    else if StartsWith(files[0], pattern) then Some(files[0])
    else
      var rest := FirstStartingWith(files[1..], pattern);
      assert rest.Some? ==> exists i :: IsFirstMatch(files, pattern, i) && files[i] == rest.value by {
        if rest.Some? {
          var i :| IsFirstMatch(files[1..], pattern, i) && files[1..][i] == rest.value;
          assert files[i + 1] == rest.value;
          forall k | 0 <= k < i + 1 ensures !StartsWith(files[k], pattern) {
            if k > 0 { assert files[k] == files[1..][k - 1]; }
          }
          assert IsFirstMatch(files, pattern, i + 1);
        }
      }
      assert rest.None? ==> forall i :: 0 <= i < |files| ==> !StartsWith(files[i], pattern) by {
        if rest.None? {
          forall i | 0 <= i < |files| ensures !StartsWith(files[i], pattern) {
            if i > 0 { assert files[i] == files[1..][i - 1]; }
          }
        }
      }
      rest
  }

  /** The pattern with the order as written: `prefix-order-type-`. */
  function PlainPattern(prefix: string, order: int, kind: string): string {
    prefix + "-" + IntToString(order) + "-" + kind + "-"
  }

  /** The pattern with the order zero-padded to two digits. */
  function PaddedPattern(prefix: string, order: int, kind: string): string {
    prefix + "-" + PadStart2(IntToString(order)) + "-" + kind + "-"
  }

  /**
   * `findFile(prefix, order, type)` over the directory listing `files`:
   * the first file with the plain pattern, else the first with the padded
   * one. The patterns are never empty, so a match is never the falsy "".
   */
  function FindFile(files: seq<string>, prefix: string, order: int, kind: string): (r: Option<string>)
    ensures r.Some? ==> r.value in files
    ensures r.Some? ==>
      StartsWith(r.value, PlainPattern(prefix, order, kind)) || StartsWith(r.value, PaddedPattern(prefix, order, kind))
  {
    match FirstStartingWith(files, PlainPattern(prefix, order, kind))
    case Some(f) => Some(f)
    case None => FirstStartingWith(files, PaddedPattern(prefix, order, kind))
  }

  // --- the base URL ---

  /** `s.replace(/\/$/, "")`: one trailing slash removed. */
  function StripTrailingSlash(s: string): (r: string)
  {
    if |s| > 0 && s[|s| - 1] == '/' then s[..|s| - 1] else s
  }

  /** The index of the first `x` in `xs`, or -1 (`indexOf`). */
  function IndexOf(xs: seq<string>, x: string): (i: int)
    ensures -1 <= i < |xs|
    ensures i >= 0 ==> xs[i] == x && forall k :: 0 <= k < i ==> xs[k] != x
    ensures i == -1 ==> x !in xs
  {
    if |xs| == 0 then -1
    else if xs[0] == x then 0
    else
      var rest := IndexOf(xs[1..], x);
      if rest == -1 then -1 else rest + 1
  }

  /** `BASE_URL`: the non-empty argument after the first `--base-url`, else the default. */
  function BaseUrl(args: seq<string>): (url: string)
  {
    var i := IndexOf(args, "--base-url");
    if i != -1 && i + 1 < |args| && args[i + 1] != "" then StripTrailingSlash(args[i + 1])
    else DefaultBaseUrl
  }

  /** `--dry-run` anywhere among the arguments. */
  predicate DryRun(args: seq<string>) {
    "--dry-run" in args
  }

  // --- rewriting ---

  /**
   * An activity as the script sees it: its `order`, `image?.url`, and the
   * `url` of each entry of `photoExamples` (`None` where the property is
   * missing); `photoExamples` itself is `None` when falsy.
   */
  datatype Activity = Activity(order: int, imageUrl: Option<Json>, photoUrls: Option<seq<Option<Json>>>)

  /** A day: the file-name prefix its `dayKey` gives, and its activities. */
  datatype Day = Day(prefix: string, activities: seq<Activity>)

  /** One image URL after the rewrite rule, whether it was counted as rewritten, and whether it was kept for want of a file. */
  datatype Step = Step(url: Option<Json>, rewritten: bool, skipped: bool)

  /** The rewrite rule for one URL whose local file lookup gave `file`. */
  function RewriteUrl(url: Option<Json>, file: Option<string>, base: string): (s: Step)
    ensures s.skipped <==> file.None?
    ensures s.rewritten <==> file.Some? && TruthyProp(url) && url.value != JStr(base + "/" + file.value)
    ensures s.rewritten ==> s.url == Some(JStr(base + "/" + file.value))
    ensures !s.rewritten ==> s.url == url
  {
    match file
    case None => Step(url, false, true)
    case Some(f) =>
      var newUrl := JStr(base + "/" + f);
      if TruthyProp(url) && url.value != newUrl then Step(Some(newUrl), true, false)
      else Step(url, false, false)
  }

  function B(b: bool): nat {
    if b then 1 else 0
  }

  /** A tally of rewritten and skipped URLs. */
  datatype Tally = Tally(rewrites: nat, skipped: nat)

  function Plus(a: Tally, b: Tally): Tally {
    Tally(a.rewrites + b.rewrites, a.skipped + b.skipped)
  }

  function Of(s: Step): Tally {
    Tally(B(s.rewritten), B(s.skipped))
  }

  /**
   * The file lookup the rewrite loop uses, from a day prefix, an activity
   * order and an image type; the script's is `FindFile` over the listing.
   */
  type Lookup = (string, int, ImageKind) -> Option<string>

  /** The image an activity's URL is for: its main image or photo example `j`. */
  datatype ImageKind = Main | PhotoExample(j: nat)

  /**
   * The image type in a file name: `main`, or `pe` followed by the
   * example's index. The ensures splits the name into its two parts for
   * KindNamesDistinct.
   */
  function KindName(kind: ImageKind): (name: string)
    ensures kind.Main? ==> name == "main"
    ensures kind.PhotoExample? ==> StartsWith(name, "pe") && name[2..] == NatToString(kind.j)
  {
    match kind
    case Main => "main"
    case PhotoExample(j) => "pe" + NatToString(j)
  }

  /** Distinct image kinds look for distinct file types, so no example can pick up another's file. */
  lemma KindNamesDistinct(a: ImageKind, b: ImageKind)
    requires a != b
    ensures KindName(a) != KindName(b)
  {
    KindNameFirst(a);
    KindNameFirst(b);
    if KindName(a) == KindName(b) && a.PhotoExample? && b.PhotoExample? {
      assert KindName(a)[2..] == KindName(b)[2..];
      NatToStringInjective(a.j, b.j);
    }
  }

  lemma KindNameFirst(k: ImageKind)
    ensures |KindName(k)| > 0 && (KindName(k)[0] == 'm' <==> k.Main?)
  {
  }

  /** `findFile` over a directory listing, as a lookup. */
  function ListingLookup(files: seq<string>): Lookup {
    (prefix, order, kind) => FindFile(files, prefix, order, KindName(kind))
  }

  /** The photo-example loop: example `j` looks for the file of type `pe<j>`. */
  function RewritePhotos(urls: seq<Option<Json>>, j: nat, find: Lookup, prefix: string, order: int, base: string)
    : (r: (seq<Option<Json>>, Tally))
    ensures |r.0| == |urls|
    ensures forall k :: 0 <= k < |urls| ==>
      r.0[k] == RewriteUrl(urls[k], find(prefix, order, PhotoExample(j + k)), base).url
    decreases |urls|
  {
    if |urls| == 0 then ([], Tally(0, 0))
    else
      var s := RewriteUrl(urls[0], find(prefix, order, PhotoExample(j)), base);
      var rest := RewritePhotos(urls[1..], j + 1, find, prefix, order, base);
      ([s.url] + rest.0, Plus(Of(s), rest.1))
  }

  /**
   * The main image, then the photo examples, of one activity: the main
   * image is looked up as the `main` file, example k as `pe<k>`, and the
   * tally adds the main image's outcome to the examples'.
   */
  function RewriteActivity(a: Activity, find: Lookup, prefix: string, base: string): (r: (Activity, Tally))
    ensures r.0.order == a.order && r.0.photoUrls.Some? == a.photoUrls.Some?
    ensures var m := RewriteUrl(a.imageUrl, find(prefix, a.order, Main), base);
      && r.0.imageUrl == m.url
      && (a.photoUrls.None? ==> r.1 == Tally(B(m.rewritten), B(m.skipped)))
    ensures a.photoUrls.Some? ==>
      var m := RewriteUrl(a.imageUrl, find(prefix, a.order, Main), base);
      var photos := RewritePhotos(a.photoUrls.value, 0, find, prefix, a.order, base);
      && r.0.photoUrls == Some(photos.0)
      && r.1.rewrites == B(m.rewritten) + photos.1.rewrites
      && r.1.skipped == B(m.skipped) + photos.1.skipped
  {
    var main := RewriteUrl(a.imageUrl, find(prefix, a.order, Main), base);
    match a.photoUrls
    case None => (a.(imageUrl := main.url), Of(main))
    case Some(urls) =>
      var photos := RewritePhotos(urls, 0, find, prefix, a.order, base);
      (Activity(a.order, main.url, Some(photos.0)), Plus(Of(main), photos.1))
  }

  function RewriteActivities(acts: seq<Activity>, find: Lookup, prefix: string, base: string): (r: (seq<Activity>, Tally))
    ensures |r.0| == |acts|
    ensures forall k :: 0 <= k < |acts| ==> r.0[k] == RewriteActivity(acts[k], find, prefix, base).0
  {
    if |acts| == 0 then ([], Tally(0, 0))
    else
      var first := RewriteActivity(acts[0], find, prefix, base);
      var rest := RewriteActivities(acts[1..], find, prefix, base);
      ([first.0] + rest.0, Plus(first.1, rest.1))
  }

  /** The loop over the days of one itinerary file. */
  function RewriteDays(days: seq<Day>, find: Lookup, base: string): (r: (seq<Day>, Tally))
    ensures |r.0| == |days|
    ensures forall k :: 0 <= k < |days| ==>
      r.0[k] == Day(days[k].prefix, RewriteActivities(days[k].activities, find, days[k].prefix, base).0)
  {
    if |days| == 0 then ([], Tally(0, 0))
    else
      var first := RewriteActivities(days[0].activities, find, days[0].prefix, base);
      var rest := RewriteDays(days[1..], find, base);
      var out := [Day(days[0].prefix, first.0)] + rest.0;
      assert forall k :: 1 <= k < |days| ==> out[k] == rest.0[k - 1] && days[k] == days[1..][k - 1];
      (out, Plus(first.1, rest.1))
  }

  /** The itinerary file is written back. */
  predicate WritesFile(dryRun: bool, rewrites: nat) {
    !dryRun && rewrites > 0
  }

  // ---------------------------------------------------------------------
  // Properties
  // ---------------------------------------------------------------------

  /** Every abbreviation is the first three letters of its weekday. */
  lemma AbbreviationsArePrefixes()
    ensures forall i :: 0 <= i < |Weekdays| ==> |Weekdays[i].0| >= 3 && Weekdays[i].1 == Weekdays[i].0[..3]
  {
  }

  /**
   * The weekday table changes nothing: the Seville day key is always the
   * first three characters of the lower-cased dayLabel.
   */
  lemma DayKeyIsFirstThree(dayLabel: string)
    ensures var l := Lower(dayLabel); SevilleDayKey(dayLabel) == l[..Min(3, |l|)]
  {
    var l := Lower(dayLabel);
    AbbreviationsArePrefixes();
    match FirstWeekday(l, 0)
    case Some(abbrev) =>
      var i :| 0 <= i < |Weekdays| && StartsWith(l, Weekdays[i].0) && abbrev == Weekdays[i].1;
      assert l[..3] == Weekdays[i].0[..3];
    case None =>
  }

  /** A dayLabel starting with a weekday name, in any case, gets that weekday's abbreviation. */
  lemma WeekdayAbbreviated(dayLabel: string, i: nat)
    requires i < |Weekdays| && StartsWith(Lower(dayLabel), Weekdays[i].0)
    ensures SevilleDayKey(dayLabel) == Weekdays[i].1
  {
    DayKeyIsFirstThree(dayLabel);
    AbbreviationsArePrefixes();
    assert Lower(dayLabel)[..3] == Weekdays[i].0[..3];
  }

  /** Distinct day numbers give distinct sample day keys. */
  lemma SampleDayKeysDistinct(m: int, n: int)
    requires m != n
    ensures SampleDayKey(m) != SampleDayKey(n)
  {
    if SampleDayKey(m) == SampleDayKey(n) {
      IntToStringInjective(m, n);
    }
  }

  /** From 10 on, and below 0, the padded pattern is the plain one, so only one lookup can succeed. */
  lemma PaddingOnlyForOneDigit(prefix: string, order: int, kind: string)
    ensures order >= 10 || order < 0 ==> PaddedPattern(prefix, order, kind) == PlainPattern(prefix, order, kind)
    ensures 0 <= order < 10 ==>
      PaddedPattern(prefix, order, kind) == prefix + "-0" + [DigitChar(order)] + "-" + kind + "-"
  {
    if order >= 10 {
      assert |IntToString(order)| >= 2;
    } else if order < 0 {
      assert |IntToString(order)| >= 2;
    } else {
      assert IntToString(order) == [DigitChar(order)];
      assert PadStart2([DigitChar(order)]) == "0" + [DigitChar(order)];
    }
  }

  /** `findFile` prefers the plain pattern and falls back to the padded one. */
  lemma FindFilePreference(files: seq<string>, prefix: string, order: int, kind: string)
    ensures var plain := PlainPattern(prefix, order, kind);
      var padded := PaddedPattern(prefix, order, kind);
      && ((exists i :: 0 <= i < |files| && StartsWith(files[i], plain)) ==>
            FindFile(files, prefix, order, kind) == FirstStartingWith(files, plain))
      && ((forall i :: 0 <= i < |files| ==> !StartsWith(files[i], plain)) ==>
            FindFile(files, prefix, order, kind) == FirstStartingWith(files, padded))
      && (FindFile(files, prefix, order, kind).None? <==>
            forall i :: 0 <= i < |files| ==> !StartsWith(files[i], plain) && !StartsWith(files[i], padded))
  {
  }

  /** The one-digit example of the script's own comment: `sat-09-...` is found for order 9. */
  lemma PaddedFileFound()
    ensures FindFile(["sat-09-main-e4f762fc.jpg"], "sat", 9, "main") == Some("sat-09-main-e4f762fc.jpg")
  {
    var f := "sat-09-main-e4f762fc.jpg";
    PaddingOnlyForOneDigit("sat", 9, "main");
    assert PlainPattern("sat", 9, "main") == "sat-9-main-";
    assert !StartsWith(f, "sat-9-main-") by { assert f[4] != '9'; }
    assert StartsWith(f, "sat-09-main-") by { assert f[..12] == "sat-09-main-"; }
  }

  /** A `--base-url` value loses exactly one trailing slash. */
  lemma BaseUrlStripsOneSlash(args: seq<string>, i: nat)
    requires i + 1 < |args| && args[i] == "--base-url" && "--base-url" !in args[..i] && args[i + 1] != ""
    ensures BaseUrl(args) + (if EndsWith(args[i + 1], "/") then "/" else "") == args[i + 1]
  {
  }

  /** Stripping a slash from a URL that had one restores the URL. */
  lemma StripAfterAppend(u: string)
    ensures StripTrailingSlash(u + "/") == u
    ensures StripTrailingSlash(u) == u <==> !EndsWith(u, "/")
  {
    assert (u + "/")[..|u|] == u;
  }

  /** A rewritten URL points into the base: a second run with the same files rewrites nothing. */
  lemma RewriteUrlIdempotent(url: Option<Json>, file: Option<string>, base: string)
    ensures var s := RewriteUrl(url, file, base);
      RewriteUrl(s.url, file, base) == Step(s.url, false, file.None?)
  {
  }

  /** One step of the photo-example loop. */
  lemma PhotosStep(urls: seq<Option<Json>>, j: nat, find: Lookup, prefix: string, order: int, base: string)
    requires |urls| > 0
    ensures var s := RewriteUrl(urls[0], find(prefix, order, PhotoExample(j)), base);
      var rest := RewritePhotos(urls[1..], j + 1, find, prefix, order, base);
      var r := RewritePhotos(urls, j, find, prefix, order, base);
      r.0 == [s.url] + rest.0 && r.1 == Plus(Of(s), rest.1)
  {
  }

  lemma {:induction false} RewritePhotosIdempotent(urls: seq<Option<Json>>, j: nat, find: Lookup, prefix: string, order: int, base: string)
    ensures var r := RewritePhotos(urls, j, find, prefix, order, base);
      var again := RewritePhotos(r.0, j, find, prefix, order, base);
      again.0 == r.0 && again.1.rewrites == 0 && again.1.skipped == r.1.skipped
    decreases |urls|
  {
    if |urls| > 0 {
      var file := find(prefix, order, PhotoExample(j));
      var s := RewriteUrl(urls[0], file, base);
      var rest := RewritePhotos(urls[1..], j + 1, find, prefix, order, base);
      var out := [s.url] + rest.0;
      PhotosStep(urls, j, find, prefix, order, base);
      RewriteUrlIdempotent(urls[0], file, base);
      RewritePhotosIdempotent(urls[1..], j + 1, find, prefix, order, base);
      assert out[0] == s.url && out[1..] == rest.0;
      PhotosStep(out, j, find, prefix, order, base);
    }
  }

  lemma RewriteActivityIdempotent(a: Activity, find: Lookup, prefix: string, base: string)
    ensures var r := RewriteActivity(a, find, prefix, base);
      var again := RewriteActivity(r.0, find, prefix, base);
      again.0 == r.0 && again.1.rewrites == 0 && again.1.skipped == r.1.skipped
  {
    var file := find(prefix, a.order, Main);
    RewriteUrlIdempotent(a.imageUrl, file, base);
    if a.photoUrls.Some? {
      RewritePhotosIdempotent(a.photoUrls.value, 0, find, prefix, a.order, base);
    }
  }

  /** One step of the activity loop. */
  lemma ActivitiesStep(acts: seq<Activity>, find: Lookup, prefix: string, base: string)
    requires |acts| > 0
    ensures var first := RewriteActivity(acts[0], find, prefix, base);
      var rest := RewriteActivities(acts[1..], find, prefix, base);
      var r := RewriteActivities(acts, find, prefix, base);
      r.0 == [first.0] + rest.0 && r.1 == Plus(first.1, rest.1)
  {
  }

  lemma {:induction false} RewriteActivitiesIdempotent(acts: seq<Activity>, find: Lookup, prefix: string, base: string)
    ensures var r := RewriteActivities(acts, find, prefix, base);
      var again := RewriteActivities(r.0, find, prefix, base);
      again.0 == r.0 && again.1.rewrites == 0 && again.1.skipped == r.1.skipped
    decreases |acts|
  {
    if |acts| > 0 {
      var first := RewriteActivity(acts[0], find, prefix, base);
      var rest := RewriteActivities(acts[1..], find, prefix, base);
      var out := [first.0] + rest.0;
      ActivitiesStep(acts, find, prefix, base);
      RewriteActivityIdempotent(acts[0], find, prefix, base);
      RewriteActivitiesIdempotent(acts[1..], find, prefix, base);
      assert out[0] == first.0 && out[1..] == rest.0;
      ActivitiesStep(out, find, prefix, base);
    }
  }

  /** One step of the day loop. */
  lemma DaysStep(days: seq<Day>, find: Lookup, base: string)
    requires |days| > 0
    ensures var first := RewriteActivities(days[0].activities, find, days[0].prefix, base);
      var rest := RewriteDays(days[1..], find, base);
      var r := RewriteDays(days, find, base);
      r.0 == [Day(days[0].prefix, first.0)] + rest.0 && r.1 == Plus(first.1, rest.1)
  {
  }

  /**
   * Running the script a second time against the same image directory and
   * base URL changes no URL and counts no rewrite, so it does not write
   * the file again.
   */
  lemma {:induction false} RewriteIdempotent(days: seq<Day>, find: Lookup, base: string, dryRun: bool)
    ensures var r := RewriteDays(days, find, base);
      var again := RewriteDays(r.0, find, base);
      again.0 == r.0 && again.1.rewrites == 0 && again.1.skipped == r.1.skipped
      && !WritesFile(dryRun, again.1.rewrites)
    decreases |days|
  {
    if |days| > 0 {
      var first := RewriteActivities(days[0].activities, find, days[0].prefix, base);
      var rest := RewriteDays(days[1..], find, base);
      var out := [Day(days[0].prefix, first.0)] + rest.0;
      DaysStep(days, find, base);
      RewriteActivitiesIdempotent(days[0].activities, find, days[0].prefix, base);
      RewriteIdempotent(days[1..], find, base, dryRun);
      assert out[0] == Day(days[0].prefix, first.0) && out[1..] == rest.0;
      DaysStep(out, find, base);
    }
  }

  /** The number of positions where two URL lists differ. */
  function Changed(a: seq<Option<Json>>, b: seq<Option<Json>>): nat
    requires |a| == |b|
  {
    if |a| == 0 then 0 else B(a[0] != b[0]) + Changed(a[1..], b[1..])
  }

  /** An activity's rewrite count is the number of its URLs, main image and examples, that changed. */
  lemma ActivityRewritesCountChanges(a: Activity, find: Lookup, prefix: string, base: string)
    ensures var r := RewriteActivity(a, find, prefix, base);
      && r.0.photoUrls.Some? == a.photoUrls.Some?
      && (a.photoUrls.Some? ==> |r.0.photoUrls.value| == |a.photoUrls.value|)
      && r.1.rewrites == B(r.0.imageUrl != a.imageUrl)
           + (if a.photoUrls.Some? then Changed(a.photoUrls.value, r.0.photoUrls.value) else 0)
  {
    if a.photoUrls.Some? {
      PhotoRewritesCountChanges(a.photoUrls.value, 0, find, prefix, a.order, base);
    }
  }

  /** The photo-example count is the number of URLs that changed. */
  lemma {:induction false} PhotoRewritesCountChanges(urls: seq<Option<Json>>, j: nat, find: Lookup, prefix: string, order: int, base: string)
    ensures var r := RewritePhotos(urls, j, find, prefix, order, base);
      r.1.rewrites == Changed(urls, r.0)
    decreases |urls|
  {
    if |urls| > 0 {
      var r := RewritePhotos(urls, j, find, prefix, order, base);
      PhotoRewritesCountChanges(urls[1..], j + 1, find, prefix, order, base);
      assert r.0[1..] == RewritePhotos(urls[1..], j + 1, find, prefix, order, base).0;
    }
  }
}

=== FILE: route.dfy ===
/**
 * The structure of the route map one day shows (`renderMapSection` in
 * assets/scripts/modules/map-rendering.js): which stops get numbered
 * markers, which route segments join them, where the hotel pin goes, and
 * what the legend lists. The HTML and SVG markup itself is not modelled;
 * each drawn element is a record carrying the values the markup shows.
 */
module Route {
  import opened Wrappers
  import opened Json
  import opened Text
  import opened Projection
  import opened Geometry
  import opened Stops
  import opened Tiles
  import opened Seqs

  /** The fixed canvas of the day map. */
  const CanvasWidth: real := 360.0
  const CanvasHeight: real := 280.0
  const CanvasPadding: real := 32.0

  /** A numbered stop marker, positioned on the canvas. */
  datatype Marker = Marker(x: real, y: real, order: nat, activity: Json)

  /** A route line from one marker to the next (drawn once as shadow, once as line). */
  datatype Segment = Segment(x1: real, y1: real, x2: real, y2: real)

  datatype LegendEntry =
    | HotelEntry(scrollTo: Json)          // the hotel, scrolling to the first activity's card
    | StopEntry(number: nat, activity: Json)
    | UnavailableEntry(activity: Json)    // an activity without coordinates

  datatype MapBody =
    | Unavailable(missingLegend: seq<LegendEntry>)
    | Drawn(geometry: MapGeometry, tiles: seq<TileImage>, segments: seq<Segment>,
            markers: seq<Marker>, hotelPin: Option<WorldPoint>, legend: seq<LegendEntry>)

  /** The header pills and the body of the map section. */
  datatype MapSection = MapSection(mappedCount: nat, missingCount: nat, hotelPill: bool, body: MapBody)

  /** A non-blank string property. */
  predicate NonBlankString(p: Option<Json>) {
    IsString(p) && !IsBlank(p.value.s)
  }

  /**
   * `hasHotelMapData`: the hotel is an object with a non-blank name and a
   * location object holding numeric lat/lng and a non-blank maps URL.
   */
  predicate HasHotelMapData(hotel: Option<Json>) {
    && TruthyProp(hotel)
    && IsObjectType(hotel.value)
    && NonBlankString(Get(hotel.value, "name"))
    && var loc := Get(hotel.value, "location");
    && TruthyProp(loc)
    && IsObjectType(loc.value)
    && IsNumber(Get(loc.value, "lat"))
    && IsNumber(Get(loc.value, "lng"))
    && NonBlankString(Get(loc.value, "mapsUrl"))
  }

  function HotelUnit(hotel: Option<Json>, mercY: real -> real): UnitPoint
    requires HasHotelMapData(hotel)
  {
    var loc := Get(hotel.value, "location").value;
    Unit(Get(loc, "lat").value.n, Get(loc, "lng").value.n, mercY)
  }

  /** The activity filter of the missing-location legend: the negation of `HasCoordinates`. */
  function MissingLocation(acts: seq<Json>): (r: seq<Json>)
    ensures |r| <= |acts|
    ensures forall a :: a in r <==> a in acts && !HasCoordinates(a)
  {
    if |acts| == 0 then []
    else if HasCoordinates(acts[0]) then MissingLocation(acts[1..])
    else [acts[0]] + MissingLocation(acts[1..])
  }

  /** The unmapped activities are listed in day order. */
  lemma {:induction false} MissingLocationInOrder(acts: seq<Json>)
    ensures Subsequence(MissingLocation(acts), acts)
    decreases |acts|
  {
    if |acts| > 0 {
      var rest := MissingLocation(acts[1..]);
      MissingLocationInOrder(acts[1..]);
      if !HasCoordinates(acts[0]) {
        assert ([acts[0]] + rest)[1..] == rest;
      }
    }
  }

  /** The points the zoom and centring are computed from: the stops, then the hotel if any. */
  function GeometryUnits(mapValid: seq<Json>, hotel: Option<Json>, mercY: real -> real): (us: seq<UnitPoint>)
    requires forall i :: 0 <= i < |mapValid| ==> HasCoordinates(mapValid[i])
    ensures |us| == |mapValid| + (if HasHotelMapData(hotel) then 1 else 0)
    ensures us[..|mapValid|] == UnitsOf(mapValid, mercY)
  {
    if HasHotelMapData(hotel) then UnitsOf(mapValid, mercY) + [HotelUnit(hotel, mercY)]
    else UnitsOf(mapValid, mercY)
  }

  /** A world point expressed in canvas coordinates of geometry `g`. */
  function OnCanvas(p: WorldPoint, g: MapGeometry): WorldPoint {
    WorldPoint(p.x - g.mapLeft, p.y - g.mapTop)
  }

  /** The markers: the mapped stops in input order, numbered from 1. */
  function Markers(mapValid: seq<Json>, g: MapGeometry, mercY: real -> real): (ms: seq<Marker>)
    requires forall i :: 0 <= i < |mapValid| ==> HasCoordinates(mapValid[i])
    ensures |ms| == |mapValid|
    ensures forall i :: 0 <= i < |ms| ==> ms[i].order == i + 1 && ms[i].activity == mapValid[i]
  {
    seq(|mapValid|, i requires 0 <= i < |mapValid| && HasCoordinates(mapValid[i]) =>
      var p := OnCanvas(LatLngToWorld(Lat(mapValid[i]), Lng(mapValid[i]), g.zoom, mercY), g);
      Marker(p.x, p.y, i + 1, mapValid[i]))
  }

  /**
   * The route: one segment between each pair of consecutive markers, so
   * the segments form one connected line from the first marker to the last.
   */
  function Segments(ms: seq<Marker>): (ss: seq<Segment>)
    ensures |ss| == if |ms| >= 2 then |ms| - 1 else 0
    ensures forall i :: 0 <= i < |ss| ==>
      ss[i] == Segment(ms[i].x, ms[i].y, ms[i + 1].x, ms[i + 1].y)
  {
    if |ms| < 2 then []
    else seq(|ms| - 1, i requires 0 <= i < |ms| - 1 => Segment(ms[i].x, ms[i].y, ms[i + 1].x, ms[i + 1].y))
  }

  /**
   * The route is one connected line: each segment starts where the
   * previous one ended, the first starts at the first marker and the last
   * ends at the last marker.
   */
  lemma SegmentsFormOneLine(ms: seq<Marker>)
    ensures var ss := Segments(ms);
      && (forall i :: 0 <= i < |ss| - 1 ==> ss[i].x2 == ss[i + 1].x1 && ss[i].y2 == ss[i + 1].y1)
      && (|ss| > 0 ==> ss[0].x1 == ms[0].x && ss[0].y1 == ms[0].y)
      && (|ss| > 0 ==> ss[|ss| - 1].x2 == ms[|ms| - 1].x && ss[|ss| - 1].y2 == ms[|ms| - 1].y)
  {
  }

  /** The "Map unavailable" legend entries: one per unmapped activity, in order. */
  function MissingEntries(missing: seq<Json>): (es: seq<LegendEntry>)
    ensures |es| == |missing|
    ensures forall i :: 0 <= i < |es| ==> es[i].UnavailableEntry? && es[i].activity == missing[i]
  {
    seq(|missing|, i requires 0 <= i < |missing| => UnavailableEntry(missing[i]))
  }

  /** The numbered stop entries of the legend: `i + 1. name`, in stop order. */
  function StopEntries(mapValid: seq<Json>): (es: seq<LegendEntry>)
    ensures |es| == |mapValid|
    ensures forall i :: 0 <= i < |es| ==> es[i].StopEntry? && es[i].number == i + 1 && es[i].activity == mapValid[i]
  {
    seq(|mapValid|, i requires 0 <= i < |mapValid| => StopEntry(i + 1, mapValid[i]))
  }

  /** The legend under a drawn map: the hotel, the numbered stops, then the unmapped activities. */
  function Legend(sorted: seq<Json>, mapValid: seq<Json>, hasHotel: bool): (es: seq<LegendEntry>)
    requires hasHotel ==> |sorted| > 0
  {
    (if hasHotel then [HotelEntry(sorted[0])] else []) + StopEntries(mapValid) + MissingEntries(MissingLocation(sorted))
  }

  /**
   * `renderMapSection(sortedActivities, mapValidActivities, hotel, ...)`.
   * Reading an activity's `location` throws on `null`, and the hotel
   * legend entry reads the first activity, so both are required.
   */
  function RenderMapSection(sorted: seq<Json>, mapValid: seq<Json>, hotel: Option<Json>, mercY: real -> real)
    : (m: MapSection)
    requires forall i :: 0 <= i < |sorted| ==> !sorted[i].JNull?
    requires forall i :: 0 <= i < |mapValid| ==> HasCoordinates(mapValid[i])
    requires HasHotelMapData(hotel) ==> |sorted| > 0
    ensures m.mappedCount == |mapValid|
    ensures m.missingCount == if |sorted| > |mapValid| then |sorted| - |mapValid| else 0
    ensures m.hotelPill <==> HasHotelMapData(hotel)
    ensures m.body.Unavailable? <==> |mapValid| == 0 && !HasHotelMapData(hotel)
  {
    var hasHotel := HasHotelMapData(hotel);
    var mapped := |mapValid|;
    var missingCount := if |sorted| - mapped > 0 then |sorted| - mapped else 0;
    var missing := MissingLocation(sorted);
    if mapped == 0 && !hasHotel then
      MapSection(mapped, missingCount, hasHotel, Unavailable(MissingEntries(missing)))
    else
      var g := BuildMapGeometry(GeometryUnits(mapValid, hotel, mercY), CanvasWidth, CanvasHeight, CanvasPadding);
      var ms := Markers(mapValid, g, mercY);
      var pin := if hasHotel then Some(OnCanvas(Scaled(HotelUnit(hotel, mercY), g.zoom), g)) else None;
      var legend := Legend(sorted, mapValid, hasHotel);
      MapSection(mapped, missingCount, hasHotel,
        Drawn(g, TileLayer(g, CanvasWidth, CanvasHeight), Segments(ms), ms, pin, legend))
  }

  // ---------------------------------------------------------------------
  // Properties
  // ---------------------------------------------------------------------

  /** With n mapped stops the markers are numbered 1..n in input order and max(0, n-1) segments join them. */
  lemma MarkersNumberedAndJoined(sorted: seq<Json>, mapValid: seq<Json>, hotel: Option<Json>, mercY: real -> real)
    requires forall i :: 0 <= i < |sorted| ==> !sorted[i].JNull?
    requires forall i :: 0 <= i < |mapValid| ==> HasCoordinates(mapValid[i])
    requires HasHotelMapData(hotel) ==> |sorted| > 0
    requires |mapValid| > 0
    ensures var m := RenderMapSection(sorted, mapValid, hotel, mercY);
      && m.body.Drawn?
      && |m.body.markers| == |mapValid|
      && (forall i :: 0 <= i < |mapValid| ==>
            m.body.markers[i].order == i + 1 && m.body.markers[i].activity == mapValid[i])
      && |m.body.segments| == |mapValid| - 1
      && forall i :: 0 <= i < |m.body.segments| ==>
           m.body.segments[i].x1 == m.body.markers[i].x && m.body.segments[i].y1 == m.body.markers[i].y
           && m.body.segments[i].x2 == m.body.markers[i + 1].x && m.body.segments[i].y2 == m.body.markers[i + 1].y
  {
  }

  /**
   * The hotel shapes the view but is not a numbered stop: it adds one point
   * to the zoom/centring input, none to the markers, and gets its own pin.
   */
  lemma HotelInGeometryNotInMarkers(sorted: seq<Json>, mapValid: seq<Json>, hotel: Option<Json>, mercY: real -> real)
    requires forall i :: 0 <= i < |sorted| ==> !sorted[i].JNull?
    requires forall i :: 0 <= i < |mapValid| ==> HasCoordinates(mapValid[i])
    requires |sorted| > 0
    requires HasHotelMapData(hotel)
    ensures var m := RenderMapSection(sorted, mapValid, hotel, mercY);
      && m.body.Drawn?
      && |m.body.geometry.points| == |mapValid| + 1
      && |m.body.markers| == |mapValid|
      && m.body.hotelPin.Some?
      && m.body.hotelPin.value.x == m.body.geometry.points[|mapValid|].x
      && m.body.hotelPin.value.y == m.body.geometry.points[|mapValid|].y
      && |m.body.legend| > 0 && m.body.legend[0] == HotelEntry(sorted[0])
  {
    var us := GeometryUnits(mapValid, hotel, mercY);
    assert us[|mapValid|] == HotelUnit(hotel, mercY);
  }

  /** The drawn body of the map section: its geometry and markers as built from the stops. */
  lemma DrawnParts(sorted: seq<Json>, mapValid: seq<Json>, hotel: Option<Json>, mercY: real -> real)
    requires forall i :: 0 <= i < |sorted| ==> !sorted[i].JNull?
    requires forall i :: 0 <= i < |mapValid| ==> HasCoordinates(mapValid[i])
    requires HasHotelMapData(hotel) ==> |sorted| > 0
    requires |mapValid| > 0 || HasHotelMapData(hotel)
    ensures var m := RenderMapSection(sorted, mapValid, hotel, mercY);
      && m.body.Drawn?
      && m.body.geometry == BuildMapGeometry(GeometryUnits(mapValid, hotel, mercY), CanvasWidth, CanvasHeight, CanvasPadding)
      && m.body.markers == Markers(mapValid, m.body.geometry, mercY)
      && m.body.tiles == TileLayer(m.body.geometry, CanvasWidth, CanvasHeight)
      && m.body.legend == Legend(sorted, mapValid, HasHotelMapData(hotel))
  {
  }

  /**
   * The legend and the map agree: after the hotel entry (if any), legend
   * entry `i` is stop number `i + 1`, the same number and activity as
   * marker `i`.
   */
  lemma LegendMatchesMarkers(sorted: seq<Json>, mapValid: seq<Json>, hotel: Option<Json>, mercY: real -> real)
    requires forall i :: 0 <= i < |sorted| ==> !sorted[i].JNull?
    requires forall i :: 0 <= i < |mapValid| ==> HasCoordinates(mapValid[i])
    requires HasHotelMapData(hotel) ==> |sorted| > 0
    requires |mapValid| > 0 || HasHotelMapData(hotel)
    ensures var m := RenderMapSection(sorted, mapValid, hotel, mercY);
      var h := if HasHotelMapData(hotel) then 1 else 0;
      && m.body.Drawn?
      && |m.body.markers| == |mapValid| && |m.body.legend| >= h + |mapValid|
      && forall i :: 0 <= i < |mapValid| ==>
           && m.body.legend[h + i] == StopEntry(m.body.markers[i].order, m.body.markers[i].activity)
           && m.body.legend[h + i] == StopEntry(i + 1, mapValid[i])
  {
    var m := RenderMapSection(sorted, mapValid, hotel, mercY);
    DrawnParts(sorted, mapValid, hotel, mercY);
    LegendFollowsMarkers(sorted, mapValid, HasHotelMapData(hotel), m.body.geometry, mercY);
  }

  /** The legend and the markers built from the same stops agree entry by entry. */
  lemma LegendFollowsMarkers(sorted: seq<Json>, mapValid: seq<Json>, hasHotel: bool, g: MapGeometry, mercY: real -> real)
    requires forall i :: 0 <= i < |mapValid| ==> HasCoordinates(mapValid[i])
    requires hasHotel ==> |sorted| > 0
    ensures var legend := Legend(sorted, mapValid, hasHotel);
      var ms := Markers(mapValid, g, mercY);
      var h := if hasHotel then 1 else 0;
      && |legend| >= h + |mapValid|
      && forall i :: 0 <= i < |mapValid| ==>
           && legend[h + i] == StopEntry(ms[i].order, ms[i].activity)
           && legend[h + i] == StopEntry(i + 1, mapValid[i])
  {
    LegendEntries(sorted, mapValid, hasHotel);
  }

  /** Entry by entry: where the stops and the unmapped activities sit in the legend. */
  lemma LegendEntries(sorted: seq<Json>, mapValid: seq<Json>, hasHotel: bool)
    requires hasHotel ==> |sorted| > 0
    ensures var es := Legend(sorted, mapValid, hasHotel);
      var h := if hasHotel then 1 else 0;
      var missing := MissingLocation(sorted);
      && |es| == h + |mapValid| + |missing|
      && (forall i :: 0 <= i < |mapValid| ==> es[h + i] == StopEntry(i + 1, mapValid[i]))
      && (forall k :: 0 <= k < |missing| ==> es[h + |mapValid| + k] == UnavailableEntry(missing[k]))
  {
    if hasHotel {
      LegendLayout(Legend(sorted, mapValid, hasHotel), [HotelEntry(sorted[0])], mapValid, MissingLocation(sorted));
    } else {
      LegendLayout(Legend(sorted, mapValid, hasHotel), [], mapValid, MissingLocation(sorted));
    }
  }

  /** The layout of head, stop entries and unavailable entries, for any list of unmapped activities. */
  lemma LegendLayout(es: seq<LegendEntry>, head: seq<LegendEntry>, mapValid: seq<Json>, missing: seq<Json>)
    requires es == head + StopEntries(mapValid) + MissingEntries(missing)
    ensures |es| == |head| + |mapValid| + |missing|
    ensures forall i :: 0 <= i < |mapValid| ==> es[|head| + i] == StopEntry(i + 1, mapValid[i])
    ensures forall k :: 0 <= k < |missing| ==> es[|head| + |mapValid| + k] == UnavailableEntry(missing[k])
  {
    var stops := StopEntries(mapValid);
    forall i | 0 <= i < |mapValid|
      ensures es[|head| + i] == StopEntry(i + 1, mapValid[i])
    {
      assert es[|head| + i] == stops[i];
    }
  }

  /** Markers computed with the geometry built from the same stops sit on its points. */
  lemma MarkersOnPoints(mapValid: seq<Json>, us: seq<UnitPoint>, g: MapGeometry, mercY: real -> real)
    requires forall i :: 0 <= i < |mapValid| ==> HasCoordinates(mapValid[i])
    requires |mapValid| <= |us| == |g.points|
    requires us[..|mapValid|] == UnitsOf(mapValid, mercY)
    requires forall i :: 0 <= i < |us| ==>
      g.points[i].x == Scaled(us[i], g.zoom).x - g.mapLeft && g.points[i].y == Scaled(us[i], g.zoom).y - g.mapTop
    ensures var ms := Markers(mapValid, g, mercY);
      forall i :: 0 <= i < |mapValid| ==> ms[i].x == g.points[i].x && ms[i].y == g.points[i].y
  {
    var ms := Markers(mapValid, g, mercY);
    forall i | 0 <= i < |mapValid|
      ensures ms[i].x == g.points[i].x && ms[i].y == g.points[i].y
    {
      assert us[i] == us[..|mapValid|][i];
      assert us[i] == Unit(Lat(mapValid[i]), Lng(mapValid[i]), mercY);
      ScaledIsWorldSizeMultiple(us[i], g.zoom);
    }
  }

  /**
   * Each marker sits exactly where the geometry placed the same stop, so the
   * containment property of the geometry applies to the drawn markers.
   */
  lemma MarkersAtGeometryPoints(sorted: seq<Json>, mapValid: seq<Json>, hotel: Option<Json>, mercY: real -> real)
    requires forall i :: 0 <= i < |sorted| ==> !sorted[i].JNull?
    requires forall i :: 0 <= i < |mapValid| ==> HasCoordinates(mapValid[i])
    requires HasHotelMapData(hotel) ==> |sorted| > 0
    requires |mapValid| > 0 || HasHotelMapData(hotel)
    ensures var m := RenderMapSection(sorted, mapValid, hotel, mercY);
      && m.body.Drawn?
      && forall i :: 0 <= i < |mapValid| ==>
           m.body.markers[i].x == m.body.geometry.points[i].x
           && m.body.markers[i].y == m.body.geometry.points[i].y
  {
    var us := GeometryUnits(mapValid, hotel, mercY);
    var g := BuildMapGeometry(us, CanvasWidth, CanvasHeight, CanvasPadding);
    DrawnParts(sorted, mapValid, hotel, mercY);
    MarkersOnPoints(mapValid, us, g, mercY);
  }

  /** With the stops drawn and padding room, every marker lies inside the padded canvas. */
  lemma MarkersInsideCanvas(sorted: seq<Json>, mapValid: seq<Json>, hotel: Option<Json>, mercY: real -> real)
    requires forall i :: 0 <= i < |sorted| ==> !sorted[i].JNull?
    requires forall i :: 0 <= i < |mapValid| ==> HasCoordinates(mapValid[i])
    requires HasHotelMapData(hotel) ==> |sorted| > 0
    requires |mapValid| > 0 || HasHotelMapData(hotel)
    requires SomeZoomFits(GeometryUnits(mapValid, hotel, mercY),
      CanvasWidth - 2.0 * CanvasPadding, CanvasHeight - 2.0 * CanvasPadding)
    ensures var m := RenderMapSection(sorted, mapValid, hotel, mercY);
      forall i :: 0 <= i < |m.body.markers| ==>
        && CanvasPadding <= m.body.markers[i].x <= CanvasWidth - CanvasPadding
        && CanvasPadding <= m.body.markers[i].y <= CanvasHeight - CanvasPadding
  {
    DrawnParts(sorted, mapValid, hotel, mercY);
    StopMarkersInsideCanvas(mapValid, hotel, mercY);
  }

  /** The markers built from the stops, before they are put in the section, lie inside the padded canvas. */
  lemma StopMarkersInsideCanvas(mapValid: seq<Json>, hotel: Option<Json>, mercY: real -> real)
    requires forall i :: 0 <= i < |mapValid| ==> HasCoordinates(mapValid[i])
    requires |mapValid| > 0 || HasHotelMapData(hotel)
    requires SomeZoomFits(GeometryUnits(mapValid, hotel, mercY),
      CanvasWidth - 2.0 * CanvasPadding, CanvasHeight - 2.0 * CanvasPadding)
    ensures var g := BuildMapGeometry(GeometryUnits(mapValid, hotel, mercY), CanvasWidth, CanvasHeight, CanvasPadding);
      var ms := Markers(mapValid, g, mercY);
      forall i :: 0 <= i < |ms| ==>
        && CanvasPadding <= ms[i].x <= CanvasWidth - CanvasPadding
        && CanvasPadding <= ms[i].y <= CanvasHeight - CanvasPadding
  {
    var us := GeometryUnits(mapValid, hotel, mercY);
    var g := BuildMapGeometry(us, CanvasWidth, CanvasHeight, CanvasPadding);
    var ms := Markers(mapValid, g, mercY);
    MarkersOnPoints(mapValid, us, g, mercY);
    PointsInsideCanvas(us);
    MarkersInsideBox(ms, g.points, CanvasPadding, CanvasWidth - CanvasPadding,
      CanvasPadding, CanvasHeight - CanvasPadding);
  }

  /** The geometry containment property at the canvas size of the day view. */
  lemma PointsInsideCanvas(us: seq<UnitPoint>)
    requires |us| > 0
    requires SomeZoomFits(us, CanvasWidth - 2.0 * CanvasPadding, CanvasHeight - 2.0 * CanvasPadding)
    ensures var g := BuildMapGeometry(us, CanvasWidth, CanvasHeight, CanvasPadding);
      forall i :: 0 <= i < |g.points| ==>
        && CanvasPadding <= g.points[i].x <= CanvasWidth - CanvasPadding
        && CanvasPadding <= g.points[i].y <= CanvasHeight - CanvasPadding
  {
    PointsInsidePaddedCanvas(us, CanvasWidth, CanvasHeight, CanvasPadding);
  }

  /** Markers placed on points inside a box are inside the box. */
  lemma MarkersInsideBox(ms: seq<Marker>, ps: seq<PlacedPoint>, left: real, right: real, top: real, bottom: real)
    requires |ms| <= |ps|
    requires forall i :: 0 <= i < |ms| ==> ms[i].x == ps[i].x && ms[i].y == ps[i].y
    requires forall i :: 0 <= i < |ps| ==> left <= ps[i].x <= right && top <= ps[i].y <= bottom
    ensures forall i :: 0 <= i < |ms| ==> left <= ms[i].x <= right && top <= ms[i].y <= bottom
  {
  }

  /**
   * `MapValid` and `MissingLocation` split a day's activities: together they
   * count every activity once.
   */
  lemma {:induction false} StopsPartitionActivities(acts: seq<Json>)
    ensures |MapValid(acts)| + |MissingLocation(acts)| == |acts|
  {
    if |acts| > 0 {
      StopsPartitionActivities(acts[1..]);
    }
  }

  /**
   * When the stops are the `mapValid` filter of the day (as the day view
   * passes them), the missing-location pill counts exactly the activities
   * the legend lists as unavailable, and the legend holds the hotel (if
   * any), every stop and every unmapped activity.
   */
  lemma MissingCountMatchesLegend(sorted: seq<Json>, hotel: Option<Json>, mercY: real -> real)
    requires forall i :: 0 <= i < |sorted| ==> !sorted[i].JNull?
    requires HasHotelMapData(hotel) ==> |sorted| > 0
    ensures var m := RenderMapSection(sorted, MapValid(sorted), hotel, mercY);
      && m.missingCount == |MissingLocation(sorted)|
      && (m.body.Drawn? ==>
            |m.body.legend| == (if HasHotelMapData(hotel) then 1 else 0) + |sorted|)
      && (m.body.Unavailable? ==> |m.body.missingLegend| == |sorted|)
  {
    StopsPartitionActivities(sorted);
  }
}

=== FILE: seqs.dfy ===
/** Order facts about sequences shared by the list-filtering parts of the model. */
module Seqs {
  /** No element occurs twice. */
  predicate NoRepeats<T(==)>(s: seq<T>) {
    forall i, j :: 0 <= i < j < |s| ==> s[i] != s[j]
  }

  /** `m` is `s` with some elements dropped and the rest kept in order. */
  predicate Subsequence<T(==)>(m: seq<T>, s: seq<T>)
    decreases |s|
  {
    |m| == 0 || (|s| > 0 && ((m[0] == s[0] && Subsequence(m[1..], s[1..])) || Subsequence(m, s[1..])))
  }
}

=== FILE: service_worker.dfy ===
/**
 * The offline service worker (sw.js): which cache strategy serves a
 * request, which caches survive activation, how many entries a bulk
 * precache may add, and the batches and progress messages of a bulk
 * precache. The Cache API, `fetch` and `postMessage` are not modelled; the
 * outcome of caching one URL is a parameter.
 */
module ServiceWorker {
  import opened Wrappers
  import opened Json
  import opened Text
  import opened JsArith
  import opened Seqs

  const ShellCache: string := "itinerary-shell-v1"
  const TileCache: string := "itinerary-tiles-v1"
  const ImageCache: string := "itinerary-images-v1"
  const FontCache: string := "itinerary-fonts-v1"

  const TileHost: string := "basemaps.cartocdn.com"
  const FontCssHost: string := "fonts.googleapis.com"
  const FontFileHost: string := "fonts.gstatic.com"

  const MaxTileEntries: nat := 600
  const MaxImageEntries: nat := 150
  /** The number of URLs fetched in parallel by a bulk precache. */
  const Concurrency: nat := 3

  /** The parts of `new URL(request.url)` the router reads. */
  datatype Url = Url(origin: string, hostname: string, pathname: string)

  /** A fetch event's request: method, URL and `Accept` header. */
  datatype SwRequest = SwRequest(verb: string, url: Url, accept: Option<string>)

  /** How the router answers: not at all (the browser fetches), cache-first, or stale-while-revalidate. */
  datatype Strategy = Unhandled | CacheFirst(cache: string) | StaleWhileRevalidate(cache: string)

  // --- routing ---

  /** The extension `e` (already lower-case) ends at a `?` or at the end of `s`, right after a dot at `i`. */
  predicate ExtensionAt(s: string, i: int, e: string) {
    OccursAt(s, "." + e, i) && (i + 1 + |e| == |s| || s[i + 1 + |e|] == '?')
  }

  /** One of the image extensions of the pattern, starting with a dot at `i` of the lower-cased `s`. */
  predicate ImageExtensionAt(s: string, i: int) {
    || ExtensionAt(s, i, "jpg") || ExtensionAt(s, i, "jpeg") || ExtensionAt(s, i, "png")
    || ExtensionAt(s, i, "webp") || ExtensionAt(s, i, "gif") || ExtensionAt(s, i, "avif")
    || ExtensionAt(s, i, "svg")
  }

  /** `/\.(jpe?g|png|webp|gif|avif|svg)(\?|$)/i.test(path)`. */
  predicate ImagePath(path: string) {
    exists i :: 0 <= i < |path| && ImageExtensionAt(Lower(path), i)
  }

  /** `isExternalImage(request)`: cross-origin, and an image by `Accept` header or by path. */
  predicate IsExternalImage(req: SwRequest, selfOrigin: string) {
    req.url.origin != selfOrigin
    && (Contains(req.accept.GetOr(""), "image/") || ImagePath(req.url.pathname))
  }

  /** The fetch router. */
  function Route(req: SwRequest, selfOrigin: string): (s: Strategy)
    ensures s.CacheFirst? ==> s.cache in {TileCache, FontCache, ImageCache}
    ensures s.StaleWhileRevalidate? ==> s.cache == ShellCache && req.url.origin == selfOrigin
    ensures req.verb != "GET" ==> s == Unhandled
  {
    if req.verb != "GET" then Unhandled
    else if req.url.hostname == TileHost then CacheFirst(TileCache)
    else if req.url.hostname == FontCssHost || req.url.hostname == FontFileHost then CacheFirst(FontCache)
    else if IsExternalImage(req, selfOrigin) then CacheFirst(ImageCache)
    else if req.url.origin == selfOrigin then StaleWhileRevalidate(ShellCache)
    else Unhandled
  }

  // --- sequences ---

  /** `xs.filter(p)`. */
  function Filter(xs: seq<string>, p: string -> bool): (r: seq<string>)
    ensures |r| <= |xs|
    ensures forall x :: x in r <==> x in xs && p(x)
    ensures Subsequence(r, xs)
  {
    if |xs| == 0 then []
    else
      var rest := Filter(xs[1..], p);
      if p(xs[0]) then
        assert ([xs[0]] + rest)[1..] == rest;
        [xs[0]] + rest
      else rest
  }

  /** The number of elements of `xs` satisfying `p`. */
  function Count(xs: seq<string>, p: string -> bool): (n: nat)
    ensures n <= |xs|
  {
    if |xs| == 0 then 0
    else Count(xs[..|xs| - 1], p) + (if p(xs[|xs| - 1]) then 1 else 0)
  }

  // --- activation ---

  /** The caches the current version keeps. */
  const KeepCaches: set<string> := {ShellCache, TileCache, ImageCache, FontCache}

  /** The caches `activate` deletes, in the order `caches.keys()` lists them. */
  function StaleCaches(keys: seq<string>): (deleted: seq<string>)
  {
    Filter(keys, k => k !in KeepCaches)
  }

  // --- bulk precache ---

  /** `cacheName === TILE_CACHE ? MAX_TILE_ENTRIES : MAX_IMAGE_ENTRIES`. */
  function MaxEntries(cacheName: Json): (n: nat)
    ensures n == MaxTileEntries || n == MaxImageEntries
    ensures n == MaxTileEntries <==> cacheName == JStr(TileCache)
  {
    if cacheName == JStr(TileCache) then MaxTileEntries else MaxImageEntries
  }

  /** What the message handler starts. */
  datatype Action =
    | NoAction
    | Precache(urls: Json, cacheName: Json, maxEntries: nat, batch: Option<Json>)
    | CacheStats

  /** The `message` listener on `event.data`. */
  function OnMessage(data: Option<Json>): (a: Action)
    ensures a.Precache? ==> a.maxEntries == MaxEntries(a.cacheName) && Truthy(a.urls) && Truthy(a.cacheName)
    ensures a.Precache? ==> (a.maxEntries == MaxTileEntries <==> a.cacheName == JStr(TileCache))
    ensures a.Precache? ==> a.maxEntries in {MaxTileEntries, MaxImageEntries}
  {
    if data.None? || !Truthy(data.value) then NoAction
    else
      var kind := Get(data.value, "type");
      if kind == Some(JStr("PRECACHE_URLS")) then
        var urls := Get(data.value, "urls");
        var cacheName := Get(data.value, "cacheName");
        if !TruthyProp(urls) || !TruthyProp(cacheName) then NoAction
        else Precache(urls.value, cacheName.value, MaxEntries(cacheName.value), Get(data.value, "_batch"))
      else if kind == Some(JStr("GET_CACHE_STATS")) then CacheStats
      else NoAction
  }

  /** The first part of `precacheUrls`: what to fetch, given the URLs already in the cache. */
  datatype Plan = Plan(needed: seq<string>, toFetch: seq<string>, alreadyCached: int)

  function PlanFor(urls: seq<string>, existing: seq<string>, maxEntries: int): (p: Plan)
    ensures forall u :: u in p.needed <==> u in urls && u !in existing
    ensures |p.toFetch| <= |p.needed| && p.toFetch == p.needed[..|p.toFetch|]
    ensures |p.toFetch| == Min(|p.needed|, if maxEntries - |existing| > 0 then maxEntries - |existing| else 0)
    ensures p.alreadyCached == |urls| - |p.needed|
    ensures Subsequence(p.needed, urls)
    ensures |p.needed| == |urls| - Count(urls, u => u in existing)
  {
    var cachedSet := set u | u in existing;
    var keep := (u: string) => u !in cachedSet;
    FilterCount(urls, keep);
    CountSame(urls, (u: string) => !keep(u), (u: string) => u in existing);
    var needed := Filter(urls, keep);
    var available := if maxEntries - |existing| > 0 then maxEntries - |existing| else 0;
    Plan(needed, needed[..Min(available, |needed|)], |urls| - |needed|)
  }

  /** A `PRECACHE_PROGRESS` message. */
  datatype Progress = Progress(cached: nat, total: nat, alreadyCached: int, done: bool, batch: Option<Json>)

  /** The `k`-th batch of `toFetch`: `toFetch.slice(3k, 3k + 3)`. */
  function BatchAt(toFetch: seq<string>, k: nat): seq<string>
    requires Concurrency * k < |toFetch|
  {
    toFetch[Concurrency * k..Min(Concurrency * k + Concurrency, |toFetch|)]
  }

  /** The URLs stored once the first `k + 1` batches have settled. */
  function CachedThrough(toFetch: seq<string>, k: nat, stored: string -> bool): nat {
    Count(toFetch[..Min(Concurrency * k + Concurrency, |toFetch|)], stored)
  }

  /** The first `m` batches. */
  function BatchesUpTo(toFetch: seq<string>, m: nat): (bs: seq<seq<string>>)
    requires m == 0 || Concurrency * (m - 1) < |toFetch|
    ensures |bs| == m
  {
    if m == 0 then [] else BatchesUpTo(toFetch, m - 1) + [BatchAt(toFetch, m - 1)]
  }

  /** The progress messages of the first `m` batches. */
  function ProgressUpTo(toFetch: seq<string>, m: nat, alreadyCached: int, batch: Option<Json>, stored: string -> bool)
    : (ps: seq<Progress>)
    ensures |ps| == m
  {
    if m == 0 then []
    else
      var last := Progress(CachedThrough(toFetch, m - 1, stored), |toFetch|, alreadyCached, false, batch);
      ProgressUpTo(toFetch, m - 1, alreadyCached, batch, stored) + [last]
  }

  /**
   * The batch loop of `precacheUrls` and its messages. `stored(u)` says
   * whether fetching `u` succeeded and the response was put in the cache;
   * `Promise.allSettled` waits for a whole batch before its progress
   * message, so the counter then holds the successes so far.
   */
  method PrecacheBatches(toFetch: seq<string>, alreadyCached: int, batch: Option<Json>, stored: string -> bool)
    returns (batches: seq<seq<string>>, messages: seq<Progress>)
    ensures |toFetch| == 0 ==> batches == [] && messages == [Progress(0, 0, alreadyCached, true, batch)]
    ensures |toFetch| > 0 ==> Concurrency * (|batches| - 1) < |toFetch| <= Concurrency * |batches|
    ensures forall k :: 0 <= k < |batches| ==> Concurrency * k < |toFetch| && batches[k] == BatchAt(toFetch, k)
    ensures |toFetch| > 0 ==> |messages| == |batches| + 1
    ensures |toFetch| > 0 ==> forall k :: 0 <= k < |batches| ==>
      messages[k] == Progress(CachedThrough(toFetch, k, stored), |toFetch|, alreadyCached, false, batch)
    ensures |toFetch| > 0 ==>
      messages[|batches|] == Progress(Count(toFetch, stored), |toFetch|, alreadyCached, true, batch)
  {
    var n := |toFetch|;
    if n == 0 {
      return [], [Progress(0, 0, alreadyCached, true, batch)];
    }
    var cached;
    batches, messages, cached := RunBatches(toFetch, alreadyCached, batch, stored);
    BatchesUpToIndex(toFetch, |batches|);
    ProgressUpToIndex(toFetch, |batches|, alreadyCached, batch, stored);
    messages := messages + [Progress(cached, n, alreadyCached, true, batch)];
  }

  /** The `for` loop of `precacheUrls`: one batch and one progress message per turn. */
  method RunBatches(toFetch: seq<string>, alreadyCached: int, batch: Option<Json>, stored: string -> bool)
    returns (batches: seq<seq<string>>, messages: seq<Progress>, cached: nat)
    requires |toFetch| > 0
    ensures Concurrency * (|batches| - 1) < |toFetch| <= Concurrency * |batches|
    ensures batches == BatchesUpTo(toFetch, |batches|)
    ensures messages == ProgressUpTo(toFetch, |batches|, alreadyCached, batch, stored)
    ensures cached == Count(toFetch, stored)
  {
    var n := |toFetch|;
    batches, messages, cached := [], [], 0;
    var i := 0;
    while i < n
      invariant i == Concurrency * |batches|
      invariant |batches| > 0 ==> i - Concurrency < n
      invariant cached == Count(toFetch[..Min(i, n)], stored)
      invariant batches == BatchesUpTo(toFetch, |batches|)
      invariant messages == ProgressUpTo(toFetch, |batches|, alreadyCached, batch, stored)
      decreases n - i
    {
      var slice := BatchAt(toFetch, |batches|);
      NextBatchCount(toFetch, |batches|, stored);
      cached := cached + Count(slice, stored);
      batches := batches + [slice];
      messages := messages + [Progress(cached, n, alreadyCached, false, batch)];
      i := i + Concurrency;
    }
    assert toFetch[..Min(i, n)] == toFetch;
  }

  lemma {:induction false} BatchesUpToIndex(toFetch: seq<string>, m: nat)
    requires m == 0 || Concurrency * (m - 1) < |toFetch|
    ensures forall k :: 0 <= k < m ==> Concurrency * k < |toFetch| && BatchesUpTo(toFetch, m)[k] == BatchAt(toFetch, k)
  {
    if m > 0 {
      BatchesUpToIndex(toFetch, m - 1);
    }
  }

  lemma {:induction false} ProgressUpToIndex(toFetch: seq<string>, m: nat, alreadyCached: int, batch: Option<Json>, stored: string -> bool)
    ensures forall k :: 0 <= k < m ==>
      ProgressUpTo(toFetch, m, alreadyCached, batch, stored)[k]
        == Progress(CachedThrough(toFetch, k, stored), |toFetch|, alreadyCached, false, batch)
  {
    if m > 0 {
      ProgressUpToIndex(toFetch, m - 1, alreadyCached, batch, stored);
    }
  }

  /** A batch settling adds its successes to the counter. */
  lemma NextBatchCount(toFetch: seq<string>, k: nat, stored: string -> bool)
    requires Concurrency * k < |toFetch|
    ensures CachedThrough(toFetch, k, stored) == Count(toFetch[..Concurrency * k], stored) + Count(BatchAt(toFetch, k), stored)
  {
    var i := Concurrency * k;
    CountAppend(toFetch[..i], BatchAt(toFetch, k), stored);
    assert toFetch[..i] + BatchAt(toFetch, k) == toFetch[..Min(i + Concurrency, |toFetch|)];
  }

  // ---------------------------------------------------------------------
  // Properties
  // ---------------------------------------------------------------------

  /** Counting distributes over concatenation. */
  lemma {:induction false} CountAppend(a: seq<string>, b: seq<string>, p: string -> bool)
    ensures Count(a + b, p) == Count(a, p) + Count(b, p)
    decreases |b|
  {
    if |b| > 0 {
      var b' := b[..|b| - 1];
      assert (a + b)[..|a + b| - 1] == a + b';
      CountAppend(a, b', p);
    } else {
      assert a + b == a;
    }
  }

  /** Filtering distributes over concatenation, so it keeps the input order. */
  lemma {:induction false} FilterAppend(a: seq<string>, b: seq<string>, p: string -> bool)
    ensures Filter(a + b, p) == Filter(a, p) + Filter(b, p)
    decreases |a|
  {
    if |a| == 0 {
      assert a + b == b;
    } else {
      assert (a + b)[1..] == a[1..] + b;
      FilterAppend(a[1..], b, p);
    }
  }

  /** What a filter keeps plus what it drops is the whole list. */
  lemma {:induction false} FilterCount(xs: seq<string>, p: string -> bool)
    ensures |Filter(xs, p)| + Count(xs, (x: string) => !p(x)) == |xs|
    decreases |xs|
  {
    if |xs| > 0 {
      var init := xs[..|xs| - 1];
      var last := xs[|xs| - 1];
      assert xs == init + [last];
      FilterAppend(init, [last], p);
      assert Filter([last], p) == if p(last) then [last] else [];
      FilterCount(init, p);
    }
  }

  /** `alreadyCached` counts the requested URLs that are already in the cache. */
  lemma AlreadyCachedCounts(urls: seq<string>, existing: seq<string>, maxEntries: int)
    ensures PlanFor(urls, existing, maxEntries).alreadyCached == Count(urls, u => u in existing)
    ensures PlanFor(urls, existing, maxEntries).alreadyCached >= 0
  {
    var cachedSet := set u | u in existing;
    var keep := (u: string) => u !in cachedSet;
    FilterCount(urls, keep);
    CountSame(urls, (u: string) => !keep(u), (u: string) => u in existing);
  }

  /** Counting with two predicates that agree everywhere gives the same number. */
  lemma {:induction false} CountSame(xs: seq<string>, p: string -> bool, q: string -> bool)
    requires forall x :: p(x) == q(x)
    ensures Count(xs, p) == Count(xs, q)
    decreases |xs|
  {
    if |xs| > 0 {
      CountSame(xs[..|xs| - 1], p, q);
    }
  }

  /** A precache never takes the cache past `maxEntries` when it started within it. */
  lemma PrecacheRespectsLimit(urls: seq<string>, existing: seq<string>, maxEntries: int)
    ensures var p := PlanFor(urls, existing, maxEntries);
      |existing| <= maxEntries ==> |existing| + |p.toFetch| <= maxEntries
    ensures var p := PlanFor(urls, existing, maxEntries);
      |existing| >= maxEntries ==> p.toFetch == []
  {
  }

  /** The batches are the fetch list cut into consecutive pieces of at most three, none empty. */
  lemma {:induction false} BatchesPartition(toFetch: seq<string>, batches: seq<seq<string>>)
    requires forall k :: 0 <= k < |batches| ==> Concurrency * k < |toFetch| && batches[k] == BatchAt(toFetch, k)
    ensures forall k :: 0 <= k < |batches| ==> 0 < |batches[k]| <= Concurrency
    ensures Flatten(batches) == toFetch[..Min(Concurrency * |batches|, |toFetch|)]
  {
    if |batches| > 0 {
      var k := |batches| - 1;
      BatchesPartition(toFetch, batches[..k]);
      assert Flatten(batches) == Flatten(batches[..k]) + batches[k] by {
        FlattenSnoc(batches[..k], batches[k]);
        assert batches == batches[..k] + [batches[k]];
      }
      assert toFetch[..Min(Concurrency * k, |toFetch|)] + BatchAt(toFetch, k)
          == toFetch[..Min(Concurrency * |batches|, |toFetch|)];
    }
  }

  /** The batches joined back together. */
  function Flatten(bs: seq<seq<string>>): seq<string> {
    if |bs| == 0 then [] else bs[0] + Flatten(bs[1..])
  }

  lemma {:induction false} FlattenSnoc(bs: seq<seq<string>>, b: seq<string>)
    ensures Flatten(bs + [b]) == Flatten(bs) + b
    decreases |bs|
  {
    if |bs| == 0 {
      assert Flatten([b]) == b + Flatten([]);
    } else {
      assert (bs + [b])[1..] == bs[1..] + [b];
      FlattenSnoc(bs[1..], b);
    }
  }

  /**
   * The router's precedence: the tile host, then the font hosts, then
   * cross-origin images, then the app's own origin; only GET is answered.
   */
  lemma RoutePrecedence(req: SwRequest, selfOrigin: string)
    ensures var host := req.url.hostname; var get := req.verb == "GET";
      && (Route(req, selfOrigin) == CacheFirst(TileCache) <==> get && host == TileHost)
      && (Route(req, selfOrigin) == CacheFirst(FontCache) <==>
            get && host != TileHost && (host == FontCssHost || host == FontFileHost))
      && (Route(req, selfOrigin) == CacheFirst(ImageCache) <==>
            get && host != TileHost && host != FontCssHost && host != FontFileHost && IsExternalImage(req, selfOrigin))
      && (Route(req, selfOrigin) == StaleWhileRevalidate(ShellCache) <==>
            get && host != TileHost && host != FontCssHost && host != FontFileHost && req.url.origin == selfOrigin)
  {
  }

  /** A request to the app's own origin is never put in the image cache, whatever it asks for. */
  lemma SameOriginNeverImageCached(req: SwRequest, selfOrigin: string)
    requires req.url.origin == selfOrigin
    ensures !IsExternalImage(req, selfOrigin)
    ensures Route(req, selfOrigin) != CacheFirst(ImageCache)
  {
  }

  /** A path ending in an upper-case image extension matches the case-insensitive pattern. */
  lemma UpperCaseExtensionMatches()
    ensures ImagePath("/p.JPG")
  {
    var s := "/p.JPG";
    var l := Lower(s);
    assert l[2] == '.' && l[3] == 'j' && l[4] == 'p' && l[5] == 'g' by {
      assert l[2] == LowerChar(s[2]) && l[3] == LowerChar(s[3]);
      assert l[4] == LowerChar(s[4]) && l[5] == LowerChar(s[5]);
    }
    assert l[2..6] == ".jpg";
    assert ExtensionAt(l, 2, "jpg");
    assert ImageExtensionAt(l, 2);
  }

  /** Lower-casing twice is lower-casing once. */
  lemma LowerIdempotent(s: string)
    ensures Lower(Lower(s)) == Lower(s)
  {
    assert forall i :: 0 <= i < |s| ==> LowerChar(LowerChar(s[i])) == LowerChar(s[i]);
  }

  /** The image pattern ignores case: a path matches iff its lower-cased form does. */
  lemma ImagePathIgnoresCase(path: string)
    ensures ImagePath(path) <==> ImagePath(Lower(path))
  {
    LowerIdempotent(path);
    if ImagePath(path) {
      var i :| 0 <= i < |path| && ImageExtensionAt(Lower(path), i);
      assert ImageExtensionAt(Lower(Lower(path)), i);
    }
    if ImagePath(Lower(path)) {
      var i :| 0 <= i < |Lower(path)| && ImageExtensionAt(Lower(Lower(path)), i);
      assert ImageExtensionAt(Lower(path), i);
    }
  }

  /** Activation deletes exactly the caches outside the current set, in the order they are listed. */
  lemma {:induction false} StaleCachesInOrder(a: seq<string>, b: seq<string>)
    ensures StaleCaches(a + b) == StaleCaches(a) + StaleCaches(b)
    ensures forall k :: k in StaleCaches(a + b) <==> (k in a || k in b) && k !in KeepCaches
  {
    FilterAppend(a, b, k => k !in KeepCaches);
  }

  /** What the message listener starts, by message type. */
  lemma MessageDispatch(data: Option<Json>)
    ensures var on := data.Some? && Truthy(data.value);
      && (OnMessage(data).Precache? <==>
            on && Get(data.value, "type") == Some(JStr("PRECACHE_URLS"))
            && TruthyProp(Get(data.value, "urls")) && TruthyProp(Get(data.value, "cacheName")))
      && (OnMessage(data) == CacheStats <==> on && Get(data.value, "type") == Some(JStr("GET_CACHE_STATS")))
    ensures OnMessage(data).Precache? ==>
      && Some(OnMessage(data).urls) == Get(data.value, "urls")
      && Some(OnMessage(data).cacheName) == Get(data.value, "cacheName")
      && OnMessage(data).batch == Get(data.value, "_batch")
  {
  }

  /** The success counter never goes down from one progress message to the next. */
  lemma {:induction false} CountPrefixMonotone(xs: seq<string>, p: string -> bool, j: nat, k: nat)
    requires j <= k <= |xs|
    ensures Count(xs[..j], p) <= Count(xs[..k], p)
    ensures Count(xs[..k], p) - Count(xs[..j], p) <= k - j
    decreases k - j
  {
    if j < k {
      CountPrefixMonotone(xs, p, j, k - 1);
      assert xs[..k][..k - 1] == xs[..k - 1];
    }
  }

  /** A bulk precache fetches exactly its fetch list, in order, three at a time. */
  lemma BatchesCoverFetchList(toFetch: seq<string>, batches: seq<seq<string>>)
    requires |toFetch| <= Concurrency * |batches|
    requires forall k :: 0 <= k < |batches| ==> Concurrency * k < |toFetch| && batches[k] == BatchAt(toFetch, k)
    ensures Flatten(batches) == toFetch
  {
    BatchesPartition(toFetch, batches);
    assert toFetch[..Min(Concurrency * |batches|, |toFetch|)] == toFetch;
  }
}

=== FILE: stops.dfy ===
/**
 * Which activities can be drawn on the map: the `mapValid` filter shared by
 * `renderDayContent` (assets/scripts/app.js) and `getTileUrls`
 * (assets/scripts/modules/map-rendering.js).
 */
module Stops {
  import opened Wrappers
  import opened Json
  import opened Projection
  import opened Seqs

  /** `a.location && typeof a.location.lat === "number" && typeof a.location.lng === "number"`. */
  predicate HasCoordinates(a: Json) {
    var loc := Get(a, "location");
    && TruthyProp(loc)
    && IsNumber(Get(loc.value, "lat"))
    && IsNumber(Get(loc.value, "lng"))
  }

  /** The in-order sublist of activities that have numeric coordinates. */
  function MapValid(acts: seq<Json>): (r: seq<Json>)
    ensures |r| <= |acts|
    ensures forall a :: a in r ==> a in acts && HasCoordinates(a)
    ensures forall a :: a in acts && HasCoordinates(a) ==> a in r
    ensures Subsequence(r, acts)
  {
    if |acts| == 0 then []
    else
      var rest := MapValid(acts[1..]);
      if HasCoordinates(acts[0]) then
        assert ([acts[0]] + rest)[1..] == rest;
        [acts[0]] + rest
      else rest
  }

  function Lat(a: Json): real
    requires HasCoordinates(a)
  {
    Get(Get(a, "location").value, "lat").value.n
  }

  function Lng(a: Json): real
    requires HasCoordinates(a)
  {
    Get(Get(a, "location").value, "lng").value.n
  }

  /** The activity's location projected onto the unit square. */
  function UnitOf(a: Json, mercY: real -> real): UnitPoint
    requires HasCoordinates(a)
  {
    Unit(Lat(a), Lng(a), mercY)
  }

  function UnitsOf(acts: seq<Json>, mercY: real -> real): (us: seq<UnitPoint>)
    requires forall i :: 0 <= i < |acts| ==> HasCoordinates(acts[i])
    ensures |us| == |acts|
    ensures forall i :: 0 <= i < |acts| ==> us[i] == UnitOf(acts[i], mercY)
  {
    seq(|acts|, i requires 0 <= i < |acts| && HasCoordinates(acts[i]) => UnitOf(acts[i], mercY))
  }
}

=== FILE: text.dfy ===
/**
 * String helpers shared by the modules: prefixes and suffixes, the
 * decimal rendering of integers (JavaScript's `String(n)` for integral
 * numbers), `padStart(2, "0")`, ASCII lower-casing and the whitespace
 * class that `String.prototype.trim` removes.
 */
module Text {

  predicate StartsWith(s: string, prefix: string) {
    prefix <= s
  }

  predicate EndsWith(s: string, suffix: string) {
    |suffix| <= |s| && s[|s| - |suffix|..] == suffix
  }

  /** True iff `sub` occurs somewhere in `s` (`s.includes(sub)`). */
  predicate Contains(s: string, sub: string) {
    exists i :: 0 <= i <= |s| && OccursAt(s, sub, i)
  }

  /** `sub` occurs in `s` starting at index `i`. */
  predicate OccursAt(s: string, sub: string, i: int) {
    0 <= i <= |s| - |sub| && s[i..i + |sub|] == sub
  }

  function DigitChar(d: nat): (c: char)
    requires d < 10
    ensures '0' <= c <= '9'
  {
    "0123456789"[d]
  }

  /** Decimal digits of `n`, most significant first, without leading zeros. */
  function NatToString(n: nat): (s: string)
    ensures |s| >= 1
    ensures forall i :: 0 <= i < |s| ==> '0' <= s[i] <= '9'
    ensures n >= 10 ==> |s| >= 2
    ensures n < 10 ==> |s| == 1
  {
    if n < 10 then [DigitChar(n)] else NatToString(n / 10) + [DigitChar(n % 10)]
  }

  function IntToString(i: int): (s: string)
    ensures |s| >= 1
  {
    if i < 0 then "-" + NatToString(-i) else NatToString(i)
  }

  /** `s.padStart(2, "0")`: left-pads with zeros up to length two. */
  function PadStart2(s: string): (r: string)
    ensures |r| == if |s| >= 2 then |s| else 2
    ensures EndsWith(r, s)
    ensures forall i :: 0 <= i < |r| - |s| ==> r[i] == '0'
  {
    if |s| >= 2 then s else seq(2 - |s|, _ => '0') + s
  }

  function LowerChar(c: char): (r: char)
    ensures 'A' <= c <= 'Z' ==> r as int == c as int + 32
    ensures !('A' <= c <= 'Z') ==> r == c
  {
    if 'A' <= c <= 'Z' then (c as int + 32) as char else c
  }

  /** ASCII lower-casing (the ASCII part of `toLowerCase`). */
  function Lower(s: string): (r: string)
    ensures |r| == |s|
    ensures forall i :: 0 <= i < |s| ==> r[i] == LowerChar(s[i])
  {
    if |s| == 0 then "" else [LowerChar(s[0])] + Lower(s[1..])
  }

  /** The white-space and line-terminator code points `trim` removes. */
  predicate IsWhitespace(c: char) {
    var u := c as int;
    || 0x09 <= u <= 0x0D || u == 0x20 || u == 0xA0 || u == 0x1680
    || 0x2000 <= u <= 0x200A || u == 0x2028 || u == 0x2029 || u == 0x202F
    || u == 0x205F || u == 0x3000 || u == 0xFEFF
  }

  /** `s.trim().length === 0`. */
  predicate IsBlank(s: string) {
    forall i :: 0 <= i < |s| ==> IsWhitespace(s[i])
  }

  /** `s.trimStart()`. */
  function TrimStart(s: string): (r: string)
    ensures |r| <= |s| && r == s[|s| - |r|..]
    ensures forall i :: 0 <= i < |s| - |r| ==> IsWhitespace(s[i])
    ensures |r| > 0 ==> !IsWhitespace(r[0])
  {
    if |s| > 0 && IsWhitespace(s[0]) then TrimStart(s[1..]) else s
  }

  /** `s.trimEnd()`. */
  function TrimEnd(s: string): (r: string)
    ensures |r| <= |s| && r == s[..|r|]
    ensures forall i :: |r| <= i < |s| ==> IsWhitespace(s[i])
    ensures |r| > 0 ==> !IsWhitespace(r[|r| - 1])
  {
    if |s| > 0 && IsWhitespace(s[|s| - 1]) then TrimEnd(s[..|s| - 1]) else s
  }

  /** `s.trim()`: white space removed from both ends. */
  function Trim(s: string): (r: string)
  {
    TrimEnd(TrimStart(s))
  }

  /** Trimming leaves nothing exactly when the string is all white space. */
  lemma {:induction false} TrimEmptyIffBlank(s: string)
    ensures Trim(s) == "" <==> IsBlank(s)
  {
    var t := TrimStart(s);
    if Trim(s) == "" {
      assert |t| == 0;
    }
    if |t| > 0 {
      assert t[0] == s[|s| - |t|];
    }
  }

  lemma DigitCharInjective(x: nat, y: nat)
    requires x < 10 && y < 10 && DigitChar(x) == DigitChar(y)
    ensures x == y
  {
  }

  /** The last digit and the leading digits of a number of two digits or more. */
  lemma NatToStringSplit(a: nat)
    requires a >= 10
    ensures var s := NatToString(a);
      s[..|s| - 1] == NatToString(a / 10) && s[|s| - 1] == DigitChar(a % 10)
  {
    var s := NatToString(a);
    assert s == NatToString(a / 10) + [DigitChar(a % 10)];
  }

  /** The digits of distinct numbers differ. */
  lemma {:induction false} NatToStringInjective(a: nat, b: nat)
    requires NatToString(a) == NatToString(b)
    ensures a == b
    decreases a
  {
    if a < 10 && b < 10 {
      DigitCharInjective(a, b);
    } else if a >= 10 && b >= 10 {
      NatToStringSplit(a);
      NatToStringSplit(b);
      NatToStringInjective(a / 10, b / 10);
      DigitCharInjective(a % 10, b % 10);
    }
  }

  /** `String(i)` starts with a minus sign exactly for negative numbers. */
  lemma IntToStringSign(i: int)
    ensures IntToString(i)[0] == '-' <==> i < 0
  {
    if i >= 0 {
      assert '0' <= NatToString(i)[0] <= '9';
    }
  }

  /** The digits after the minus sign of a negative number. */
  lemma NegativeDigits(m: int)
    requires m < 0
    ensures IntToString(m)[1..] == NatToString(-m)
  {
    assert IntToString(m) == "-" + NatToString(-m);
  }

  /** Distinct numbers have distinct decimal forms. */
  lemma IntToStringInjective(m: int, n: int)
    requires IntToString(m) == IntToString(n)
    ensures m == n
  {
    IntToStringSign(m);
    IntToStringSign(n);
    if m < 0 && n < 0 {
      NegativeDigits(m);
      NegativeDigits(n);
      NatToStringInjective(-m, -n);
    } else if m >= 0 && n >= 0 {
      NatToStringInjective(m, n);
    }
  }

  /** Every character of `String(i)` is a digit or the minus sign. */
  lemma IntToStringChars(i: int)
    ensures forall k :: 0 <= k < |IntToString(i)| ==> IntToString(i)[k] == '-' || '0' <= IntToString(i)[k] <= '9'
  {
    if i < 0 {
      assert IntToString(i) == "-" + NatToString(-i);
    }
  }

  /** The index of the first `c` in `s`, or `|s|` when there is none. */
  function FirstIndexOf(s: string, c: char): (k: nat)
    ensures k <= |s|
  {
    if |s| == 0 then 0 else if s[0] == c then 0 else 1 + FirstIndexOf(s[1..], c)
  }

  lemma {:induction false} FirstIndexAfter(a: string, rest: string, c: char)
    requires c !in a && |rest| > 0 && rest[0] == c
    ensures FirstIndexOf(a + rest, c) == |a|
  {
    if |a| > 0 {
      assert (a + rest)[1..] == a[1..] + rest;
      FirstIndexAfter(a[1..], rest, c);
    } else {
      assert a + rest == rest;
    }
  }

  /**
   * A separator that occurs in neither left part splits a string in one
   * way only: `a + [sep] + b == c + [sep] + d` forces `a == c` and `b == d`.
   */
  lemma SplitAtSeparator(a: string, b: string, c: string, d: string, sep: char)
    requires sep !in a && sep !in c
    requires a + [sep] + b == c + [sep] + d
    ensures a == c && b == d
  {
    var s := a + [sep] + b;
    assert s == a + ([sep] + b) && s == c + ([sep] + d);
    FirstIndexAfter(a, [sep] + b, sep);
    FirstIndexAfter(c, [sep] + d, sep);
    assert a == s[..|a|] && c == s[..|c|];
    assert b == s[|a| + 1..] && d == s[|c| + 1..];
  }
}

=== FILE: tiles.dfy ===
/**
 * The background tiles that cover the canvas: the column/row loops shared
 * by `renderTileLayer` and `getTileUrls`
 * (assets/scripts/modules/map-rendering.js).
 */
module Tiles {
  import opened Wrappers
  import opened JsArith
  import opened Json
  import opened Text
  import opened Projection
  import opened Geometry
  import opened Stops

  const TileHost: string := "basemaps.cartocdn.com"
  const TileUrlPrefix: string := "https://basemaps.cartocdn.com/light_all/"

  /** A tile address: zoom, wrapped column, row. */
  datatype Tile = Tile(z: nat, x: int, y: int)

  /** One `<image>` of the tile layer: the tile and its canvas offset. */
  datatype TileImage = TileImage(tile: Tile, left: real, top: real)

  /** An unwrapped grid cell: the raw column and the row. */
  datatype Cell = Cell(col: int, row: int)

  /** Column and row range that intersects the canvas. */
  datatype TileRange = TileRange(minX: int, maxX: int, minY: int, maxY: int)

  /** `2 ** z`, the number of tiles per axis at zoom `z`. */
  function TileCount(z: nat): (n: nat)
    ensures n >= 1
    ensures n as real == Pow2(z)
  {
    if z == 0 then 1 else 2 * TileCount(z - 1)
  }

  /** `((x % n) + n) % n`. */
  function WrapColumn(x: int, n: int): int
    requires n > 0
  {
    JsRem(JsRem(x, n) + n, n)
  }

  /** Multiplying by a positive factor of at least one does not shrink `n`. */
  lemma MulAtLeast(k: int, n: int)
    requires k >= 1 && n > 0
    ensures k * n >= n
  {
  }

  /** Division by a positive `n` has one quotient/remainder pair. */
  lemma ModUnique(x: int, n: int, q: int, w: int)
    requires n > 0 && 0 <= w < n && x == q * n + w
    ensures x % n == w
  {
    var d, r := x / n, x % n;
    assert x == d * n + r;
    if q > d {
      MulAtLeast(q - d, n);
    } else if q < d {
      MulAtLeast(d - q, n);
    }
  }

  /** The truncated remainder differs from its dividend by a multiple of `n`. */
  lemma JsRemDecomposition(a: int, n: int) returns (q: int)
    requires n > 0
    ensures a == q * n + JsRem(a, n)
  {
    if a >= 0 {
      q := a / n;
    } else {
      q := -((-a) / n);
      assert -a == ((-a) / n) * n + (-a) % n;
    }
  }

  /**
   * The wrap idiom always yields a column in [0, n), and the column it
   * yields is the (non-negative) residue of `x` modulo `n`.
   */
  lemma WrapColumnIsResidue(x: int, n: int)
    requires n > 0
    ensures 0 <= WrapColumn(x, n) < n
    ensures WrapColumn(x, n) == x % n
  {
    var r := JsRem(x, n);
    var q1 := JsRemDecomposition(x, n);
    var w := JsRem(r + n, n);
    var q2 := JsRemDecomposition(r + n, n);
    assert x == (q1 + q2 - 1) * n + w;
    ModUnique(x, n, q1 + q2 - 1, w);
  }

  /** `Math.floor(v / 256)`. */
  function TileIndex(v: real): int {
    (v / TileSize).Floor
  }

  function CoveringRange(g: MapGeometry, width: real, height: real): (r: TileRange)
  {
    TileRange(TileIndex(g.mapLeft), TileIndex(g.mapLeft + width),
              TileIndex(g.mapTop), TileIndex(g.mapTop + height))
  }

  /** The column and row range covers the whole canvas `[mapLeft, mapLeft + width]`. */
  lemma RangeCoversCanvas(g: MapGeometry, width: real, height: real)
    ensures var r := CoveringRange(g, width, height);
      && r.minX as real * TileSize <= g.mapLeft
      && g.mapLeft + width < (r.maxX + 1) as real * TileSize
      && r.minY as real * TileSize <= g.mapTop
      && g.mapTop + height < (r.maxY + 1) as real * TileSize
  {
  }

  /** Rows `lo..hi` of column `col`, skipping rows outside `[0, n)`. */
  function ColumnCells(col: int, lo: int, hi: int, n: int): (cs: seq<Cell>)
    ensures forall i :: 0 <= i < |cs| ==> cs[i].col == col && lo <= cs[i].row <= hi && 0 <= cs[i].row < n
    decreases hi - lo
  {
    if hi < lo then []
    else ColumnCells(col, lo, hi - 1, n) + (if 0 <= hi < n then [Cell(col, hi)] else [])
  }

  /** Columns `xLo..xHi`, each with its rows: column-major order. */
  function GridCells(xLo: int, xHi: int, yLo: int, yHi: int, n: int): (cs: seq<Cell>)
    ensures forall i :: 0 <= i < |cs| ==>
      xLo <= cs[i].col <= xHi && yLo <= cs[i].row <= yHi && 0 <= cs[i].row < n
    decreases xHi - xLo
  {
    if xHi < xLo then []
    else GridCells(xLo, xHi - 1, yLo, yHi, n) + ColumnCells(xHi, yLo, yHi, n)
  }

  function Cells(g: MapGeometry, width: real, height: real): seq<Cell> {
    var r := CoveringRange(g, width, height);
    GridCells(r.minX, r.maxX, r.minY, r.maxY, TileCount(g.zoom))
  }

  function TileOf(z: nat, c: Cell): Tile {
    Tile(z, WrapColumn(c.col, TileCount(z)), c.row)
  }

  function ImageOf(g: MapGeometry, c: Cell): TileImage {
    TileImage(TileOf(g.zoom, c), c.col as real * TileSize - g.mapLeft, c.row as real * TileSize - g.mapTop)
  }

  /** `https://basemaps.cartocdn.com/light_all/{z}/{x}/{y}.png`. */
  function TileUrl(t: Tile): (u: string)
    ensures StartsWith(u, TileUrlPrefix) && EndsWith(u, ".png")
  {
    TileUrlPrefix + NatToString(t.z) + "/" + IntToString(t.x) + "/" + IntToString(t.y) + ".png"
  }

  /** The part of a tile URL between the host prefix and `.png`: `{z}/{x}/{y}`. */
  function TilePath(t: Tile): string {
    NatToString(t.z) + "/" + (IntToString(t.x) + "/" + IntToString(t.y))
  }

  lemma TileUrlParts(t: Tile)
    ensures TileUrl(t) == TileUrlPrefix + TilePath(t) + ".png"
  {
  }

  /** A decimal number never contains the path separator. */
  lemma NoSlashInNumbers(t: Tile)
    ensures '/' !in NatToString(t.z) && '/' !in IntToString(t.x) && '/' !in IntToString(t.y)
  {
    IntToStringChars(t.x);
    IntToStringChars(t.y);
  }

  /**
   * The URL names its tile: two tiles with the same URL have the same zoom,
   * column and row, so the precache list and the tile layer can be compared
   * by URL.
   */
  lemma TileUrlInjective(a: Tile, b: Tile)
    requires TileUrl(a) == TileUrl(b)
    ensures a == b
  {
    TileUrlParts(a);
    TileUrlParts(b);
    var u := TileUrl(a);
    var n := |TileUrlPrefix|;
    assert TilePath(a) == u[n..|u| - 4];
    assert TilePath(b) == u[n..|u| - 4];
    NoSlashInNumbers(a);
    NoSlashInNumbers(b);
    SplitAtSeparator(NatToString(a.z), IntToString(a.x) + "/" + IntToString(a.y),
                     NatToString(b.z), IntToString(b.x) + "/" + IntToString(b.y), '/');
    SplitAtSeparator(IntToString(a.x), IntToString(a.y), IntToString(b.x), IntToString(b.y), '/');
    NatToStringInjective(a.z, b.z);
    IntToStringInjective(a.x, b.x);
    IntToStringInjective(a.y, b.y);
  }

  lemma TileUrlsDistinct()
    ensures forall a: Tile, b: Tile :: TileUrl(a) == TileUrl(b) ==> a == b
  {
    forall a: Tile, b: Tile | TileUrl(a) == TileUrl(b)
      ensures a == b
    {
      TileUrlInjective(a, b);
    }
  }

  /** The tiles covering the canvas, in the order both loops emit them. */
  function CoveringTiles(g: MapGeometry, width: real, height: real): (ts: seq<Tile>)
    ensures |ts| == |Cells(g, width, height)|
    ensures forall i :: 0 <= i < |ts| ==> ts[i] == TileOf(g.zoom, Cells(g, width, height)[i])
  {
    var cs := Cells(g, width, height);
    seq(|cs|, i requires 0 <= i < |cs| => TileOf(g.zoom, cs[i]))
  }

  /** Every emitted tile is a real tile of zoom `g.zoom`: row and column in `[0, 2^z)`. */
  lemma CoveringTilesInRange(g: MapGeometry, width: real, height: real)
    ensures forall t :: t in CoveringTiles(g, width, height) ==>
      t.z == g.zoom && 0 <= t.x < TileCount(g.zoom) && 0 <= t.y < TileCount(g.zoom)
  {
    var ts := CoveringTiles(g, width, height);
    forall t | t in ts
      ensures t.z == g.zoom && 0 <= t.x < TileCount(g.zoom) && 0 <= t.y < TileCount(g.zoom)
    {
      var i :| 0 <= i < |ts| && ts[i] == t;
      WrapColumnIsResidue(Cells(g, width, height)[i].col, TileCount(g.zoom));
    }
  }

  lemma {:induction false} ColumnCellsComplete(col: int, lo: int, hi: int, n: int, y: int)
    requires lo <= y <= hi && 0 <= y < n
    ensures Cell(col, y) in ColumnCells(col, lo, hi, n)
    decreases hi - lo
  {
    if y < hi {
      ColumnCellsComplete(col, lo, hi - 1, n, y);
    }
  }

  /**
   * Completeness of the grid: every cell in the column/row range whose row
   * lies in `[0, n)` is emitted.
   */
  lemma {:induction false} GridCellsComplete(xLo: int, xHi: int, yLo: int, yHi: int, n: int, x: int, y: int)
    requires xLo <= x <= xHi && yLo <= y <= yHi && 0 <= y < n
    ensures Cell(x, y) in GridCells(xLo, xHi, yLo, yHi, n)
    decreases xHi - xLo
  {
    if x < xHi {
      GridCellsComplete(xLo, xHi - 1, yLo, yHi, n, x, y);
    } else {
      ColumnCellsComplete(x, yLo, yHi, n, y);
    }
  }

  /** A tile is emitted iff it is the wrap of some cell of the range with a row in `[0, 2^z)`. */
  lemma CoveringTilesExactly(g: MapGeometry, width: real, height: real, t: Tile)
    ensures var r := CoveringRange(g, width, height);
      t in CoveringTiles(g, width, height) <==>
        exists col, row :: r.minX <= col <= r.maxX && r.minY <= row <= r.maxY
          && 0 <= row < TileCount(g.zoom) && t == TileOf(g.zoom, Cell(col, row))
  {
    var r := CoveringRange(g, width, height);
    var ts := CoveringTiles(g, width, height);
    GridTilesExactly(g.zoom, r.minX, r.maxX, r.minY, r.maxY, t);
    assert t in ts <==> t in TilesOf(g.zoom, GridCells(r.minX, r.maxX, r.minY, r.maxY, TileCount(g.zoom)));
  }

  /** The tiles of a sequence of cells at zoom `z`, in order. */
  function TilesOf(z: nat, cs: seq<Cell>): (ts: seq<Tile>)
    ensures |ts| == |cs|
    ensures forall i :: 0 <= i < |cs| ==> ts[i] == TileOf(z, cs[i])
  {
    seq(|cs|, i requires 0 <= i < |cs| => TileOf(z, cs[i]))
  }

  /** The tiles of a grid are exactly the wraps of its cells with a row in `[0, 2^z)`. */
  lemma GridTilesExactly(z: nat, xLo: int, xHi: int, yLo: int, yHi: int, t: Tile)
    ensures t in TilesOf(z, GridCells(xLo, xHi, yLo, yHi, TileCount(z))) <==>
      exists col, row :: xLo <= col <= xHi && yLo <= row <= yHi
        && 0 <= row < TileCount(z) && t == TileOf(z, Cell(col, row))
  {
    var cs := GridCells(xLo, xHi, yLo, yHi, TileCount(z));
    var ts := TilesOf(z, cs);
    if t in ts {
      var i :| 0 <= i < |ts| && ts[i] == t;
      assert t == TileOf(z, Cell(cs[i].col, cs[i].row));
    }
    if exists col, row :: xLo <= col <= xHi && yLo <= row <= yHi
        && 0 <= row < TileCount(z) && t == TileOf(z, Cell(col, row)) {
      var col, row :| xLo <= col <= xHi && yLo <= row <= yHi
        && 0 <= row < TileCount(z) && t == TileOf(z, Cell(col, row));
      GridCellsComplete(xLo, xHi, yLo, yHi, TileCount(z), col, row);
      var i :| 0 <= i < |cs| && cs[i] == Cell(col, row);
      assert ts[i] == t;
    }
  }

  /** The inner (row) loop of `renderTileLayer` for one column, appended to `acc`. */
  method AppendColumnImages(g: MapGeometry, tileX: int, lo: int, hi: int, acc: seq<TileImage>)
    returns (images: seq<TileImage>)
    ensures var col := ColumnCells(tileX, lo, hi, TileCount(g.zoom));
      |images| == |acc| + |col|
      && images[..|acc|] == acc
      && forall i :: 0 <= i < |col| ==> images[|acc| + i] == ImageOf(g, col[i])
  {
    var n := TileCount(g.zoom);
    images := acc;
    var tileY := lo;
    while tileY <= hi
      invariant lo <= tileY <= hi + 1 || (tileY == lo && hi < lo)
      invariant var col := ColumnCells(tileX, lo, tileY - 1, n);
        |images| == |acc| + |col|
        && images[..|acc|] == acc
        && forall i :: 0 <= i < |col| ==> images[|acc| + i] == ImageOf(g, col[i])
      decreases hi - tileY
    {
      if 0 <= tileY < n {
        images := images + [ImageOf(g, Cell(tileX, tileY))];
      }
      tileY := tileY + 1;
    }
  }

  /** The tile layer as a value: the image of each covering cell, in loop order. */
  function TileLayer(g: MapGeometry, width: real, height: real): (ts: seq<TileImage>)
    ensures |ts| == |Cells(g, width, height)|
    ensures forall i :: 0 <= i < |ts| ==> ts[i] == ImageOf(g, Cells(g, width, height)[i])
  {
    var cs := Cells(g, width, height);
    seq(|cs|, i requires 0 <= i < |cs| => ImageOf(g, cs[i]))
  }

  /** `renderTileLayer(geometry, width, height)`: the nested loops build exactly `TileLayer`. */
  method RenderTileLayer(g: MapGeometry, width: real, height: real) returns (images: seq<TileImage>)
    ensures images == TileLayer(g, width, height)
  {
    var n := TileCount(g.zoom);
    var r := CoveringRange(g, width, height);
    images := [];
    var tileX := r.minX;
    while tileX <= r.maxX
      invariant r.minX <= tileX <= r.maxX + 1 || (tileX == r.minX && r.maxX < r.minX)
      invariant var done := GridCells(r.minX, tileX - 1, r.minY, r.maxY, n);
        |images| == |done| && forall i :: 0 <= i < |images| ==> images[i] == ImageOf(g, done[i])
      decreases r.maxX - tileX
    {
      ghost var before := GridCells(r.minX, tileX - 1, r.minY, r.maxY, n);
      ghost var prev := images;
      images := AppendColumnImages(g, tileX, r.minY, r.maxY, images);
      assert GridCells(r.minX, tileX, r.minY, r.maxY, n) == before + ColumnCells(tileX, r.minY, r.maxY, n);
      ImagesExtend(g, prev, images, before, ColumnCells(tileX, r.minY, r.maxY, n));
      tileX := tileX + 1;
    }
    IsTileLayer(images, g, width, height);
  }

  /** Images matching `before`, followed by images matching `col`, match `before + col`. */
  lemma ImagesExtend(g: MapGeometry, prev: seq<TileImage>, images: seq<TileImage>, before: seq<Cell>, col: seq<Cell>)
    requires |prev| == |before| && forall i :: 0 <= i < |prev| ==> prev[i] == ImageOf(g, before[i])
    requires |images| == |prev| + |col| && images[..|prev|] == prev
    requires forall i :: 0 <= i < |col| ==> images[|prev| + i] == ImageOf(g, col[i])
    ensures |images| == |before + col|
    ensures forall i :: 0 <= i < |images| ==> images[i] == ImageOf(g, (before + col)[i])
  {
    forall i | 0 <= i < |images|
      ensures images[i] == ImageOf(g, (before + col)[i])
    {
      if i < |prev| {
        assert images[i] == images[..|prev|][i];
      } else {
        assert images[|prev| + (i - |prev|)] == ImageOf(g, col[i - |prev|]);
      }
    }
  }

  /** Images that match the covering cells one by one are the tile layer. */
  lemma IsTileLayer(images: seq<TileImage>, g: MapGeometry, width: real, height: real)
    requires var cs := Cells(g, width, height);
      |images| == |cs| && forall i :: 0 <= i < |images| ==> images[i] == ImageOf(g, cs[i])
    ensures images == TileLayer(g, width, height)
  {
  }

  /** The URL of each tile, in order; equal URLs mean equal tiles. */
  function UrlsOf(ts: seq<Tile>): (us: seq<string>)
    ensures |us| == |ts|
    ensures forall i :: 0 <= i < |ts| ==> us[i] == TileUrl(ts[i])
    ensures forall i, j :: 0 <= i < |ts| && 0 <= j < |ts| ==> (us[i] == us[j] <==> ts[i] == ts[j])
  {
    TileUrlsDistinct();
    seq(|ts|, i requires 0 <= i < |ts| => TileUrl(ts[i]))
  }

  /** The inner (row) loop of `getTileUrls` for one column, appended to `acc`. */
  method AppendColumnTiles(z: nat, tileX: int, lo: int, hi: int, acc: seq<Tile>) returns (tiles: seq<Tile>)
    ensures var col := ColumnCells(tileX, lo, hi, TileCount(z));
      |tiles| == |acc| + |col|
      && tiles[..|acc|] == acc
      && forall i :: 0 <= i < |col| ==> tiles[|acc| + i] == TileOf(z, col[i])
  {
    var n := TileCount(z);
    tiles := acc;
    var tileY := lo;
    while tileY <= hi
      invariant lo <= tileY <= hi + 1 || (tileY == lo && hi < lo)
      invariant var col := ColumnCells(tileX, lo, tileY - 1, n);
        |tiles| == |acc| + |col|
        && tiles[..|acc|] == acc
        && forall i :: 0 <= i < |col| ==> tiles[|acc| + i] == TileOf(z, col[i])
      decreases hi - tileY
    {
      if 0 <= tileY < n {
        tiles := tiles + [TileOf(z, Cell(tileX, tileY))];
      }
      tileY := tileY + 1;
    }
  }

  /** The column and row loops of `getTileUrls`, before each tile becomes a URL. */
  method CoveringTileList(g: MapGeometry, width: real, height: real) returns (tiles: seq<Tile>)
    ensures |tiles| == |Cells(g, width, height)|
    ensures forall i :: 0 <= i < |tiles| ==> tiles[i] == TileOf(g.zoom, Cells(g, width, height)[i])
  {
    var n := TileCount(g.zoom);
    var r := CoveringRange(g, width, height);
    tiles := [];
    var tileX := r.minX;
    while tileX <= r.maxX
      invariant r.minX <= tileX <= r.maxX + 1 || (tileX == r.minX && r.maxX < r.minX)
      invariant var done := GridCells(r.minX, tileX - 1, r.minY, r.maxY, n);
        |tiles| == |done| && forall i :: 0 <= i < |tiles| ==> tiles[i] == TileOf(g.zoom, done[i])
      decreases r.maxX - tileX
    {
      tiles := AppendColumnTiles(g.zoom, tileX, r.minY, r.maxY, tiles);
      tileX := tileX + 1;
    }
  }

  /** The loops of `getTileUrls` over a geometry: one URL per covering tile. */
  method TileUrlsOf(g: MapGeometry, width: real, height: real) returns (urls: seq<string>)
    ensures urls == UrlsOf(CoveringTiles(g, width, height))
  {
    var tiles := CoveringTileList(g, width, height);
    assert tiles == CoveringTiles(g, width, height);
    urls := UrlsOf(tiles);
  }

  /**
   * `getTileUrls(activities, width, height, padding)`: `[]` for a missing or
   * empty list or when no activity has coordinates; otherwise the covering
   * tiles of the geometry built from the mappable activities.
   */
  method GetTileUrls(activities: Option<seq<Json>>, width: real, height: real, padding: real, mercY: real -> real)
    returns (urls: seq<string>)
    ensures activities.None? || |activities.value| == 0 ==> urls == []
    ensures activities.Some? && |MapValid(activities.value)| == 0 ==> urls == []
    ensures activities.Some? && |MapValid(activities.value)| > 0 ==>
      var valid := MapValid(activities.value);
      var g := BuildMapGeometry(UnitsOf(valid, mercY), width, height, padding);
      urls == UrlsOf(CoveringTiles(g, width, height))
  {
    if activities.None? || |activities.value| == 0 {
      return [];
    }
    var valid := MapValid(activities.value);
    if |valid| == 0 {
      return [];
    }
    var g := BuildMapGeometry(UnitsOf(valid, mercY), width, height, padding);
    urls := TileUrlsOf(g, width, height);
  }

  /**
   * The rendered tile layer and the precache URL list name the same
   * `(z, x, y)` tiles in the same order.
   */
  lemma RenderAndPrecacheAgree(g: MapGeometry, width: real, height: real, images: seq<TileImage>, urls: seq<string>)
    requires images == TileLayer(g, width, height)
    requires urls == UrlsOf(CoveringTiles(g, width, height))
    ensures |images| == |urls|
    ensures forall i :: 0 <= i < |urls| ==> urls[i] == TileUrl(images[i].tile)
    ensures forall i :: 0 <= i < |images| ==> images[i].tile == CoveringTiles(g, width, height)[i]
  {
  }
}

=== FILE: validation.dfy ===
/**
 * `validateItinerary` (assets/scripts/modules/validation.js): a parsed
 * itinerary in, an ordered list of problems out. Each problem is a
 * structured error naming the field and the day/activity/link indices the
 * message would name. Reading a property with `in` from a day or activity
 * that is not an object or array, or from a `null` review link, throws a
 * TypeError in the source; that outcome is `TypeError` here.
 */
module Validation {
  import opened Wrappers
  import opened Json
  import opened Text
  import opened ValidationErrors
  import opened ValidationDays

  /** An error about the whole itinerary. */
  function Top(p: Problem): Error {
    Error(TopLevel, p)
  }

  /**
   * The `dateRange` checks. `earlier(a, b)` is `new Date(a) < new Date(b)`;
   * date parsing is a parameter.
   */
  function DateRangeErrors(data: Json, earlier: (Json, Json) -> bool): (es: seq<Error>)
    ensures forall e :: e in es ==>
      && e.at == TopLevel
      && (e.problem.BadDateRange? || e.problem.MissingDateStart? || e.problem.MissingDateEnd? || e.problem.DateRangeReversed?)
    ensures Top(BadDateRange) in es <==> NotObjectIn(data, "dateRange")
    ensures Top(MissingDateStart) in es <==> LacksIn(data, "dateRange", "start")
    ensures Top(MissingDateEnd) in es <==> LacksIn(data, "dateRange", "end")
    ensures Top(DateRangeReversed) in es <==>
      && Has(data, "dateRange") && AllowsIn(Get(data, "dateRange").value)
      && var dr := Get(data, "dateRange").value;
      && TruthyProp(Get(dr, "start")) && TruthyProp(Get(dr, "end"))
      && earlier(Get(dr, "end").value, Get(dr, "start").value)
  {
    if !Has(data, "dateRange") then []
    else
      var dr := Get(data, "dateRange").value;
      if !Truthy(dr) || !IsObjectType(dr) then [Top(BadDateRange)]
      else
        var start := Get(dr, "start");
        var end := Get(dr, "end");
        When(!TruthyProp(start), Top(MissingDateStart))
        + When(!TruthyProp(end), Top(MissingDateEnd))
        + When(TruthyProp(start) && TruthyProp(end) && earlier(end.value, start.value), Top(DateRangeReversed))
  }

  /** The checks between the required-field check and the `days` checks. */
  function HeaderErrors(data: Json, earlier: (Json, Json) -> bool): (es: seq<Error>)
    ensures forall e :: e in es ==> e.InHeader()
    ensures Top(BadTripId) in es <==> !NonEmptyString(Get(data, "tripId"))
    ensures Top(BadTitle) in es <==> !NonEmptyString(Get(data, "title"))
    ensures forall g :: Top(BadSchemaVersion(g)) in es <==>
      Get(data, "schemaVersion") != Some(JStr(SchemaVersion)) && g == Get(data, "schemaVersion").GetOr(JNull)
    ensures forall p: Problem :: p.AboutDates() ==> (Top(p) in es <==> Top(p) in DateRangeErrors(data, earlier))
  {
    var version := Get(data, "schemaVersion");
    var v := When(version != Some(JStr(SchemaVersion)), Top(BadSchemaVersion(version.GetOr(JNull))));
    var t := When(!NonEmptyString(Get(data, "tripId")), Top(BadTripId));
    var h := When(!NonEmptyString(Get(data, "title")), Top(BadTitle));
    var d := DateRangeErrors(data, earlier);
    var fields := v + t + h;
    assert forall e :: e in fields ==>
      e.at == TopLevel && (e.problem.BadSchemaVersion? || e.problem.BadTripId? || e.problem.BadTitle?);
    fields + d
  }

  function MissingFieldErrors(m: seq<string>): (es: seq<Error>)
    ensures |es| == |m|
    ensures forall i :: 0 <= i < |m| ==> es[i] == Top(MissingField(m[i]))
  {
    seq(|m|, i requires 0 <= i < |m| => Top(MissingField(m[i])))
  }

  /**
   * The `days` checks: not an array, empty, or the day loop. `None` when
   * the day loop throws.
   */
  function DaysCheck(days: Json): (r: Option<seq<Error>>)
    ensures r.Some? ==> forall e :: e in r.value ==> !e.InHeader()
    ensures r.None? <==> days.JArr? && exists m :: 0 <= m < |days.items| && DayThrows(days.items[m])
  {
    if !days.JArr? then Some([Top(DaysNotArray)])
    else if |days.items| == 0 then Some([Top(DaysEmpty)])
    else DaysErrors(days.items, 0, {})
  }

  /** `validateItinerary(data)`. */
  function Validate(data: Json, earlier: (Json, Json) -> bool): (v: Validated)
    ensures !Truthy(data) || !IsObjectType(data) || data.JArr? ==> v == Checked([Top(NotAnObject)])
    ensures v.TypeError? <==>
      && data.JObj? && |MissingOf(data, Required)| == 0 && IsArray(Get(data, "days"))
      && exists m :: 0 <= m < |Get(data, "days").value.items| && DayThrows(Get(data, "days").value.items[m])
  {
    if !Truthy(data) || !IsObjectType(data) || data.JArr? then Checked([Top(NotAnObject)])
    else
      var missing := MissingOf(data, Required);
      if |missing| > 0 then Checked(MissingFieldErrors(missing))
      else match DaysCheck(Get(data, "days").value)
        case None => TypeError
        case Some(es) => Checked(HeaderErrors(data, earlier) + es)
  }
}

=== FILE: validation_activities.dfy ===
/** The per-activity checks and the activity loop of one day. */
module ValidationActivities {
  import opened Wrappers
  import opened Json
  import opened Text
  import opened ValidationErrors
  import opened ValidationLinks

  function OrderOf(act: Json): Option<real> {
    var o := Get(act, "order");
    if IsNumber(o) then Some(o.value.n) else None
  }

  function ActivityMissingErrors(i: nat, j: nat, m: seq<string>): (es: seq<Error>)
    ensures |es| == |m|
    ensures forall k :: 0 <= k < |m| ==> es[k] == Error(AtActivity(i, j), ActivityMissingField(m[k]))
  {
    seq(|m|, k requires 0 <= k < |m| => Error(AtActivity(i, j), ActivityMissingField(m[k])))
  }

  /** The `image` check: an object needs truthy `url` and `alt`; any other present value is wrong. */
  function ImageErrors(i: nat, j: nat, act: Json): (es: seq<Error>)
    ensures forall e :: e in es ==> e.at == AtActivity(i, j) && e.problem.AboutImage()
    ensures Error(AtActivity(i, j), ImageNotObject) in es <==> NotObjectIn(act, "image")
    ensures Error(AtActivity(i, j), ImageMissingUrl) in es <==> LacksIn(act, "image", "url")
    ensures Error(AtActivity(i, j), ImageMissingAlt) in es <==> LacksIn(act, "image", "alt")
  {
    var image := Get(act, "image");
    if TruthyProp(image) && IsObjectType(image.value) then
      When(!TruthyProp(Get(image.value, "url")), Error(AtActivity(i, j), ImageMissingUrl))
      + When(!TruthyProp(Get(image.value, "alt")), Error(AtActivity(i, j), ImageMissingAlt))
    else
      When(image.Some? && (!IsObjectType(image.value) || image.value.JNull?), Error(AtActivity(i, j), ImageNotObject))
  }

  /** The `location` check: an object needs a truthy `mapsUrl`; any other present value is wrong. */
  function LocationErrors(i: nat, j: nat, act: Json): (es: seq<Error>)
    ensures forall e :: e in es ==> e.at == AtActivity(i, j) && e.problem.AboutLocation()
    ensures Error(AtActivity(i, j), LocationNotObject) in es <==> NotObjectIn(act, "location")
    ensures Error(AtActivity(i, j), LocationMissingMapsUrl) in es <==> LacksIn(act, "location", "mapsUrl")
  {
    var loc := Get(act, "location");
    if TruthyProp(loc) && IsObjectType(loc.value) then
      When(!TruthyProp(Get(loc.value, "mapsUrl")), Error(AtActivity(i, j), LocationMissingMapsUrl))
    else
      When(loc.Some? && (!IsObjectType(loc.value) || loc.value.JNull?), Error(AtActivity(i, j), LocationNotObject))
  }

  /** A present list field must be a non-empty array. */
  predicate BadList(act: Json, field: string) {
    Has(act, field) && !(IsArray(Get(act, field)) && |Get(act, field).value.items| > 0)
  }

  /** The `image`, `location`, `tips` and `photoSpotTips` checks of one activity. */
  function ActivityShapeErrors(i: nat, j: nat, act: Json): (es: seq<Error>)
    ensures forall e :: e in es ==> e.at == AtActivity(i, j) && e.problem.AboutShape()
    ensures Error(AtActivity(i, j), TipsInvalid) in es <==> BadList(act, "tips")
    ensures Error(AtActivity(i, j), PhotoSpotTipsInvalid) in es <==> BadList(act, "photoSpotTips")
    ensures Error(AtActivity(i, j), ImageNotObject) in es <==> NotObjectIn(act, "image")
    ensures Error(AtActivity(i, j), ImageMissingUrl) in es <==> LacksIn(act, "image", "url")
    ensures Error(AtActivity(i, j), ImageMissingAlt) in es <==> LacksIn(act, "image", "alt")
    ensures Error(AtActivity(i, j), LocationNotObject) in es <==> NotObjectIn(act, "location")
    ensures Error(AtActivity(i, j), LocationMissingMapsUrl) in es <==> LacksIn(act, "location", "mapsUrl")
  {
    var image := ImageErrors(i, j, act);
    var location := LocationErrors(i, j, act);
    var tips := When(BadList(act, "tips"), Error(AtActivity(i, j), TipsInvalid));
    var photo := When(BadList(act, "photoSpotTips"), Error(AtActivity(i, j), PhotoSpotTipsInvalid));
    ShapePartsJoin(i, j, image, location, tips, photo);
    image + location + tips + photo
  }

  /** The four shape checks of an activity, joined in the order they are made. */
  lemma ShapePartsJoin(i: nat, j: nat, image: seq<Error>, location: seq<Error>, tips: seq<Error>, photo: seq<Error>)
    requires forall e :: e in image ==> e.at == AtActivity(i, j) && e.problem.AboutImage()
    requires forall e :: e in location ==> e.at == AtActivity(i, j) && e.problem.AboutLocation()
    requires forall e :: e in tips ==> e == Error(AtActivity(i, j), TipsInvalid)
    requires forall e :: e in photo ==> e == Error(AtActivity(i, j), PhotoSpotTipsInvalid)
    ensures forall e :: e in image + location + tips + photo ==> e.at == AtActivity(i, j) && e.problem.AboutShape()
    ensures Error(AtActivity(i, j), TipsInvalid) in image + location + tips + photo <==>
      Error(AtActivity(i, j), TipsInvalid) in tips
    ensures Error(AtActivity(i, j), PhotoSpotTipsInvalid) in image + location + tips + photo <==>
      Error(AtActivity(i, j), PhotoSpotTipsInvalid) in photo
    ensures forall p: Problem :: p.AboutImage() ==>
      (Error(AtActivity(i, j), p) in image + location + tips + photo <==> Error(AtActivity(i, j), p) in image)
    ensures forall p: Problem :: p.AboutLocation() ==>
      (Error(AtActivity(i, j), p) in image + location + tips + photo <==> Error(AtActivity(i, j), p) in location)
  {
  }

  /** A `reviewLinks` array with a `null` element: reading `sourceName` of it throws. */
  predicate LinksThrow(act: Json) {
    var links := Get(act, "reviewLinks");
    && links.Some? && links.value.JArr?
    && exists m :: 0 <= m < |links.value.items| && links.value.items[m].JNull?
  }

  /** The `reviewLinks` check: skipped when absent or `null`, an error when not an array. */
  function ActivityLinkErrors(i: nat, j: nat, act: Json): (r: Option<seq<Error>>)
    ensures r.None? <==> LinksThrow(act)
    ensures r.Some? ==> forall e :: e in r.value ==>
      && (e.at == AtActivity(i, j) || (e.at.AtLink? && e.at.day == i && e.at.act == j))
      && e.problem.AboutLinks()
    ensures r.Some? ==>
      (Error(AtActivity(i, j), ReviewLinksNotArray) in r.value <==>
        Has(act, "reviewLinks") && !Get(act, "reviewLinks").value.JNull? && !Get(act, "reviewLinks").value.JArr?)
  {
    var links := Get(act, "reviewLinks");
    if !Has(act, "reviewLinks") || links.value.JNull? then Some([])
    else if !links.value.JArr? then Some([Error(AtActivity(i, j), ReviewLinksNotArray)])
    else ReviewLinksErrors(i, j, links.value.items, 0, {})
  }

  /** An activity the checks throw on: a primitive or `null`, or one with a `null` review link. */
  predicate ActivityThrows(act: Json) {
    !AllowsIn(act) || LinksThrow(act)
  }

  /** The duplicate-order check against the orders of the earlier activities of the day. */
  function OrderDuplicate(i: nat, j: nat, act: Json, orders: set<real>): (es: seq<Error>)
    ensures forall e :: e in es ==> e.at == AtActivity(i, j) && e.problem.DuplicateOrder?
    ensures forall o :: Error(AtActivity(i, j), DuplicateOrder(o)) in es <==> OrderOf(act) == Some(o) && o in orders
  {
    match OrderOf(act)
    case Some(o) => When(o in orders, Error(AtActivity(i, j), DuplicateOrder(o)))
    case None => []
  }

  /** The four parts of an activity's errors, joined in the order they are checked. */
  lemma ActivityPartsJoin(i: nat, j: nat, missing: seq<Error>, dup: seq<Error>, shape: seq<Error>, links: seq<Error>)
    requires forall e :: e in missing ==> e.at == AtActivity(i, j) && e.problem.ActivityMissingField?
    requires forall e :: e in dup ==> e.at == AtActivity(i, j) && e.problem.DuplicateOrder?
    requires forall e :: e in shape ==> e.at == AtActivity(i, j) && e.problem.AboutShape()
    requires forall e :: e in links ==>
      && (e.at == AtActivity(i, j) || (e.at.AtLink? && e.at.day == i && e.at.act == j))
      && e.problem.AboutLinks()
    ensures forall e :: e in missing + dup + shape + links ==> e.InActivity() && e.at.day == i && e.at.act == j
    ensures forall e :: e in missing + dup + shape + links && e.problem.DuplicateOrder? ==> e in dup
  {
  }

  /**
   * One iteration of the activity loop: the activity's errors and the
   * orders seen so far in this day.
   */
  function ActivityErrors(i: nat, j: nat, act: Json, orders: set<real>): (r: Option<(seq<Error>, set<real>)>)
    ensures r.None? <==> ActivityThrows(act)
    ensures r.Some? ==> forall e :: e in r.value.0 ==> e.InActivity() && e.at.day == i && e.at.act == j
    ensures r.Some? ==> r.value.1 == if OrderOf(act).Some? then orders + {OrderOf(act).value} else orders
    ensures r.Some? ==> forall o ::
      Error(AtActivity(i, j), DuplicateOrder(o)) in r.value.0 <==> OrderOf(act) == Some(o) && o in orders
  {
    if !AllowsIn(act) then None
    else
      var orders' := if OrderOf(act).Some? then orders + {OrderOf(act).value} else orders;
      var linkErrs := ActivityLinkErrors(i, j, act);
      if linkErrs.None? then None
      else
        var missing := ActivityMissingErrors(i, j, MissingOf(act, ActivityRequired));
        var dup := OrderDuplicate(i, j, act, orders);
        ActivityPartsJoin(i, j, missing, dup, ActivityShapeErrors(i, j, act), linkErrs.value);
        Some((missing + dup + ActivityShapeErrors(i, j, act) + linkErrs.value, orders'))
  }

  /** The activity loop of day `i` from index `j` on. */
  function ActivitiesErrors(i: nat, acts: seq<Json>, j: nat, orders: set<real>): (r: Option<seq<Error>>)
    requires j <= |acts|
    ensures r.None? <==> exists m :: j <= m < |acts| && ActivityThrows(acts[m])
    ensures r.Some? ==> forall e :: e in r.value ==> e.InActivity() && e.at.day == i && j <= e.at.act < |acts|
    decreases |acts| - j
  {
    if j == |acts| then Some([])
    else match ActivityErrors(i, j, acts[j], orders)
      case None => None
      case Some((es, orders')) =>
        match ActivitiesErrors(i, acts, j + 1, orders')
        case None => None
        case Some(rest) => Some(es + rest)
  }
}

=== FILE: validation_days.dfy ===
/** The per-day checks and the day loop. */
module ValidationDays {
  import opened Wrappers
  import opened Json
  import opened Text
  import opened ValidationErrors
  import opened ValidationActivities

  function DayNumberOf(day: Json): Option<real> {
    var n := Get(day, "dayNumber");
    if IsNumber(n) then Some(n.value.n) else None
  }

  /** The day's `hotel` when it is a plain object. */
  function HotelObject(day: Json): (h: Option<Json>)
    ensures h.Some? ==> h.value.JObj?
  {
    var h := Get(day, "hotel");
    if PlainObject(h) then h else None
  }

  /** The `location` of the day's hotel when both are plain objects. */
  function HotelLocationObject(day: Json): (l: Option<Json>)
    ensures l.Some? ==> HotelObject(day).Some? && l.value.JObj?
  {
    match HotelObject(day)
    case None => None
    case Some(h) =>
      var l := Get(h, "location");
      if PlainObject(l) then l else None
  }

  /** The `hotel` check of day `i`, run only when the day has the key. */
  function HotelErrors(i: nat, day: Json): (es: seq<Error>)
    ensures forall e :: e in es ==> e.at == AtDay(i) && e.problem.AboutHotel()
    ensures Error(AtDay(i), HotelNotObject) in es <==> Has(day, "hotel") && HotelObject(day).None?
    ensures Error(AtDay(i), HotelNameInvalid) in es <==>
      HotelObject(day).Some? && !NonBlankString(Get(HotelObject(day).value, "name"))
    ensures Error(AtDay(i), HotelLocationInvalid) in es <==>
      HotelObject(day).Some? && HotelLocationObject(day).None?
    ensures Error(AtDay(i), HotelLatInvalid) in es <==>
      HotelLocationObject(day).Some? && !IsNumber(Get(HotelLocationObject(day).value, "lat"))
    ensures Error(AtDay(i), HotelLngInvalid) in es <==>
      HotelLocationObject(day).Some? && !IsNumber(Get(HotelLocationObject(day).value, "lng"))
    ensures Error(AtDay(i), HotelMapsUrlInvalid) in es <==>
      HotelLocationObject(day).Some? && !NonBlankString(Get(HotelLocationObject(day).value, "mapsUrl"))
  {
    if !Has(day, "hotel") then []
    else
      var hotel := Get(day, "hotel");
      if !PlainObject(hotel) then [Error(AtDay(i), HotelNotObject)]
      else
        var loc := Get(hotel.value, "location");
        var name := When(!NonBlankString(Get(hotel.value, "name")), Error(AtDay(i), HotelNameInvalid));
        name + HotelLocationErrors(i, loc)
  }

  /** The checks of a hotel's `location`. */
  function HotelLocationErrors(i: nat, loc: Option<Json>): (es: seq<Error>)
    ensures forall e :: e in es ==> e.at == AtDay(i) && e.problem.AboutHotel()
    ensures Error(AtDay(i), HotelNotObject) !in es && Error(AtDay(i), HotelNameInvalid) !in es
    ensures Error(AtDay(i), HotelLocationInvalid) in es <==> !PlainObject(loc)
    ensures Error(AtDay(i), HotelLatInvalid) in es <==> PlainObject(loc) && !IsNumber(Get(loc.value, "lat"))
    ensures Error(AtDay(i), HotelLngInvalid) in es <==> PlainObject(loc) && !IsNumber(Get(loc.value, "lng"))
    ensures Error(AtDay(i), HotelMapsUrlInvalid) in es <==>
      PlainObject(loc) && !NonBlankString(Get(loc.value, "mapsUrl"))
  {
    if !PlainObject(loc) then [Error(AtDay(i), HotelLocationInvalid)]
    else
      When(!IsNumber(Get(loc.value, "lat")), Error(AtDay(i), HotelLatInvalid))
      + When(!IsNumber(Get(loc.value, "lng")), Error(AtDay(i), HotelLngInvalid))
      + When(!NonBlankString(Get(loc.value, "mapsUrl")), Error(AtDay(i), HotelMapsUrlInvalid))
  }

  function DayMissingErrors(i: nat, m: seq<string>): (es: seq<Error>)
    ensures |es| == |m|
    ensures forall k :: 0 <= k < |m| ==> es[k] == Error(AtDay(i), DayMissingField(m[k]))
  {
    seq(|m|, k requires 0 <= k < |m| => Error(AtDay(i), DayMissingField(m[k])))
  }

  /** The activity loop of day `i`, run only when `activities` is an array. */
  function DayActivitiesErrors(i: nat, day: Json): (r: Option<seq<Error>>)
    ensures r.Some? ==> forall e :: e in r.value ==> e.InActivity() && e.at.day == i
  {
    var acts := Get(day, "activities");
    if IsArray(acts) then ActivitiesErrors(i, acts.value.items, 0, {}) else Some([])
  }

  /** A day the checks throw on: a primitive or `null`, or one holding an activity they throw on. */
  predicate DayThrows(day: Json) {
    var acts := Get(day, "activities");
    || !AllowsIn(day)
    || (IsArray(acts) && exists m :: 0 <= m < |acts.value.items| && ActivityThrows(acts.value.items[m]))
  }

  /** The duplicate-day-number check against the day numbers of the earlier days. */
  function DayNumberDuplicate(i: nat, day: Json, seen: set<real>): (es: seq<Error>)
    ensures forall e :: e in es ==> e.at == AtDay(i) && e.problem.DuplicateDayNumber?
    ensures forall n :: Error(AtDay(i), DuplicateDayNumber(n)) in es <==> DayNumberOf(day) == Some(n) && n in seen
  {
    match DayNumberOf(day)
    case Some(n) => When(n in seen, Error(AtDay(i), DuplicateDayNumber(n)))
    case None => []
  }

  /** The four parts of a day's errors, joined in the order they are checked. */
  lemma DayPartsJoin(i: nat, missing: seq<Error>, dup: seq<Error>, hotel: seq<Error>, acts: seq<Error>)
    requires forall e :: e in missing ==> e.at == AtDay(i) && e.problem.DayMissingField?
    requires forall e :: e in dup ==> e.at == AtDay(i) && e.problem.DuplicateDayNumber?
    requires forall e :: e in hotel ==> e.at == AtDay(i) && e.problem.AboutHotel()
    requires forall e :: e in acts ==> e.InActivity() && e.at.day == i
    ensures forall e :: e in missing + dup + hotel + acts ==> e.InDay() && e.at.day == i
    ensures forall e :: e in missing + dup + hotel + acts && e.at == AtDay(i) && e.problem.DuplicateDayNumber? ==> e in dup
  {
  }

  /**
   * One iteration of the day loop: the day's errors and the set of day
   * numbers seen so far; `None` when the checks throw.
   */
  function DayErrors(i: nat, day: Json, seen: set<real>): (r: Option<(seq<Error>, set<real>)>)
    ensures r.None? <==> DayThrows(day)
    ensures r.Some? ==> forall e :: e in r.value.0 ==> e.InDay() && e.at.day == i
    ensures r.Some? ==> r.value.1 == if DayNumberOf(day).Some? then seen + {DayNumberOf(day).value} else seen
    ensures r.Some? ==> forall n ::
      Error(AtDay(i), DuplicateDayNumber(n)) in r.value.0 <==> DayNumberOf(day) == Some(n) && n in seen
  {
    if !AllowsIn(day) then None
    else
      var seen' := if DayNumberOf(day).Some? then seen + {DayNumberOf(day).value} else seen;
      var actErrs := DayActivitiesErrors(i, day);
      if actErrs.None? then None
      else
        var missing := DayMissingErrors(i, MissingOf(day, DayRequired));
        var dup := DayNumberDuplicate(i, day, seen);
        DayPartsJoin(i, missing, dup, HotelErrors(i, day), actErrs.value);
        Some((missing + dup + HotelErrors(i, day) + actErrs.value, seen'))
  }

  /** The day loop from index `i` on, with the day numbers of the earlier days in `seen`. */
  function DaysErrors(days: seq<Json>, i: nat, seen: set<real>): (r: Option<seq<Error>>)
    requires i <= |days|
    ensures r.Some? ==> forall e :: e in r.value ==> e.InDay() && i <= e.at.day < |days|
    ensures r.None? <==> exists m :: i <= m < |days| && DayThrows(days[m])
    decreases |days| - i
  {
    if i == |days| then Some([])
    else match DayErrors(i, days[i], seen)
      case None => None
      case Some((es, seen')) =>
        match DaysErrors(days, i + 1, seen')
        case None => None
        case Some(rest) => Some(es + rest)
  }
}

=== FILE: validation_errors.dfy ===
/**
 * The vocabulary of `validateItinerary` (assets/scripts/modules/validation.js):
 * the required field lists, the structured errors it reports and the small
 * value checks it repeats.
 */
module ValidationErrors {
  import opened Wrappers
  import opened Json
  import opened Text
  import opened Seqs

  const Required: seq<string> := ["schemaVersion", "tripId", "title", "days"]
  const DayRequired: seq<string> := ["dayId", "dayNumber", "label", "activities"]
  const ActivityRequired: seq<string> := [
    "activityId", "order", "name", "description", "image", "location",
    "price", "tips", "photoSpotTips", "ratingSummary", "reviewLinks", "websiteUrl"]
  const SchemaVersion: string := "1.0"

  /** What an error is about: the whole itinerary, or one day, activity or review link by index. */
  datatype Where =
    | TopLevel
    | AtDay(day: nat)
    | AtActivity(day: nat, act: nat)
    | AtLink(day: nat, act: nat, link: nat)

  /** The check that failed; the indices live in `Where`. */
  datatype Problem =
    | NotAnObject
    | MissingField(field: string)
    | BadSchemaVersion(got: Json)
    | BadTripId
    | BadTitle
    | BadDateRange
    | MissingDateStart
    | MissingDateEnd
    | DateRangeReversed
    | DaysNotArray
    | DaysEmpty
    | DayMissingField(field: string)
    | DuplicateDayNumber(dayNumber: real)
    | HotelNotObject
    | HotelNameInvalid
    | HotelLocationInvalid
    | HotelLatInvalid
    | HotelLngInvalid
    | HotelMapsUrlInvalid
    | ActivityMissingField(field: string)
    | DuplicateOrder(order: real)
    | ImageMissingUrl
    | ImageMissingAlt
    | ImageNotObject
    | LocationMissingMapsUrl
    | LocationNotObject
    | TipsInvalid
    | PhotoSpotTipsInvalid
    | ReviewLinksNotArray
    | ReviewLinkIncomplete
    | DuplicateSourceName(name: Json)
  {
    /** The checks of a day's `hotel`. */
    predicate AboutHotel() {
      || HotelNotObject? || HotelNameInvalid? || HotelLocationInvalid? || HotelLatInvalid?
      || HotelLngInvalid? || HotelMapsUrlInvalid?
    }

    predicate AboutImage() {
      ImageMissingUrl? || ImageMissingAlt? || ImageNotObject?
    }

    predicate AboutLocation() {
      LocationMissingMapsUrl? || LocationNotObject?
    }

    /** The checks of an activity's `image`, `location`, `tips` and `photoSpotTips`. */
    predicate AboutShape() {
      AboutImage() || AboutLocation() || TipsInvalid? || PhotoSpotTipsInvalid?
    }

    /** The checks of an activity's `reviewLinks`. */
    predicate AboutLinks() {
      ReviewLinksNotArray? || ReviewLinkIncomplete? || DuplicateSourceName?
    }

    /** The checks of the top-level `dateRange`. */
    predicate AboutDates() {
      BadDateRange? || MissingDateStart? || MissingDateEnd? || DateRangeReversed?
    }
  }

  /** One reported problem: one message of the source's error list. */
  datatype Error = Error(at: Where, problem: Problem)
  {
    /** Errors about one day (or something inside it). */
    predicate InDay() {
      !at.TopLevel?
    }

    /** Errors about one activity (or one of its review links). */
    predicate InActivity() {
      at.AtActivity? || at.AtLink?
    }

    /** Errors from the top-level checks after the required fields. */
    predicate InHeader() {
      && at.TopLevel?
      && (|| problem.BadSchemaVersion? || problem.BadTripId? || problem.BadTitle? || problem.BadDateRange?
          || problem.MissingDateStart? || problem.MissingDateEnd? || problem.DateRangeReversed?)
    }
  }

  datatype Validated = Checked(errors: seq<Error>) | TypeError

  /** The fields of `fields` that `key in j` reports absent, in list order. */
  function MissingOf(j: Json, fields: seq<string>): (m: seq<string>)
    ensures |m| <= |fields|
    ensures forall f :: f in m <==> f in fields && !Has(j, f)
    ensures Subsequence(m, fields)
    ensures NoRepeats(fields) ==> NoRepeats(m)
  {
    if |fields| == 0 then []
    else if Has(j, fields[0]) then MissingOf(j, fields[1..])
    else [fields[0]] + MissingOf(j, fields[1..])
  }

  /** `typeof v === "string" && v.length > 0`. */
  predicate NonEmptyString(p: Option<Json>) {
    IsString(p) && |p.value.s| > 0
  }

  /** `typeof v === "string" && v.trim().length > 0`. */
  predicate NonBlankString(p: Option<Json>) {
    IsString(p) && !IsBlank(p.value.s)
  }

  /** A plain (non-array) object, as `!v || typeof v !== "object" || Array.isArray(v)` rejects. */
  predicate PlainObject(p: Option<Json>) {
    p.Some? && p.value.JObj?
  }

  /** A present `field` that is neither an object nor an array (`null` included). */
  predicate NotObjectIn(act: Json, field: string) {
    Has(act, field) && !AllowsIn(Get(act, field).value)
  }

  /** A present object or array `field` whose `key` is absent or falsy. */
  predicate LacksIn(act: Json, field: string, key: string) {
    Has(act, field) && AllowsIn(Get(act, field).value) && !TruthyProp(Get(Get(act, field).value, key))
  }

  /** A value `Set.has` can find again: a primitive. Objects and arrays compare by identity and each parsed one is new. */
  predicate Primitive(j: Json) {
    !j.JArr? && !j.JObj?
  }

  function When(c: bool, e: Error): (es: seq<Error>)
    ensures es == if c then [e] else []
  {
    if c then [e] else []
  }
}

=== FILE: validation_links.dfy ===
/** The `reviewLinks` loop of one activity. */
module ValidationLinks {
  import opened Wrappers
  import opened Json
  import opened Text
  import opened ValidationErrors

  /** The `sourceName` a duplicate check can match: truthy and primitive. */
  function SourceNameKey(link: Json): Option<Json> {
    var sn := Get(link, "sourceName");
    if TruthyProp(sn) && Primitive(sn.value) then Some(sn.value) else None
  }

  /** One review link: `None` for `null` (reading a property of it throws). */
  function LinkErrors(i: nat, j: nat, k: nat, link: Json, names: set<Json>): (r: Option<(seq<Error>, set<Json>)>)
    ensures r.None? <==> link.JNull?
    ensures r.Some? ==> forall e :: e in r.value.0 ==>
      e.at == AtLink(i, j, k) && (e.problem == ReviewLinkIncomplete || e.problem.DuplicateSourceName?)
    ensures r.Some? ==> r.value.1 == if SourceNameKey(link).Some? then names + {SourceNameKey(link).value} else names
    ensures r.Some? ==> forall n ::
      Error(AtLink(i, j, k), DuplicateSourceName(n)) in r.value.0 <==> SourceNameKey(link) == Some(n) && n in names
    ensures r.Some? ==>
      (Error(AtLink(i, j, k), ReviewLinkIncomplete) in r.value.0 <==>
        !TruthyProp(Get(link, "sourceName")) || !TruthyProp(Get(link, "url")))
  {
    if link.JNull? then None
    else
      var here := AtLink(i, j, k);
      var incomplete := When(!TruthyProp(Get(link, "sourceName")) || !TruthyProp(Get(link, "url")),
        Error(here, ReviewLinkIncomplete));
      match SourceNameKey(link)
      case Some(n) => Some((incomplete + When(n in names, Error(here, DuplicateSourceName(n))), names + {n}))
      case None => Some((incomplete, names))
  }

  /** The review-link loop of activity `j` of day `i` from index `k` on. */
  function ReviewLinksErrors(i: nat, j: nat, links: seq<Json>, k: nat, names: set<Json>): (r: Option<seq<Error>>)
    requires k <= |links|
    ensures r.None? <==> exists m :: k <= m < |links| && links[m].JNull?
    ensures r.Some? ==> forall e :: e in r.value ==>
      && e.at.AtLink? && e.at.day == i && e.at.act == j && k <= e.at.link < |links|
      && (e.problem == ReviewLinkIncomplete || e.problem.DuplicateSourceName?)
    decreases |links| - k
  {
    if k == |links| then Some([])
    else match LinkErrors(i, j, k, links[k], names)
      case None => None
      case Some((es, names')) =>
        match ReviewLinksErrors(i, j, links, k + 1, names')
        case None => None
        case Some(rest) => Some(es + rest)
  }
}

=== FILE: validation_properties.dfy ===
/** What `validateItinerary` reports, stated against the itinerary's own shape. */
module ValidationProperties {
  import opened Wrappers
  import opened Json
  import opened Text
  import opened Seqs
  import opened ValidationErrors
  import opened ValidationLinks
  import opened ValidationActivities
  import opened ValidationDays
  import opened Validation

  /** The itinerary got past the object, required-field and `days`-is-an-array checks. */
  predicate ReachesDays(data: Json) {
    data.JObj? && |MissingOf(data, Required)| == 0 && IsArray(Get(data, "days"))
  }

  function Days(data: Json): seq<Json>
    requires ReachesDays(data)
  {
    Get(data, "days").value.items
  }

  /** A day's `activities` when it is an array. */
  function ActivitiesOf(day: Json): Option<seq<Json>> {
    var acts := Get(day, "activities");
    if IsArray(acts) then Some(acts.value.items) else None
  }

  /** An activity's `reviewLinks` when it is an array. */
  function LinksOf(act: Json): Option<seq<Json>> {
    var links := Get(act, "reviewLinks");
    if links.Some? && links.value.JArr? then Some(links.value.items) else None
  }

  /**
   * A missing required top-level field ends validation: the result is one
   * `MissingField` per absent field, in the order the fields are listed,
   * and nothing else.
   */
  lemma MissingFieldsOnly(data: Json, earlier: (Json, Json) -> bool)
    requires data.JObj? && |MissingOf(data, Required)| > 0
    ensures var v := Validate(data, earlier);
      && v.Checked?
      && |v.errors| == |MissingOf(data, Required)|
      && (forall k :: 0 <= k < |v.errors| ==> v.errors[k] == Top(MissingField(MissingOf(data, Required)[k])))
      && (forall f :: Top(MissingField(f)) in v.errors <==> f in Required && !Has(data, f))
      && NoRepeats(v.errors)
      && Subsequence(v.errors, MissingFieldErrors(Required))
  {
    var m := MissingOf(data, Required);
    var v := Validate(data, earlier);
    assert NoRepeats(Required);
    MissingErrorsFollow(m, Required);
    forall f ensures Top(MissingField(f)) in v.errors <==> f in m {
      if f in m {
        var k :| 0 <= k < |m| && m[k] == f;
        assert v.errors[k] == Top(MissingField(f));
      }
    }
  }

  /** Reporting each of a subsequence of fields gives a subsequence of the reports. */
  lemma {:induction false} MissingErrorsFollow(m: seq<string>, fields: seq<string>)
    requires Subsequence(m, fields)
    ensures Subsequence(MissingFieldErrors(m), MissingFieldErrors(fields))
    decreases |fields|
  {
    var em, ef := MissingFieldErrors(m), MissingFieldErrors(fields);
    if |m| > 0 {
      assert MissingFieldErrors(fields[1..]) == ef[1..];
      if m[0] == fields[0] && Subsequence(m[1..], fields[1..]) {
        MissingErrorsFollow(m[1..], fields[1..]);
        assert MissingFieldErrors(m[1..]) == em[1..];
      } else {
        MissingErrorsFollow(m, fields[1..]);
      }
    }
  }

  /**
   * Once every required field is present, the result starts with the
   * header errors and nothing after them is a header error.
   */
  lemma HeaderComesFirst(data: Json, earlier: (Json, Json) -> bool)
    requires data.JObj? && |MissingOf(data, Required)| == 0
    requires Validate(data, earlier).Checked?
    ensures var errs := Validate(data, earlier).errors;
      var header := HeaderErrors(data, earlier);
      && |header| <= |errs| && errs[..|header|] == header
      && forall e :: e in errs[|header|..] ==> !e.InHeader()
  {
    var header := HeaderErrors(data, earlier);
    assert Truthy(data) && IsObjectType(data) && !data.JArr?;
    var dc := DaysCheck(Get(data, "days").value);
    assert dc.Some?;
    var tail := dc.value;
    assert Validate(data, earlier).errors == header + tail;
    SplitAt(header, tail);
  }

  /** A concatenation splits back into its two parts. */
  lemma SplitAt<T>(a: seq<T>, b: seq<T>)
    ensures (a + b)[..|a|] == a && (a + b)[|a|..] == b
  {
  }

  /**
   * Once every required field is present, `schemaVersion`, `tripId` and
   * `title` each add their error exactly when their own check fails.
   */
  lemma HeaderChecksExactly(data: Json, earlier: (Json, Json) -> bool)
    requires data.JObj? && |MissingOf(data, Required)| == 0
    requires Validate(data, earlier).Checked?
    ensures var errs := Validate(data, earlier).errors;
      && (Top(BadTripId) in errs <==> !NonEmptyString(Get(data, "tripId")))
      && (Top(BadTitle) in errs <==> !NonEmptyString(Get(data, "title")))
      && (Top(BadSchemaVersion(Get(data, "schemaVersion").value)) in errs <==>
            Get(data, "schemaVersion").value != JStr(SchemaVersion))
      && (forall g :: Top(BadSchemaVersion(g)) in errs ==> g == Get(data, "schemaVersion").value)
  {
    HeaderComesFirst(data, earlier);
    var header := HeaderErrors(data, earlier);
    var errs := Validate(data, earlier).errors;
    assert errs == header + errs[|header|..];
    forall e: Error | e.InHeader() ensures e in errs <==> e in header {
      assert e in errs[|header|..] ==> !e.InHeader();
    }
    assert Has(data, "schemaVersion") by { assert "schemaVersion" in Required; }
  }

  /**
   * Once every required field is present, the optional `dateRange` is
   * reported as malformed when present but not an object or array, as
   * missing `start` or `end` when either is absent or falsy, and as
   * reversed when both are there and the end comes before the start.
   */
  lemma DateRangeChecksExactly(data: Json, earlier: (Json, Json) -> bool)
    requires data.JObj? && |MissingOf(data, Required)| == 0
    requires Validate(data, earlier).Checked?
    ensures var errs := Validate(data, earlier).errors;
      && (Top(BadDateRange) in errs <==> NotObjectIn(data, "dateRange"))
      && (Top(MissingDateStart) in errs <==> LacksIn(data, "dateRange", "start"))
      && (Top(MissingDateEnd) in errs <==> LacksIn(data, "dateRange", "end"))
      && (Top(DateRangeReversed) in errs <==>
            && Has(data, "dateRange") && AllowsIn(Get(data, "dateRange").value)
            && var dr := Get(data, "dateRange").value;
            && TruthyProp(Get(dr, "start")) && TruthyProp(Get(dr, "end"))
            && earlier(Get(dr, "end").value, Get(dr, "start").value))
  {
    HeaderComesFirst(data, earlier);
    var header := HeaderErrors(data, earlier);
    var errs := Validate(data, earlier).errors;
    assert errs == header + errs[|header|..];
    forall e: Error | e.InHeader() ensures e in errs <==> e in header {
      assert e in errs[|header|..] ==> !e.InHeader();
    }
  }

  /**
   * A `days` value that is not an array, or an empty array, ends validation
   * with its own error as the last one: no day is looked at.
   */
  lemma DaysCheckStops(data: Json, earlier: (Json, Json) -> bool)
    requires data.JObj? && |MissingOf(data, Required)| == 0
    requires var days := Get(data, "days").value; !days.JArr? || |days.items| == 0
    ensures Validate(data, earlier) ==
      Checked(HeaderErrors(data, earlier) + [Top(if Get(data, "days").value.JArr? then DaysEmpty else DaysNotArray)])
  {
  }

  /** Irreflexivity of the date order: no date is before itself. */
  ghost predicate Irreflexive(earlier: (Json, Json) -> bool) {
    forall a :: !earlier(a, a)
  }

  /** An end date before the start date is reported; equal dates are accepted. */
  lemma DateOrderChecked(data: Json, earlier: (Json, Json) -> bool)
    requires Has(data, "dateRange")
    requires var dr := Get(data, "dateRange").value;
      Truthy(dr) && IsObjectType(dr) && TruthyProp(Get(dr, "start")) && TruthyProp(Get(dr, "end"))
    ensures var dr := Get(data, "dateRange").value;
      Top(DateRangeReversed) in DateRangeErrors(data, earlier) <==>
        earlier(Get(dr, "end").value, Get(dr, "start").value)
    ensures var dr := Get(data, "dateRange").value;
      Irreflexive(earlier) && Get(dr, "end") == Get(dr, "start") ==> DateRangeErrors(data, earlier) == []
  {
  }

  /** A result that stops before the header checks holds no error about a day. */
  lemma NoDayErrorBeforeHeader(data: Json, earlier: (Json, Json) -> bool, e: Error)
    requires !(data.JObj? && |MissingOf(data, Required)| == 0)
    requires e.InDay()
    ensures Validate(data, earlier).Checked? && e !in Validate(data, earlier).errors
  {
    if !Truthy(data) || !IsObjectType(data) || data.JArr? {
      assert Validate(data, earlier).errors == [Top(NotAnObject)];
    } else {
      assert Validate(data, earlier).errors == MissingFieldErrors(MissingOf(data, Required));
    }
  }

  /**
   * An error about a day is in the result exactly when the day loop
   * produced it: every earlier stage reports only other kinds.
   */
  lemma DayErrorInResult(data: Json, earlier: (Json, Json) -> bool, e: Error)
    requires Validate(data, earlier).Checked?
    requires e.InDay()
    ensures e in Validate(data, earlier).errors <==>
      ReachesDays(data) && DaysErrors(Days(data), 0, {}).Some? && e in DaysErrors(Days(data), 0, {}).value
  {
    if !(data.JObj? && |MissingOf(data, Required)| == 0) {
      NoDayErrorBeforeHeader(data, earlier, e);
    } else {
      var errs := Validate(data, earlier).errors;
      var header := HeaderErrors(data, earlier);
      var days := Get(data, "days").value;
      if !days.JArr? || |days.items| == 0 {
        DaysCheckStops(data, earlier);
      } else {
        DaysChecked(data, earlier);
      }
    }
  }

  /** With a non-empty `days` array, the result is the header errors followed by the day loop's. */
  lemma DaysChecked(data: Json, earlier: (Json, Json) -> bool)
    requires ReachesDays(data) && |Days(data)| > 0
    requires Validate(data, earlier).Checked?
    ensures DaysErrors(Days(data), 0, {}).Some?
    ensures Validate(data, earlier).errors == HeaderErrors(data, earlier) + DaysErrors(Days(data), 0, {}).value
  {
  }

  // --- duplicate day numbers ---

  /** One turn of the loop: this element's errors, then the rest of the loop. */
  lemma DaysErrorsStep(days: seq<Json>, i: nat, seen: set<real>)
    requires i < |days| && DaysErrors(days, i, seen).Some?
    ensures var r := DayErrors(i, days[i], seen).value;
      && DaysErrors(days, i + 1, r.1).Some?
      && DaysErrors(days, i, seen).value == r.0 + DaysErrors(days, i + 1, r.1).value
  {
  }

  /** One turn of the day loop, seen from one duplicate-day-number error. */
  lemma DaysDuplicateStep(days: seq<Json>, i: nat, seen: set<real>, k: nat, n: real)
    requires i < |days| && DaysErrors(days, i, seen).Some?
    ensures var r := DayErrors(i, days[i], seen).value;
      && DaysErrors(days, i + 1, r.1).Some?
      && (n in r.1 <==> n in seen || DayNumberOf(days[i]) == Some(n))
      && (Error(AtDay(k), DuplicateDayNumber(n)) in DaysErrors(days, i, seen).value <==>
            (k == i && DayNumberOf(days[i]) == Some(n) && n in seen)
            || Error(AtDay(k), DuplicateDayNumber(n)) in DaysErrors(days, i + 1, r.1).value)
  {
    DaysErrorsStep(days, i, seen);
    var r := DayErrors(i, days[i], seen).value;
    if k != i {
      assert Error(AtDay(k), DuplicateDayNumber(n)) !in r.0;
    }
  }

  /** Some day in `days[i..k]` has the day number `n`. */
  predicate NumberAmong(days: seq<Json>, i: nat, k: nat, n: real)
    requires i <= k <= |days|
  {
    exists m :: i <= m < k && DayNumberOf(days[m]) == Some(n)
  }

  /** An earlier day with the key is either the first one looked at or a later one. */
  lemma DayNumberBeforeStep(days: seq<Json>, i: nat, k: nat, n: real)
    requires i < k <= |days|
    ensures NumberAmong(days, i, k, n) <==> DayNumberOf(days[i]) == Some(n) || NumberAmong(days, i + 1, k, n)
  {
    if NumberAmong(days, i, k, n) {
      var m :| i <= m < k && DayNumberOf(days[m]) == Some(n);
      assert m == i || (i + 1 <= m < k && DayNumberOf(days[m]) == Some(n));
    }
  }

  lemma {:induction false} DaysDuplicateDayNumbers(days: seq<Json>, i: nat, seen: set<real>, k: nat, n: real)
    requires i <= |days| && DaysErrors(days, i, seen).Some?
    ensures Error(AtDay(k), DuplicateDayNumber(n)) in DaysErrors(days, i, seen).value <==>
      i <= k < |days| && DayNumberOf(days[k]) == Some(n) && (n in seen || NumberAmong(days, i, k, n))
    decreases |days| - i
  {
    if i < |days| {
      DaysDuplicateStep(days, i, seen, k, n);
      var r := DayErrors(i, days[i], seen).value;
      DaysDuplicateDayNumbers(days, i + 1, r.1, k, n);
      if i < k < |days| {
        DayNumberBeforeStep(days, i, k, n);
      }
    }
  }

  /**
   * A day is reported as a duplicate exactly when its numeric `dayNumber`
   * appeared on an earlier day.
   */
  lemma DuplicateDayNumberExactly(data: Json, earlier: (Json, Json) -> bool, k: nat, n: real)
    requires Validate(data, earlier).Checked?
    ensures Error(AtDay(k), DuplicateDayNumber(n)) in Validate(data, earlier).errors <==>
      && ReachesDays(data) && k < |Days(data)| && DayNumberOf(Days(data)[k]) == Some(n)
      && NumberAmong(Days(data), 0, k, n)
  {
    DayErrorInResult(data, earlier, Error(AtDay(k), DuplicateDayNumber(n)));
    if ReachesDays(data) && DaysErrors(Days(data), 0, {}).Some? {
      DaysDuplicateDayNumbers(Days(data), 0, {}, k, n);
    }
  }

  // --- errors about one day, lifted through the day loop ---

  /** The day's own checks report `e`: a missing required field, or a `hotel` error. */
  predicate DayReportedFor(e: Error, day: Json)
    requires e.at.AtDay?
  {
    || (e.problem.DayMissingField? && e.problem.field in DayRequired && !Has(day, e.problem.field))
    || e in HotelErrors(e.at.day, day)
  }

  lemma DayMissingExactly(i: nat, m: seq<string>, e: Error)
    ensures e in DayMissingErrors(i, m) <==>
      e.at == AtDay(i) && e.problem.DayMissingField? && e.problem.field in m
  {
    var es := DayMissingErrors(i, m);
    if e.at == AtDay(i) && e.problem.DayMissingField? && e.problem.field in m {
      var k :| 0 <= k < |m| && m[k] == e.problem.field;
      assert es[k] == e;
    }
  }

  lemma {:induction false} DaysErrorsDayLevel(days: seq<Json>, i: nat, seen: set<real>, e: Error)
    requires i <= |days| && DaysErrors(days, i, seen).Some?
    requires e.at.AtDay? && !e.problem.DuplicateDayNumber?
    ensures e in DaysErrors(days, i, seen).value <==>
      i <= e.at.day < |days| && DayReportedFor(e, days[e.at.day])
    decreases |days| - i
  {
    if i < |days| {
      DaysErrorsStep(days, i, seen);
      var r := DayErrors(i, days[i], seen).value;
      DaysErrorsDayLevel(days, i + 1, r.1, e);
      var day := days[i];
      var m := MissingOf(day, DayRequired);
      var dup := DayNumberDuplicate(i, day, seen);
      var acts := DayActivitiesErrors(i, day).value;
      assert r.0 == DayMissingErrors(i, m) + dup + HotelErrors(i, day) + acts;
      assert e !in dup && e !in acts;
      DayMissingExactly(i, m, e);
    }
  }

  /** Day `k`, when validation reaches the day loop and the day exists. */
  function DayAt(data: Json, k: nat): Option<Json> {
    if ReachesDays(data) && k < |Days(data)| then Some(Days(data)[k]) else None
  }

  /**
   * An error about a day itself, other than a duplicate day number, is in
   * the result exactly when that day's own checks report it.
   */
  lemma DayErrorAt(data: Json, earlier: (Json, Json) -> bool, e: Error)
    requires Validate(data, earlier).Checked?
    requires e.at.AtDay? && !e.problem.DuplicateDayNumber?
    ensures e in Validate(data, earlier).errors <==>
      DayAt(data, e.at.day).Some? && DayReportedFor(e, DayAt(data, e.at.day).value)
  {
    DayErrorInResult(data, earlier, e);
    if ReachesDays(data) {
      if |Days(data)| > 0 {
        DaysChecked(data, earlier);
        DaysErrorsDayLevel(Days(data), 0, {}, e);
      }
    }
  }

  /** A required day field is reported missing exactly when the reached day lacks the key. */
  lemma DayMissingFieldExactly(data: Json, earlier: (Json, Json) -> bool, k: nat, f: string)
    requires Validate(data, earlier).Checked?
    ensures Error(AtDay(k), DayMissingField(f)) in Validate(data, earlier).errors <==>
      DayAt(data, k).Some? && f in DayRequired && !Has(DayAt(data, k).value, f)
  {
    DayErrorAt(data, earlier, Error(AtDay(k), DayMissingField(f)));
  }

  /**
   * The `hotel` of a reached day: each of its six problems is reported
   * exactly when its own condition holds, and the field checks run only
   * under a plain-object hotel (and location).
   */
  lemma HotelExactly(data: Json, earlier: (Json, Json) -> bool, k: nat)
    requires Validate(data, earlier).Checked?
    ensures var errs := Validate(data, earlier).errors; var day := DayAt(data, k);
      && (Error(AtDay(k), HotelNotObject) in errs <==>
            day.Some? && Has(day.value, "hotel") && HotelObject(day.value).None?)
      && (Error(AtDay(k), HotelNameInvalid) in errs <==>
            day.Some? && HotelObject(day.value).Some? && !NonBlankString(Get(HotelObject(day.value).value, "name")))
      && (Error(AtDay(k), HotelLocationInvalid) in errs <==>
            day.Some? && HotelObject(day.value).Some? && HotelLocationObject(day.value).None?)
      && (Error(AtDay(k), HotelLatInvalid) in errs <==>
            day.Some? && HotelLocationObject(day.value).Some?
            && !IsNumber(Get(HotelLocationObject(day.value).value, "lat")))
      && (Error(AtDay(k), HotelLngInvalid) in errs <==>
            day.Some? && HotelLocationObject(day.value).Some?
            && !IsNumber(Get(HotelLocationObject(day.value).value, "lng")))
      && (Error(AtDay(k), HotelMapsUrlInvalid) in errs <==>
            day.Some? && HotelLocationObject(day.value).Some?
            && !NonBlankString(Get(HotelLocationObject(day.value).value, "mapsUrl")))
  {
    DayErrorAt(data, earlier, Error(AtDay(k), HotelNotObject));
    DayErrorAt(data, earlier, Error(AtDay(k), HotelNameInvalid));
    DayErrorAt(data, earlier, Error(AtDay(k), HotelLocationInvalid));
    DayErrorAt(data, earlier, Error(AtDay(k), HotelLatInvalid));
    DayErrorAt(data, earlier, Error(AtDay(k), HotelLngInvalid));
    DayErrorAt(data, earlier, Error(AtDay(k), HotelMapsUrlInvalid));
  }

  // --- errors about activities, lifted through the day loop ---

  lemma {:induction false} DaysErrorsActivityLevel(days: seq<Json>, i: nat, seen: set<real>, e: Error)
    requires i <= |days| && DaysErrors(days, i, seen).Some?
    requires e.InActivity()
    ensures e in DaysErrors(days, i, seen).value <==>
      i <= e.at.day < |days| && DayActivitiesErrors(e.at.day, days[e.at.day]).Some?
      && e in DayActivitiesErrors(e.at.day, days[e.at.day]).value
    decreases |days| - i
  {
    if i < |days| {
      DaysErrorsStep(days, i, seen);
      var r := DayErrors(i, days[i], seen).value;
      var es := r.0;
      DaysErrorsActivityLevel(days, i + 1, r.1, e);
      var day := days[i];
      var missing := DayMissingErrors(i, MissingOf(day, DayRequired));
      var dup := DayNumberDuplicate(i, day, seen);
      var acts := DayActivitiesErrors(i, day).value;
      assert es == missing + dup + HotelErrors(i, day) + acts;
      assert e !in missing;
      assert e !in dup;
      assert e !in HotelErrors(i, day);
    }
  }

  /** The checks of one activity that do not depend on the other activities. */
  predicate ReportedFor(e: Error, act: Json)
    requires e.InActivity()
  {
    || (e.at.AtActivity? && e.problem.ActivityMissingField? && e.problem.field in ActivityRequired
        && !Has(act, e.problem.field))
    || e in ActivityShapeErrors(e.at.day, e.at.act, act)
    || (ActivityLinkErrors(e.at.day, e.at.act, act).Some? && e in ActivityLinkErrors(e.at.day, e.at.act, act).value)
  }

  lemma {:induction false} ActivitiesErrorsPerActivity(i: nat, acts: seq<Json>, j: nat, orders: set<real>, e: Error)
    requires j <= |acts| && ActivitiesErrors(i, acts, j, orders).Some?
    requires e.InActivity() && !e.problem.DuplicateOrder? && e.at.day == i
    ensures e in ActivitiesErrors(i, acts, j, orders).value <==> j <= e.at.act < |acts| && ReportedFor(e, acts[e.at.act])
    decreases |acts| - j
  {
    if j < |acts| {
      ActivitiesErrorsStep(i, acts, j, orders);
      var r := ActivityErrors(i, j, acts[j], orders).value;
      var es := r.0;
      ActivitiesErrorsPerActivity(i, acts, j + 1, r.1, e);
      var act := acts[j];
      var m := MissingOf(act, ActivityRequired);
      var dup := OrderDuplicate(i, j, act, orders);
      assert es == ActivityMissingErrors(i, j, m) + dup + ActivityShapeErrors(i, j, act) + ActivityLinkErrors(i, j, act).value;
      assert e !in dup;
      ActivityMissingExactly(i, j, m, e);
    }
  }

  /** The missing-field errors name exactly the listed fields. */
  lemma ActivityMissingExactly(i: nat, j: nat, m: seq<string>, e: Error)
    ensures e in ActivityMissingErrors(i, j, m) <==>
      e.at == AtActivity(i, j) && e.problem.ActivityMissingField? && e.problem.field in m
  {
    var es := ActivityMissingErrors(i, j, m);
    if e.at == AtActivity(i, j) && e.problem.ActivityMissingField? && e.problem.field in m {
      var k :| 0 <= k < |m| && m[k] == e.problem.field;
      assert es[k] == e;
    }
  }

  /** One turn of the loop: this element's errors, then the rest of the loop. */
  lemma ActivitiesErrorsStep(i: nat, acts: seq<Json>, j: nat, orders: set<real>)
    requires j < |acts| && ActivitiesErrors(i, acts, j, orders).Some?
    ensures var r := ActivityErrors(i, j, acts[j], orders).value;
      && ActivitiesErrors(i, acts, j + 1, r.1).Some?
      && ActivitiesErrors(i, acts, j, orders).value == r.0 + ActivitiesErrors(i, acts, j + 1, r.1).value
  {
  }

  /** One turn of the activity loop, seen from one duplicate-order error. */
  lemma ActivitiesDuplicateStep(i: nat, acts: seq<Json>, j: nat, orders: set<real>, k: nat, o: real)
    requires j < |acts| && ActivitiesErrors(i, acts, j, orders).Some?
    ensures var r := ActivityErrors(i, j, acts[j], orders).value;
      && ActivitiesErrors(i, acts, j + 1, r.1).Some?
      && (o in r.1 <==> o in orders || OrderOf(acts[j]) == Some(o))
      && (Error(AtActivity(i, k), DuplicateOrder(o)) in ActivitiesErrors(i, acts, j, orders).value <==>
            (k == j && OrderOf(acts[j]) == Some(o) && o in orders)
            || Error(AtActivity(i, k), DuplicateOrder(o)) in ActivitiesErrors(i, acts, j + 1, r.1).value)
  {
    ActivitiesErrorsStep(i, acts, j, orders);
    var r := ActivityErrors(i, j, acts[j], orders).value;
    if k != j {
      assert Error(AtActivity(i, k), DuplicateOrder(o)) !in r.0;
    }
  }

  /** Some activity in `acts[j..k]` has the order `o`. */
  predicate OrderAmong(acts: seq<Json>, j: nat, k: nat, o: real)
    requires j <= k <= |acts|
  {
    exists m :: j <= m < k && OrderOf(acts[m]) == Some(o)
  }

  /** An earlier activity with the key is either the first one looked at or a later one. */
  lemma OrderBeforeStep(acts: seq<Json>, j: nat, k: nat, o: real)
    requires j < k <= |acts|
    ensures OrderAmong(acts, j, k, o) <==> OrderOf(acts[j]) == Some(o) || OrderAmong(acts, j + 1, k, o)
  {
    if OrderAmong(acts, j, k, o) {
      var m :| j <= m < k && OrderOf(acts[m]) == Some(o);
      assert m == j || (j + 1 <= m < k && OrderOf(acts[m]) == Some(o));
    }
  }

  lemma {:induction false} ActivitiesDuplicateOrders(i: nat, acts: seq<Json>, j: nat, orders: set<real>, k: nat, o: real)
    requires j <= |acts| && ActivitiesErrors(i, acts, j, orders).Some?
    ensures Error(AtActivity(i, k), DuplicateOrder(o)) in ActivitiesErrors(i, acts, j, orders).value <==>
      j <= k < |acts| && OrderOf(acts[k]) == Some(o) && (o in orders || OrderAmong(acts, j, k, o))
    decreases |acts| - j
  {
    if j < |acts| {
      ActivitiesDuplicateStep(i, acts, j, orders, k, o);
      var r := ActivityErrors(i, j, acts[j], orders).value;
      ActivitiesDuplicateOrders(i, acts, j + 1, r.1, k, o);
      if j < k < |acts| {
        OrderBeforeStep(acts, j, k, o);
      }
    }
  }

  /** An error about an activity is in the result exactly when that activity's own check produced it. */
  lemma ActivityErrorInResult(data: Json, earlier: (Json, Json) -> bool, e: Error)
    requires Validate(data, earlier).Checked?
    requires e.InActivity()
    ensures e in Validate(data, earlier).errors <==>
      && ReachesDays(data) && e.at.day < |Days(data)|
      && DayActivitiesErrors(e.at.day, Days(data)[e.at.day]).Some?
      && e in DayActivitiesErrors(e.at.day, Days(data)[e.at.day]).value
  {
    DayErrorInResult(data, earlier, e);
    if ReachesDays(data) && DaysErrors(Days(data), 0, {}).Some? {
      DaysErrorsActivityLevel(Days(data), 0, {}, e);
    }
  }

  /** Activity `j` of day `i`, when validation reaches the day loop and both exist. */
  function ActivityAt(data: Json, i: nat, j: nat): Option<Json> {
    if ReachesDays(data) && i < |Days(data)| && ActivitiesOf(Days(data)[i]).Some?
      && j < |ActivitiesOf(Days(data)[i]).value|
    then Some(ActivitiesOf(Days(data)[i]).value[j])
    else None
  }

  /**
   * An error about an activity, other than a duplicate order, is in the
   * result exactly when that activity's own checks report it.
   */
  lemma ActivityErrorAt(data: Json, earlier: (Json, Json) -> bool, e: Error)
    requires Validate(data, earlier).Checked?
    requires e.InActivity() && !e.problem.DuplicateOrder?
    ensures e in Validate(data, earlier).errors <==>
      ActivityAt(data, e.at.day, e.at.act).Some? && ReportedFor(e, ActivityAt(data, e.at.day, e.at.act).value)
  {
    ActivityErrorInResult(data, earlier, e);
    var i := e.at.day;
    if ReachesDays(data) && i < |Days(data)| && DayActivitiesErrors(i, Days(data)[i]).Some? {
      if ActivitiesOf(Days(data)[i]).Some? {
        ActivitiesErrorsPerActivity(i, ActivitiesOf(Days(data)[i]).value, 0, {}, e);
      }
    }
  }

  /**
   * Activity orders are unique per day: an activity is reported exactly
   * when an earlier activity of the same day has the same numeric order.
   * Equal orders on different days are therefore never reported.
   */
  lemma DuplicateOrderExactly(data: Json, earlier: (Json, Json) -> bool, i: nat, j: nat, o: real)
    requires Validate(data, earlier).Checked?
    ensures Error(AtActivity(i, j), DuplicateOrder(o)) in Validate(data, earlier).errors <==>
      && ReachesDays(data) && i < |Days(data)| && ActivitiesOf(Days(data)[i]).Some?
      && var acts := ActivitiesOf(Days(data)[i]).value;
      && j < |acts| && OrderOf(acts[j]) == Some(o) && OrderAmong(acts, 0, j, o)
  {
    ActivityErrorInResult(data, earlier, Error(AtActivity(i, j), DuplicateOrder(o)));
    if ReachesDays(data) && i < |Days(data)| && ActivitiesOf(Days(data)[i]).Some? {
      var acts := ActivitiesOf(Days(data)[i]).value;
      if DayActivitiesErrors(i, Days(data)[i]).Some? {
        ActivitiesDuplicateOrders(i, acts, 0, {}, j, o);
      }
    }
  }

  /** A present `tips` that is not a non-empty array is reported, and only then. */
  lemma TipsExactly(data: Json, earlier: (Json, Json) -> bool, i: nat, j: nat)
    requires Validate(data, earlier).Checked?
    ensures Error(AtActivity(i, j), TipsInvalid) in Validate(data, earlier).errors <==>
      ActivityAt(data, i, j).Some? && BadList(ActivityAt(data, i, j).value, "tips")
  {
    var e := Error(AtActivity(i, j), TipsInvalid);
    ActivityErrorAt(data, earlier, e);
    if ActivityAt(data, i, j).Some? {
      ShapeErrorReported(e, ActivityAt(data, i, j).value);
    }
  }

  /** A present `photoSpotTips` that is not a non-empty array is reported, and only then. */
  lemma PhotoSpotTipsExactly(data: Json, earlier: (Json, Json) -> bool, i: nat, j: nat)
    requires Validate(data, earlier).Checked?
    ensures Error(AtActivity(i, j), PhotoSpotTipsInvalid) in Validate(data, earlier).errors <==>
      ActivityAt(data, i, j).Some? && BadList(ActivityAt(data, i, j).value, "photoSpotTips")
  {
    var e := Error(AtActivity(i, j), PhotoSpotTipsInvalid);
    ActivityErrorAt(data, earlier, e);
    if ActivityAt(data, i, j).Some? {
      ShapeErrorReported(e, ActivityAt(data, i, j).value);
    }
  }

  /**
   * The `image` of an activity the loop reaches: a present value that is
   * not an object or array is reported as not an object, and an object or
   * array without a truthy `url` or `alt` is reported as missing it, each
   * exactly then.
   */
  lemma ImageExactly(data: Json, earlier: (Json, Json) -> bool, i: nat, j: nat)
    requires Validate(data, earlier).Checked?
    ensures var errs := Validate(data, earlier).errors; var act := ActivityAt(data, i, j);
      && (Error(AtActivity(i, j), ImageNotObject) in errs <==> act.Some? && NotObjectIn(act.value, "image"))
      && (Error(AtActivity(i, j), ImageMissingUrl) in errs <==> act.Some? && LacksIn(act.value, "image", "url"))
      && (Error(AtActivity(i, j), ImageMissingAlt) in errs <==> act.Some? && LacksIn(act.value, "image", "alt"))
  {
    ShapeExactly(data, earlier, Error(AtActivity(i, j), ImageNotObject));
    ShapeExactly(data, earlier, Error(AtActivity(i, j), ImageMissingUrl));
    ShapeExactly(data, earlier, Error(AtActivity(i, j), ImageMissingAlt));
  }

  /**
   * The `location` of an activity the loop reaches: reported as not an
   * object, or as missing its `mapsUrl`, exactly as `image` is.
   */
  lemma LocationExactly(data: Json, earlier: (Json, Json) -> bool, i: nat, j: nat)
    requires Validate(data, earlier).Checked?
    ensures var errs := Validate(data, earlier).errors; var act := ActivityAt(data, i, j);
      && (Error(AtActivity(i, j), LocationNotObject) in errs <==> act.Some? && NotObjectIn(act.value, "location"))
      && (Error(AtActivity(i, j), LocationMissingMapsUrl) in errs <==>
            act.Some? && LacksIn(act.value, "location", "mapsUrl"))
  {
    ShapeExactly(data, earlier, Error(AtActivity(i, j), LocationNotObject));
    ShapeExactly(data, earlier, Error(AtActivity(i, j), LocationMissingMapsUrl));
  }

  /** A shape error is in the result exactly when the reached activity's shape checks report it. */
  lemma ShapeExactly(data: Json, earlier: (Json, Json) -> bool, e: Error)
    requires Validate(data, earlier).Checked?
    requires e.at.AtActivity? && e.problem.AboutShape()
    ensures e in Validate(data, earlier).errors <==>
      ActivityAt(data, e.at.day, e.at.act).Some?
      && e in ActivityShapeErrors(e.at.day, e.at.act, ActivityAt(data, e.at.day, e.at.act).value)
  {
    ActivityErrorAt(data, earlier, e);
    if ActivityAt(data, e.at.day, e.at.act).Some? {
      ShapeErrorReported(e, ActivityAt(data, e.at.day, e.at.act).value);
    }
  }

  /** A shape error of an activity comes from the shape checks alone. */
  lemma ShapeErrorReported(e: Error, act: Json)
    requires e.at.AtActivity? && e.problem.AboutShape()
    ensures ReportedFor(e, act) <==> e in ActivityShapeErrors(e.at.day, e.at.act, act)
  {
    var links := ActivityLinkErrors(e.at.day, e.at.act, act);
    assert links.Some? ==> forall x :: x in links.value ==> x.problem.AboutLinks();
  }

  // --- duplicate source names ---

  /** One turn of the loop: this element's errors, then the rest of the loop. */
  lemma ReviewLinksErrorsStep(i: nat, j: nat, links: seq<Json>, k: nat, names: set<Json>)
    requires k < |links| && ReviewLinksErrors(i, j, links, k, names).Some?
    ensures var r := LinkErrors(i, j, k, links[k], names).value;
      && ReviewLinksErrors(i, j, links, k + 1, r.1).Some?
      && ReviewLinksErrors(i, j, links, k, names).value == r.0 + ReviewLinksErrors(i, j, links, k + 1, r.1).value
  {
  }

  /** One turn of the link loop, seen from one duplicate-source-name error. */
  lemma LinksDuplicateStep(i: nat, j: nat, links: seq<Json>, k: nat, names: set<Json>, t: nat, n: Json)
    requires k < |links| && ReviewLinksErrors(i, j, links, k, names).Some?
    ensures var r := LinkErrors(i, j, k, links[k], names).value;
      && ReviewLinksErrors(i, j, links, k + 1, r.1).Some?
      && (n in r.1 <==> n in names || SourceNameKey(links[k]) == Some(n))
      && (Error(AtLink(i, j, t), DuplicateSourceName(n)) in ReviewLinksErrors(i, j, links, k, names).value <==>
            (t == k && SourceNameKey(links[k]) == Some(n) && n in names)
            || Error(AtLink(i, j, t), DuplicateSourceName(n)) in ReviewLinksErrors(i, j, links, k + 1, r.1).value)
  {
    ReviewLinksErrorsStep(i, j, links, k, names);
    var r := LinkErrors(i, j, k, links[k], names).value;
    if t != k {
      assert Error(AtLink(i, j, t), DuplicateSourceName(n)) !in r.0;
    }
  }

  /** Some link in `links[k..t]` has the source name `n`. */
  predicate NameAmong(links: seq<Json>, k: nat, t: nat, n: Json)
    requires k <= t <= |links|
  {
    exists m :: k <= m < t && SourceNameKey(links[m]) == Some(n)
  }

  /** An earlier link with the key is either the first one looked at or a later one. */
  lemma SourceNameBeforeStep(links: seq<Json>, k: nat, t: nat, n: Json)
    requires k < t <= |links|
    ensures NameAmong(links, k, t, n) <==> SourceNameKey(links[k]) == Some(n) || NameAmong(links, k + 1, t, n)
  {
    if NameAmong(links, k, t, n) {
      var m :| k <= m < t && SourceNameKey(links[m]) == Some(n);
      assert m == k || (k + 1 <= m < t && SourceNameKey(links[m]) == Some(n));
    }
  }

  lemma {:induction false} LinksDuplicateNames(i: nat, j: nat, links: seq<Json>, k: nat, names: set<Json>, t: nat, n: Json)
    requires k <= |links| && ReviewLinksErrors(i, j, links, k, names).Some?
    ensures Error(AtLink(i, j, t), DuplicateSourceName(n)) in ReviewLinksErrors(i, j, links, k, names).value <==>
      k <= t < |links| && SourceNameKey(links[t]) == Some(n) && (n in names || NameAmong(links, k, t, n))
    decreases |links| - k
  {
    if k < |links| {
      LinksDuplicateStep(i, j, links, k, names, t, n);
      var r := LinkErrors(i, j, k, links[k], names).value;
      LinksDuplicateNames(i, j, links, k + 1, r.1, t, n);
      if k < t < |links| {
        SourceNameBeforeStep(links, k, t, n);
      }
    }
  }

  /**
   * A review link is reported as a duplicate exactly when an earlier link
   * of the same activity has the same truthy, primitive `sourceName`.
   */
  lemma DuplicateSourceNameExactly(data: Json, earlier: (Json, Json) -> bool, i: nat, j: nat, t: nat, n: Json)
    requires Validate(data, earlier).Checked?
    ensures Error(AtLink(i, j, t), DuplicateSourceName(n)) in Validate(data, earlier).errors <==>
      && ActivityAt(data, i, j).Some? && LinksOf(ActivityAt(data, i, j).value).Some?
      && var links := LinksOf(ActivityAt(data, i, j).value).value;
      && t < |links| && SourceNameKey(links[t]) == Some(n) && NameAmong(links, 0, t, n)
  {
    var e := Error(AtLink(i, j, t), DuplicateSourceName(n));
    ActivityErrorAt(data, earlier, e);
    if ActivityAt(data, i, j).Some? {
      var act := ActivityAt(data, i, j).value;
      LinkErrorReported(e, act);
      if LinksOf(act).Some? && ActivityLinkErrors(i, j, act).Some? {
        LinksDuplicateNames(i, j, LinksOf(act).value, 0, {}, t, n);
      }
    }
  }

  // --- incomplete review links ---

  /** A link without a truthy `sourceName` or `url`. */
  predicate LinkIncomplete(link: Json) {
    !TruthyProp(Get(link, "sourceName")) || !TruthyProp(Get(link, "url"))
  }

  lemma {:induction false} LinksIncomplete(i: nat, j: nat, links: seq<Json>, k: nat, names: set<Json>, t: nat)
    requires k <= |links| && ReviewLinksErrors(i, j, links, k, names).Some?
    ensures Error(AtLink(i, j, t), ReviewLinkIncomplete) in ReviewLinksErrors(i, j, links, k, names).value <==>
      k <= t < |links| && LinkIncomplete(links[t])
    decreases |links| - k
  {
    if k < |links| {
      ReviewLinksErrorsStep(i, j, links, k, names);
      var r := LinkErrors(i, j, k, links[k], names).value;
      LinksIncomplete(i, j, links, k + 1, r.1, t);
      if t != k {
        assert Error(AtLink(i, j, t), ReviewLinkIncomplete) !in r.0;
      }
    }
  }

  /**
   * A review link is reported as incomplete exactly when the loop reaches
   * it and it lacks a truthy `sourceName` or `url`.
   */
  lemma ReviewLinkIncompleteExactly(data: Json, earlier: (Json, Json) -> bool, i: nat, j: nat, t: nat)
    requires Validate(data, earlier).Checked?
    ensures Error(AtLink(i, j, t), ReviewLinkIncomplete) in Validate(data, earlier).errors <==>
      && ActivityAt(data, i, j).Some? && LinksOf(ActivityAt(data, i, j).value).Some?
      && var links := LinksOf(ActivityAt(data, i, j).value).value;
      && t < |links| && LinkIncomplete(links[t])
  {
    var e := Error(AtLink(i, j, t), ReviewLinkIncomplete);
    ActivityErrorAt(data, earlier, e);
    if ActivityAt(data, i, j).Some? {
      var act := ActivityAt(data, i, j).value;
      LinkErrorReported(e, act);
      if LinksOf(act).Some? && ActivityLinkErrors(i, j, act).Some? {
        LinksIncomplete(i, j, LinksOf(act).value, 0, {}, t);
      }
    }
  }

  /** An error about a review link comes from the `reviewLinks` check alone. */
  lemma LinkErrorReported(e: Error, act: Json)
    requires e.at.AtLink?
    ensures ReportedFor(e, act) <==>
      ActivityLinkErrors(e.at.day, e.at.act, act).Some? && e in ActivityLinkErrors(e.at.day, e.at.act, act).value
  {
  }
}

=== FILE: viewport.dfy ===
/**
 * The zoom-and-pan viewport of the day map
 * (assets/scripts/modules/map-interaction.js): a scale factor and a viewBox
 * origin over the fixed 360 x 280 map, with focal zoom, pan clamping and
 * the zoom buttons. Arithmetic is over the reals.
 */
module Viewport {

  const BaseWidth: real := 360.0
  const BaseHeight: real := 280.0
  const MinScale: real := 0.5
  const MaxScale: real := 6.0
  /** The multiplicative step of one button press or wheel notch. */
  const ZoomStep: real := 1.25
  /** The share of the visible map that must stay on screen when panning. */
  const PanMargin: real := 0.25

  /** `scale` and the viewBox origin `(vbX, vbY)`. */
  datatype View = View(scale: real, vbX: real, vbY: real)

  /** A screen point. */
  datatype Point = Point(x: real, y: real)

  /** The SVG element's bounding client rectangle. */
  datatype Rect = Rect(left: real, top: real, width: real, height: real)

  /** The view before any interaction, and after a reset. */
  const Initial: View := View(1.0, 0.0, 0.0)

  function Min(a: real, b: real): real { if a <= b then a else b }
  function Max(a: real, b: real): real { if a >= b then a else b }

  function Abs(a: real): real { if a < 0.0 then -a else a }

  /** `Math.max(MIN_ZOOM, Math.min(MAX_ZOOM, s))`. */
  function ClampScale(s: real): (r: real)
    ensures MinScale <= r <= MaxScale
    ensures MinScale <= s <= MaxScale ==> r == s
    ensures s < MinScale ==> r == MinScale
    ensures s > MaxScale ==> r == MaxScale
  {
    Max(MinScale, Min(MaxScale, s))
  }

  predicate ValidScale(s: real) {
    MinScale <= s <= MaxScale
  }

  /** The viewBox width and height at a scale. */
  function VBWidth(scale: real): real
    requires scale > 0.0
  {
    BaseWidth / scale
  }

  function VBHeight(scale: real): real
    requires scale > 0.0
  {
    BaseHeight / scale
  }

  /** The smallest and largest origin that keep a quarter of the viewBox over the map. */
  function PanLow(extent: real): real { -extent * (1.0 - PanMargin) }
  function PanHigh(base: real, extent: real): real { base - extent * PanMargin }

  predicate InPanRange(v: View)
    requires v.scale > 0.0
  {
    && PanLow(VBWidth(v.scale)) <= v.vbX <= PanHigh(BaseWidth, VBWidth(v.scale))
    && PanLow(VBHeight(v.scale)) <= v.vbY <= PanHigh(BaseHeight, VBHeight(v.scale))
  }

  /** The controller's standing invariant: a legal scale and a clamped origin. */
  predicate Settled(v: View) {
    ValidScale(v.scale) && InPanRange(v)
  }

  /** Clamps one origin coordinate into `[lo, hi]`, lower bound applied last as in `clampPan`. */
  function ClampAxis(x: real, lo: real, hi: real): (r: real)
    requires lo <= hi
    ensures lo <= r <= hi
    ensures lo <= x <= hi ==> r == x
    ensures x < lo ==> r == lo
    ensures x > hi ==> r == hi
  {
    Max(lo, Min(hi, x))
  }

  /** `clampPan()`: keeps at least a quarter of the viewBox over the map on each axis. */
  function ClampPan(v: View): (r: View)
    requires v.scale > 0.0
    ensures r.scale == v.scale
    ensures InPanRange(r)
    ensures InPanRange(v) ==> r == v
  {
    var w := VBWidth(v.scale);
    var h := VBHeight(v.scale);
    View(v.scale,
      ClampAxis(v.vbX, PanLow(w), PanHigh(BaseWidth, w)),
      ClampAxis(v.vbY, PanLow(h), PanHigh(BaseHeight, h)))
  }

  /** `clientToSVG(clientX, clientY)` with the element's rectangle passed in. */
  function ClientToSVG(v: View, rect: Rect, client: Point): (p: Point)
    requires v.scale > 0.0 && rect.width > 0.0 && rect.height > 0.0
  {
    Point(v.vbX + (client.x - rect.left) / rect.width * VBWidth(v.scale),
          v.vbY + (client.y - rect.top) / rect.height * VBHeight(v.scale))
  }

  /** The view after focal zoom, before the pan clamp. */
  function FocalZoom(v: View, newScale: real, focal: Point): (r: View)
    requires v.scale > 0.0 && newScale > 0.0
    ensures r.scale == newScale
  {
    var ratio := v.scale / newScale;
    View(newScale, focal.x - (focal.x - v.vbX) * ratio, focal.y - (focal.y - v.vbY) * ratio)
  }

  /**
   * `zoomAtPoint(factor, focalX, focalY)`: a no-op when the clamped scale
   * equals the current one, otherwise a focal zoom to the clamped scale
   * followed by the pan clamp.
   */
  function ZoomAtPoint(v: View, factor: real, focal: Point): (r: View)
    requires v.scale > 0.0
    ensures r == v || (ValidScale(r.scale) && InPanRange(r))
    ensures r.scale == ClampScale(v.scale * factor)
    ensures Settled(v) ==> Settled(r)
  {
    var newScale := ClampScale(v.scale * factor);
    if newScale == v.scale then v
    else ClampPan(FocalZoom(v, newScale, focal))
  }

  /** The centre of the current viewBox: the focal point of the zoom buttons. */
  function Centre(v: View): Point
    requires v.scale > 0.0
  {
    Point(v.vbX + VBWidth(v.scale) / 2.0, v.vbY + VBHeight(v.scale) / 2.0)
  }

  function ZoomIn(v: View): (r: View)
    requires v.scale > 0.0
    ensures Settled(v) ==> Settled(r)
  {
    ZoomAtPoint(v, ZoomStep, Centre(v))
  }

  function ZoomOut(v: View): (r: View)
    requires v.scale > 0.0
    ensures Settled(v) ==> Settled(r)
  {
    ZoomAtPoint(v, 1.0 / ZoomStep, Centre(v))
  }

  /** `resetZoom()`. */
  function ResetZoom(v: View): (r: View)
    ensures r == View(1.0, 0.0, 0.0) && Settled(r)
  {
    Initial
  }

  /** The wheel: one step in when scrolling up (negative delta), one step out otherwise. */
  function WheelFactor(deltaY: real): (f: real)
    ensures f > 0.0
    ensures deltaY < 0.0 <==> f > 1.0
  {
    if deltaY < 0.0 then ZoomStep else 1.0 / ZoomStep
  }

  /** A double click zooms in two steps at once about the clicked point. */
  const DblClickFactor: real := ZoomStep * ZoomStep

  // ---------------------------------------------------------------------
  // Properties
  // ---------------------------------------------------------------------

  /** `clampPan` is idempotent. */
  lemma ClampPanIdempotent(v: View)
    requires v.scale > 0.0
    ensures ClampPan(ClampPan(v)) == ClampPan(v)
  {
  }

  /** The pan range is never empty: its lower end is below its upper end at every scale. */
  lemma PanRangeNonEmpty(scale: real)
    requires scale > 0.0
    ensures PanLow(VBWidth(scale)) <= PanHigh(BaseWidth, VBWidth(scale))
    ensures PanLow(VBHeight(scale)) <= PanHigh(BaseHeight, VBHeight(scale))
  {
  }

  /**
   * The focal point keeps its place on screen: its offset from the origin,
   * measured in screen units (viewBox units times scale), is unchanged.
   */
  lemma FocalPointFixed(v: View, newScale: real, focal: Point)
    requires v.scale > 0.0 && newScale > 0.0
    ensures var r := FocalZoom(v, newScale, focal);
      && (focal.x - r.vbX) * r.scale == (focal.x - v.vbX) * v.scale
      && (focal.y - r.vbY) * r.scale == (focal.y - v.vbY) * v.scale
  {
    var ratio := v.scale / newScale;
    assert ratio * newScale == v.scale;
    assert (focal.x - v.vbX) * ratio * newScale == (focal.x - v.vbX) * (ratio * newScale);
    assert (focal.y - v.vbY) * ratio * newScale == (focal.y - v.vbY) * (ratio * newScale);
  }

  /** The focal point has the same relative position in the viewBox before and after. */
  lemma FocalFractionKept(v: View, newScale: real, focal: Point)
    requires v.scale > 0.0 && newScale > 0.0
    ensures var r := FocalZoom(v, newScale, focal);
      && (focal.x - r.vbX) / VBWidth(r.scale) == (focal.x - v.vbX) / VBWidth(v.scale)
      && (focal.y - r.vbY) / VBHeight(r.scale) == (focal.y - v.vbY) / VBHeight(v.scale)
  {
    var r := FocalZoom(v, newScale, focal);
    FocalPointFixed(v, newScale, focal);
    assert (focal.x - r.vbX) / VBWidth(r.scale) == (focal.x - r.vbX) * r.scale / BaseWidth;
    assert (focal.x - v.vbX) / VBWidth(v.scale) == (focal.x - v.vbX) * v.scale / BaseWidth;
    assert (focal.y - r.vbY) / VBHeight(r.scale) == (focal.y - r.vbY) * r.scale / BaseHeight;
    assert (focal.y - v.vbY) / VBHeight(v.scale) == (focal.y - v.vbY) * v.scale / BaseHeight;
  }

  /** Chained ratios cancel: (a / b) * (b / c) == a / c. */
  lemma RatioChain(a: real, b: real, c: real)
    requires b > 0.0 && c > 0.0
    ensures (a / b) * (b / c) == a / c
  {
    var r1 := a / b;
    var r2 := b / c;
    assert r1 * b == a;
    assert r2 * c == b;
    assert (r1 * r2) * c == r1 * (r2 * c);
  }

  /** Two focal zooms about the same point compose into one. */
  lemma FocalZoomComposes(v: View, s1: real, s2: real, focal: Point)
    requires v.scale > 0.0 && s1 > 0.0 && s2 > 0.0
    ensures FocalZoom(FocalZoom(v, s1, focal), s2, focal) == FocalZoom(v, s2, focal)
  {
    var m := FocalZoom(v, s1, focal);
    var r1 := v.scale / s1;
    var r2 := s1 / s2;
    RatioChain(v.scale, s1, s2);
    assert focal.x - m.vbX == (focal.x - v.vbX) * r1;
    assert focal.y - m.vbY == (focal.y - v.vbY) * r1;
    assert (focal.x - v.vbX) * r1 * r2 == (focal.x - v.vbX) * (r1 * r2);
    assert (focal.y - v.vbY) * r1 * r2 == (focal.y - v.vbY) * (r1 * r2);
  }

  /**
   * Zooming in one step and back out one step about the same point restores
   * the view, provided neither the scale clamp nor the pan clamp acts.
   */
  lemma ZoomInOutRoundTrip(v: View, focal: Point)
    requires Settled(v)
    requires ValidScale(v.scale * ZoomStep)
    requires InPanRange(FocalZoom(v, v.scale * ZoomStep, focal))
    ensures ZoomAtPoint(ZoomAtPoint(v, ZoomStep, focal), 1.0 / ZoomStep, focal) == v
  {
    var s1 := v.scale * ZoomStep;
    var m := ZoomAtPoint(v, ZoomStep, focal);
    assert m == FocalZoom(v, s1, focal);
    assert m.scale * (1.0 / ZoomStep) == v.scale;
    FocalZoomComposes(v, s1, v.scale, focal);
    assert FocalZoom(v, v.scale, focal) == v;
  }

  /** When neither clamp acts, `zoomAtPoint` is the plain focal zoom. */
  lemma UnclampedZoom(v: View, factor: real, focal: Point)
    requires v.scale > 0.0
    requires ClampScale(v.scale * factor) != v.scale
    requires InPanRange(FocalZoom(v, ClampScale(v.scale * factor), focal))
    ensures ZoomAtPoint(v, factor, focal) == FocalZoom(v, ClampScale(v.scale * factor), focal)
  {
  }

  /** Half the viewBox, rescaled by the zoom ratio, is half the new viewBox. */
  lemma HalfExtentRescales(base: real, s: real, t: real)
    requires base > 0.0 && s > 0.0 && t > 0.0
    ensures (base / s / 2.0) * (s / t) == base / t / 2.0
  {
    RatioChain(base, s, t);
    assert (base / s / 2.0) * (s / t) == ((base / s) * (s / t)) / 2.0;
  }

  /** The zoom buttons keep the viewBox centre where it was, unless a clamp acts. */
  lemma ButtonZoomKeepsCentre(v: View, factor: real)
    requires v.scale > 0.0
    requires ClampScale(v.scale * factor) != v.scale
    requires InPanRange(FocalZoom(v, ClampScale(v.scale * factor), Centre(v)))
    ensures Centre(ZoomAtPoint(v, factor, Centre(v))) == Centre(v)
  {
    var s := ClampScale(v.scale * factor);
    var c := Centre(v);
    UnclampedZoom(v, factor, c);
    var r := FocalZoom(v, s, c);
    HalfExtentRescales(BaseWidth, v.scale, s);
    HalfExtentRescales(BaseHeight, v.scale, s);
    assert c.x - v.vbX == BaseWidth / v.scale / 2.0;
    assert c.y - v.vbY == BaseHeight / v.scale / 2.0;
    assert r.vbX == c.x - BaseWidth / s / 2.0;
    assert r.vbY == c.y - BaseHeight / s / 2.0;
  }

  /** A double click zooms exactly as far as two zoom-in steps when neither clamp acts. */
  lemma DoubleClickIsTwoSteps(v: View, focal: Point)
    requires Settled(v)
    requires ValidScale(v.scale * ZoomStep) && ValidScale(v.scale * DblClickFactor)
    requires InPanRange(FocalZoom(v, v.scale * ZoomStep, focal))
    requires InPanRange(FocalZoom(v, v.scale * DblClickFactor, focal))
    ensures ZoomAtPoint(v, DblClickFactor, focal)
         == ZoomAtPoint(ZoomAtPoint(v, ZoomStep, focal), ZoomStep, focal)
  {
    assert DblClickFactor == 1.5625;
    var s1 := v.scale * ZoomStep;
    var s2 := v.scale * DblClickFactor;
    assert s1 == v.scale * 1.25 && s2 == v.scale * 1.5625;
    assert ClampScale(s1) == s1 && ClampScale(s2) == s2;
    assert s1 != v.scale && s2 != v.scale;
    assert s1 * ZoomStep == s2;
    UnclampedZoom(v, ZoomStep, focal);
    UnclampedZoom(v, DblClickFactor, focal);
    var m := FocalZoom(v, s1, focal);
    FocalZoomComposes(v, s1, s2, focal);
    UnclampedZoom(m, ZoomStep, focal);
  }

  /** The viewBox corners are the images of the element's corners. */
  lemma ClientCornersMapToViewBox(v: View, rect: Rect)
    requires v.scale > 0.0 && rect.width > 0.0 && rect.height > 0.0
    ensures ClientToSVG(v, rect, Point(rect.left, rect.top)) == Point(v.vbX, v.vbY)
    ensures ClientToSVG(v, rect, Point(rect.left + rect.width, rect.top + rect.height))
         == Point(v.vbX + VBWidth(v.scale), v.vbY + VBHeight(v.scale))
  {
  }
}

=== FILE: worker.dfy ===
/**
 * The password-gated itinerary endpoint (cloudflare/worker.js): a request
 * and the worker's environment in, one response out. The body parser
 * (`request.json()`) and `JSON.parse` of the stored text are parameters;
 * the key-value store is the value its `get` resolves to, or a rejection.
 */
module Worker {
  import opened Wrappers
  import opened Json
  import opened Text

  const AuthPath: string := "/auth-itinerary"
  const KvKey: string := "active-itinerary"
  const UnavailableMessage: string := "Itinerary unavailable."
  const NotConfiguredMessage: string :=
    "Itinerary data is not configured. Set KV key 'active-itinerary' or ITINERARY_JSON."

  /** What `await request.json()` gives: a parsed value, or a rejection. */
  datatype BodyParse = Malformed | Parsed(body: Json)

  /** A request: its HTTP method, URL path, `Origin` header and parsed body. */
  datatype Request = Request(verb: string, pathname: string, origin: Option<string>, body: BodyParse)

  /**
   * The `ITINERARY_KV` binding: absent (or without a `get` function), a
   * `get` that resolves to a string or `null`, or a `get` that rejects
   * with an error whose message may be empty.
   */
  datatype KvBinding = NoKv | KvValue(value: Option<string>) | KvRejects(message: string)

  /**
   * The worker's environment. A variable that is not a string is `None`
   * (`ALLOWED_ORIGIN` is only read through `|| ""`, so an empty one is
   * `None` too).
   */
  datatype Env = Env(allowedOrigin: Option<string>, password: Option<string>, kv: KvBinding,
                     itineraryJson: Option<string>)

  /** The response bodies, one per outcome; errors carry the message the worker sends. */
  datatype Body = NoBody | ErrorBody(message: string) | Payload(itinerary: Json)

  /** `corsHeaders(origin, allowOrigin)`; the three constant headers are left implicit. */
  datatype Response = Response(status: int, allowOrigin: string, json: bool, body: Body)

  /** `(env.ALLOWED_ORIGIN || "").trim()`. */
  function AllowedOrigin(env: Env): string {
    Trim(env.allowedOrigin.GetOr(""))
  }

  /** The request's `Origin` header, `""` when absent. */
  function OriginOf(req: Request): string {
    req.origin.GetOr("")
  }

  /** `originAllowed`: a non-blank configured origin equal to the request's. */
  predicate OriginAllowed(req: Request, env: Env) {
    |AllowedOrigin(env)| > 0 && OriginOf(req) == AllowedOrigin(env)
  }

  /** `corsHeaders(origin, allow)`: the origin itself when allowed, the string "null" otherwise. */
  function CorsOrigin(origin: string, allow: bool): (h: string)
    ensures allow ==> h == origin
    ensures !allow ==> h == "null"
  {
    if allow then origin else "null"
  }

  /** `jsonResponse(payload, status, origin, allowOrigin)`. */
  function JsonResponse(body: Body, status: int, origin: string, allow: bool): (r: Response)
    ensures r.status == status && r.json && r.body == body
    ensures r.allowOrigin == CorsOrigin(origin, allow)
  {
    Response(status, CorsOrigin(origin, allow), true, body)
  }

  /** `body?.password` when it is a string, `""` otherwise. */
  function ProvidedPassword(body: Json): (p: string)
    ensures IsString(Get(body, "password")) ==> p == Get(body, "password").value.s
    ensures !IsString(Get(body, "password")) ==> p == ""
  {
    var p := Get(body, "password");
    if p.Some? && p.value.JStr? then p.value.s else ""
  }

  /** `env.ITINERARY_PASSWORD` when it is a string, `""` otherwise. */
  function ExpectedPassword(env: Env): string {
    env.password.GetOr("")
  }

  /** The password check passes: a non-empty provided password equal to the expected one. */
  predicate PasswordAccepted(body: Json, env: Env) {
    var provided := ProvidedPassword(body);
    provided != "" && provided == ExpectedPassword(env)
  }

  /** The KV `get` resolved to a non-blank string. */
  predicate KvUsable(env: Env) {
    env.kv.KvValue? && env.kv.value.Some? && !IsBlank(env.kv.value.value)
  }

  /** `ITINERARY_JSON` is a non-blank string. */
  predicate JsonUsable(env: Env) {
    env.itineraryJson.Some? && !IsBlank(env.itineraryJson.value)
  }

  /** The outcome of `getStoredItinerary`: the text, or the message of what it threw. */
  datatype Result = Ok(text: string) | Failed(message: string)

  /**
   * `getStoredItinerary(env)`: the KV value when it is a non-blank string,
   * else a non-blank `ITINERARY_JSON`, else a failure. A rejecting `get`
   * fails with its own message.
   */
  function StoredItinerary(env: Env): (r: Result)
    ensures r.Ok? <==> !env.kv.KvRejects? && (KvUsable(env) || JsonUsable(env))
    ensures r.Ok? ==>
      && !IsBlank(r.text)
      && ((env.kv.KvValue? && env.kv.value == Some(r.text)) || env.itineraryJson == Some(r.text))
    ensures env.kv.KvRejects? ==> r == Failed(env.kv.message)
  {
    if env.kv.KvRejects? then Failed(env.kv.message)
    else if KvUsable(env) then Ok(env.kv.value.value)
    else if JsonUsable(env) then Ok(env.itineraryJson.value)
    else Failed(NotConfiguredMessage)
  }

  /** The message of a failed lookup: its own when non-empty, the generic one otherwise. */
  function FailureMessage(message: string): (m: string)
    ensures m != ""
  {
    if message != "" then message else UnavailableMessage
  }

  /** `fetch(request, env)`; `parse` is `JSON.parse` on the stored text (`None` when it throws). */
  function Handle(req: Request, env: Env, parse: string -> Option<Json>): (r: Response)
    ensures r.allowOrigin == CorsOrigin(OriginOf(req), OriginAllowed(req, env))
    ensures r.json <==> r.status != 204
  {
    var origin := OriginOf(req);
    var allowed := OriginAllowed(req, env);
    if req.verb == "OPTIONS" then
      Response(204, CorsOrigin(if allowed then origin else "", allowed), false, NoBody)
    else if req.pathname != AuthPath then
      JsonResponse(ErrorBody("Not found."), 404, if allowed then origin else "", allowed)
    else if !allowed then
      JsonResponse(ErrorBody("Forbidden origin."), 403, "", false)
    else if req.verb != "POST" then
      JsonResponse(ErrorBody("Method not allowed."), 405, origin, true)
    else if req.body.Malformed? then
      JsonResponse(ErrorBody("Invalid JSON payload."), 400, origin, true)
    else if !PasswordAccepted(req.body.body, env) then
      JsonResponse(ErrorBody("Unauthorized."), 401, origin, true)
    else match StoredItinerary(env)
      case Failed(message) => JsonResponse(ErrorBody(FailureMessage(message)), 500, origin, true)
      case Ok(raw) =>
        if raw == "" then JsonResponse(ErrorBody(UnavailableMessage), 500, origin, true)
        else match parse(raw)
          case None => JsonResponse(ErrorBody("Stored itinerary is invalid."), 500, origin, true)
          case Some(itinerary) => JsonResponse(Payload(itinerary), 200, origin, true)
  }

  // ---------------------------------------------------------------------
  // Properties
  // ---------------------------------------------------------------------

  /** The request got past the preflight, path and origin checks. */
  predicate PastOrigin(req: Request, env: Env) {
    req.verb != "OPTIONS" && req.pathname == AuthPath && OriginAllowed(req, env)
  }

  /** ... and past the method and body checks: a parsed POST body. */
  predicate PastBody(req: Request, env: Env) {
    PastOrigin(req, env) && req.verb == "POST" && req.body.Parsed?
  }

  /** ... and past the password check. */
  predicate PastPassword(req: Request, env: Env) {
    PastBody(req, env) && PasswordAccepted(req.body.body, env)
  }

  /** The stored itinerary is found and parses. */
  predicate Served(env: Env, parse: string -> Option<Json>) {
    var stored := StoredItinerary(env);
    stored.Ok? && parse(stored.text).Some?
  }

  /**
   * The decision order of the endpoint, first part: preflight 204, then
   * 404 for another path, 403 for a refused origin, 405 for another method
   * and 400 for an unparsable body.
   */
  lemma EarlyRefusals(req: Request, env: Env, parse: string -> Option<Json>)
    ensures var r := Handle(req, env, parse);
      && (r.status == 204 <==> req.verb == "OPTIONS")
      && (r.status == 404 <==> req.verb != "OPTIONS" && req.pathname != AuthPath)
      && (r.status == 403 <==> req.verb != "OPTIONS" && req.pathname == AuthPath && !OriginAllowed(req, env))
      && (r.status == 405 <==> PastOrigin(req, env) && req.verb != "POST")
      && (r.status == 400 <==> PastOrigin(req, env) && req.verb == "POST" && req.body.Malformed?)
  {
    if PastBody(req, env) {
      StoredNotEmpty(env);
    }
  }

  /** A stored itinerary that was found is never the empty string. */
  lemma StoredNotEmpty(env: Env)
    ensures StoredItinerary(env).Ok? ==> StoredItinerary(env).text != ""
  {
    if StoredItinerary(env).Ok? {
      assert !IsBlank(StoredItinerary(env).text);
    }
  }

  /**
   * The decision order, second part: past those checks, 401 for a wrong
   * password, 500 when the itinerary is missing or invalid, and 200 with
   * the parsed itinerary otherwise.
   */
  lemma DecisionOrder(req: Request, env: Env, parse: string -> Option<Json>)
    ensures var r := Handle(req, env, parse);
      && (r.status == 401 <==> PastBody(req, env) && !PasswordAccepted(req.body.body, env))
      && (r.status == 500 <==> PastPassword(req, env) && !Served(env, parse))
      && (r.status == 200 <==> PastPassword(req, env) && Served(env, parse))
      && (r.status == 200 ==> r.body == Payload(parse(StoredItinerary(env).text).value))
  {
    if !PastBody(req, env) {
      RefusedBeforePassword(req, env, parse);
    } else if !PasswordAccepted(req.body.body, env) {
      RefusedAtPassword(req, env, parse);
    } else {
      AnsweredFromStore(req, env, parse);
    }
  }

  /** A request stopped by the early checks gets none of 401, 500 and 200. */
  lemma RefusedBeforePassword(req: Request, env: Env, parse: string -> Option<Json>)
    requires !PastBody(req, env)
    ensures var r := Handle(req, env, parse); r.status != 401 && r.status != 500 && r.status != 200
  {
    var r := Handle(req, env, parse);
    if req.verb == "OPTIONS" {
      assert r.status == 204;
    } else if req.pathname != AuthPath {
      assert r.status == 404;
    } else if !OriginAllowed(req, env) {
      assert r.status == 403;
    } else if req.verb != "POST" {
      assert r.status == 405;
    } else {
      assert r.status == 400;
    }
  }

  /** A wrong password past the body check gets 401. */
  lemma RefusedAtPassword(req: Request, env: Env, parse: string -> Option<Json>)
    requires PastBody(req, env) && !PasswordAccepted(req.body.body, env)
    ensures Handle(req, env, parse).status == 401
  {
  }

  /** Past the password check: 200 with the parsed itinerary when it is served, 500 otherwise. */
  lemma AnsweredFromStore(req: Request, env: Env, parse: string -> Option<Json>)
    requires PastPassword(req, env)
    ensures var r := Handle(req, env, parse);
      && (Served(env, parse) ==> r.status == 200 && r.body == Payload(parse(StoredItinerary(env).text).value))
      && (!Served(env, parse) ==> r.status == 500)
  {
    StoredNotEmpty(env);
  }

  /** The itinerary is only ever sent to the configured origin, for a POST with the right password. */
  lemma SuccessNeedsEverything(req: Request, env: Env, parse: string -> Option<Json>)
    requires Handle(req, env, parse).status == 200
    ensures req.verb == "POST" && req.pathname == AuthPath
    ensures |AllowedOrigin(env)| > 0 && OriginOf(req) == AllowedOrigin(env)
    ensures req.body.Parsed? && ProvidedPassword(req.body.body) != ""
    ensures ProvidedPassword(req.body.body) == ExpectedPassword(env)
    ensures Handle(req, env, parse).allowOrigin == OriginOf(req)
  {
    DecisionOrder(req, env, parse);
  }

  /** A blank `ALLOWED_ORIGIN` admits no origin: every request ends at 204, 404 or 403. */
  lemma BlankAllowedOriginRefusesAll(req: Request, env: Env, parse: string -> Option<Json>)
    requires IsBlank(env.allowedOrigin.GetOr(""))
    ensures !OriginAllowed(req, env)
    ensures var r := Handle(req, env, parse);
      (r.status == 204 || r.status == 404 || r.status == 403) && r.allowOrigin == "null"
  {
    TrimEmptyIffBlank(env.allowedOrigin.GetOr(""));
  }

  /** An empty or non-string password is refused even when no password is configured. */
  lemma EmptyPasswordRefused(req: Request, env: Env, parse: string -> Option<Json>)
    requires PastBody(req, env)
    requires ProvidedPassword(req.body.body) == ""
    ensures Handle(req, env, parse).status == 401
  {
  }

  /** `getStoredItinerary` prefers the KV value, then `ITINERARY_JSON`. */
  lemma StoredItineraryPriority(env: Env)
    ensures KvUsable(env) ==> StoredItinerary(env) == Ok(env.kv.value.value)
    ensures !KvUsable(env) && !env.kv.KvRejects? && JsonUsable(env) ==>
      StoredItinerary(env) == Ok(env.itineraryJson.value)
    ensures !env.kv.KvRejects? && !KvUsable(env) && !JsonUsable(env) ==>
      StoredItinerary(env) == Failed(NotConfiguredMessage)
  {
  }
}

=== FILE: wrappers.dfy ===
/** Optional values, used for JavaScript's `null`/`undefined` results. */
module Wrappers {

  datatype Option<+T> = None | Some(value: T) {

    /** Returns the wrapped value, or `default` when there is none. */
    function GetOr(default: T): T {
      match this
      case Some(v) => v
      case None => default
    }
  }
}
